=== FILE: README.md ===
# Data-binding setter store, adapter processing and name helpers

This project models the part of the Android data-binding compiler that decides how an XML
attribute becomes a Java call.

- **Setter store.** It keeps four tables:
  - binding adapters (`@BindingAdapter`), by attribute, then view type and value type;
  - renamed setters (`@BindingMethods`);
  - converters (`@BindingConversion`);
  - untaggable view types.

  The newer store also keeps a table of multi-attribute adapters. The model covers filling the
  tables, invalidating them for recompiled classes (`clear`) and merging snapshots (`load`).
  It also covers resolving a setter for one attribute:
  - converter lookup;
  - the parameter tie-break;
  - best setter method;
  - adapter choice;
  - cast;
  - rendered call.

  For several attributes it covers building multi-attribute setters, ranking them and choosing
  a disjoint cover. Both the older (`com.android.databinding.store`) and the newer
  (`android.databinding.tool.store`) store are covered. Where they differ, a `Version` argument
  selects the behaviour.
- **`ProcessMethodAdapters`.** One annotation-processing step:
  - clear the classes of the round;
  - check and register adapters, renamed setters, converters and untaggable types;
  - collect the diagnostics.
- **`ProcessBindable`.** The property name behind each `@Bindable` field or JavaBeans accessor,
  and the text of the `BR` class that numbers the properties. It is generated at most once.
- **`list_ext.kt`.** Camel-case joins of name sections and the three indented line joins.
- **`main.kt` name helpers.** These cover:
  - a layout file's binder class name and layout id;
  - a view tag's full class name;
  - the XML file and layout folder filters;
  - the process-once flag.

## How the model is built

- **Types and reflection.** Types are qualified names. Host reflection is a `Host` value of total
  functions: assignability, primitiveness, primitive kind, boxing and `isObject`. The method
  lookup `getMethods(name, 1)` and nullability are parameters too.
- **Map iteration.** Hash-map iteration is modelled as ascending key order, which is one
  admissible order. The multi-attribute table is an insertion-ordered list that is searched with
  the key's own `equals`.
- **Failures.** Every failure the source raises becomes a `Result` error. These are:
  - `IllegalArgumentException("Already exists!")`;
  - the `checkArgument` in `toJava`;
  - the index error that a 2n+1 multi-attribute declaration causes;
  - `substring` of a name without a `.`;
  - `get(0)` of an empty list.
- **Strings.** Strings are `seq<char>`. Character classes are ASCII approximations of
  `Character.isUpperCase`, `isJavaIdentifierStart` and `toLowerCase`.

Modules follow the source:

| Module | Covers |
|---|---|
| `Registry` | registration, clear, merge, load |
| `AttributeNames` | namespace handling |
| `TypeModel` | primitive conversions |
| `Keys` | `AccessorKey`, `MultiValueAdapterKey` |
| `MultiTable` | the multi-attribute table |
| `Resolver` | `getConversionMethod`, `isBetterParameter`, `getBestSetter`, `getSetterCall` |
| `SetterCalls` | `SetterCall.toJava` |
| `MultiAttribute` | `createMultiAttributeSetter`, `getMatchingMultiAttributeSetters`, `MultiAttributeSetter.toJava` |
| `Ranking` | the comparator and the sort |
| `Covering` | `getMultiAttributeSetterCalls` |
| `MethodAdapters` | `ProcessMethodAdapters` |
| `Bindable` | `ProcessBindable` |
| `ListExt` | `list_ext.kt` |
| `LayoutNames` | the `main.kt` helpers |

Where the two store files repeat code, the row cites the newer store. Abbreviations used below:
N = `compiler/src/main/java/android/databinding/tool/store/SetterStore.java`,
O = `compiler/src/main/java/com/android/databinding/store/SetterStore.java` (the cells spell the
paths out).

## Model

| member | source | states |
|---|---|---|
| Registry.AddBindingAdapter | compiler/src/main/java/android/databinding/tool/store/SetterStore.java:183-202 | An adapter is refused exactly when its attribute already holds an equal view/value key, and the error names the duplicate. Otherwise the adapter is stored under the stripped attribute and the first two parameter types. Every other entry and every other table is unchanged. |
| Registry.SecondAdapterForSameKeyRefused | compiler/src/main/java/android/databinding/tool/store/SetterStore.java:196-199 | A second adapter with the same attribute and the same first two parameter types is refused, whatever its other parameters. |
| Registry.HasAdapterIffPresent | compiler/src/main/java/android/databinding/tool/store/SetterStore.java:197 | Under structural key equality, `containsKey` holds exactly when the key's own entry is present. |
| Registry.AdaptersCommute | compiler/src/main/java/android/databinding/tool/store/SetterStore.java:183-202 | Two successful registrations under different keys give the same store in either order. |
| Registry.AddRenamedMethod | compiler/src/main/java/android/databinding/tool/store/SetterStore.java:169-181 | The renamed setter is stored under the attribute key and the view class, owned by the declaring class. Nothing else changes. |
| Registry.RenamedMethodLastWins | compiler/src/main/java/android/databinding/tool/store/SetterStore.java:169-181 | A later renamed setter for the same attribute and class replaces the earlier one. |
| Registry.AddConversionMethod | compiler/src/main/java/android/databinding/tool/store/SetterStore.java:249-261 | The converter is stored from its parameter type to its return type. All other pairs and tables are unchanged. |
| Registry.ConversionLastWins | compiler/src/main/java/android/databinding/tool/store/SetterStore.java:249-261 | A later converter for the same pair of types replaces the earlier one. |
| Registry.AddUntaggableTypes | compiler/src/main/java/android/databinding/tool/store/SetterStore.java:219-225 | The named types are added, declared by the class. The other types keep their declarers, and the other tables are unchanged. |
| Registry.UntaggableAfterAdd | compiler/src/main/java/android/databinding/tool/store/SetterStore.java:497-499 | After adding, a type is untaggable exactly when it was before or it is one of the named types. |
| Registry.AddMultiBindingAdapter | compiler/src/main/java/android/databinding/tool/store/SetterStore.java:204-209 | The registration succeeds exactly for n+1 parameters, and the table then stays valid. A 2n+1 declaration fails inside the key constructor. Only the multi-attribute table changes. |
| Registry.MultiAdapterLastWins | compiler/src/main/java/android/databinding/tool/store/SetterStore.java:204-209 | Registering an equal key again replaces the adapter in place. |
| Registry.ClearTable | compiler/src/main/java/android/databinding/tool/store/SetterStore.java:263-294 | A nested table loses exactly the entries declared by the given classes. Outer keys stay. |
| Registry.Clear | compiler/src/main/java/android/databinding/tool/store/SetterStore.java:263-303 | `clear` as written: the untaggable types declared by the classes go, and the multi-attribute table is left as it is. |
| Registry.ClearRemovesOwned | compiler/src/main/java/android/databinding/tool/store/SetterStore.java:263-303 | Every registration that survives `clear` is unchanged and is declared outside the classes. |
| Registry.ClearAlgebra | compiler/src/main/java/android/databinding/tool/store/SetterStore.java:263-303 | Clearing no classes is the identity. Clearing is idempotent. Two clears are one clear of the union. |
| Registry.ClearKeepsStaleMultiAdapter | compiler/src/main/java/android/databinding/tool/store/SetterStore.java:263-303 | A multi-attribute adapter declared by a cleared class survives `clear`. |
| Registry.ClearAll | compiler/src/main/java/android/databinding/tool/store/SetterStore.java:263-303 | The corrected `clear` is `clear` as written on the four tables. In addition, it removes exactly the multi-attribute adapters declared by the classes, and it keeps the table valid. |
| Registry.MergeTables | compiler/src/main/java/android/databinding/tool/store/SetterStore.java:641-656 | The nested merge keeps every pair already present and adds the pairs found only in the second table. |
| Registry.Merge | compiler/src/main/java/android/databinding/tool/store/SetterStore.java:632-639 | Merging keeps the store valid. Untaggable types are the union, and the snapshot's declarer wins. |
| Registry.MergeNestedIdentities | compiler/src/main/java/android/databinding/tool/store/SetterStore.java:641-656 | Merging into an empty table copies the second table. Merging a table into itself changes nothing. |
| Registry.Load | compiler/src/main/java/android/databinding/tool/store/SetterStore.java:158-167 | Loading any sequence of valid snapshots gives a valid store. |
| Registry.LoadPrecedence | compiler/src/main/java/android/databinding/tool/store/SetterStore.java:158-167 | After loading, an adapter is the one from the first snapshot that registered its key. An untaggable type is declared by the last snapshot naming it. |
| Registry.FirstAdapterOfPrefix | compiler/src/main/java/android/databinding/tool/store/SetterStore.java:163-165 | The first registering snapshot of a longer list is the one of the shorter list, if there is one, and otherwise the new snapshot. |
| AccessorKeyAsWritten.AddAsWritten | compiler/src/main/java/android/databinding/tool/store/SetterStore.java:196-201 | With `AccessorKey.equals` as written, the duplicate check refuses exactly when some stored key compares equal. Otherwise the entry is appended. |
| AccessorKeyAsWritten.EqualsAsWrittenReflexiveIff | compiler/src/main/java/android/databinding/tool/store/SetterStore.java:770-777 | `equals` as written holds between a key and itself only when its view type equals its value type. |
| AccessorKeyAsWritten.DuplicateDetectedOnlyForEqualTypes | compiler/src/main/java/android/databinding/tool/store/SetterStore.java:770-777 | A duplicate is detected only for keys whose view and value types coincide, and for such keys it always is. |
| AccessorKeyAsWritten.SecondTextViewAdapterAccepted | compiler/src/main/java/android/databinding/tool/store/SetterStore.java:196-199 | A second `(TextView, String)` adapter is accepted alongside the first. |
| AttributeNames.StripNamespace | compiler/src/main/java/android/databinding/tool/store/SetterStore.java:318-326 | An `android:` name and a name without a colon are kept. Any other name is cut after its first colon. |
| AttributeNames.StripNamespaceOfQualified | compiler/src/main/java/android/databinding/tool/store/SetterStore.java:318-326 | Stripping undoes qualification with any namespace except `android`. |
| AttributeNames.StripAttributes | compiler/src/main/java/android/databinding/tool/store/SetterStore.java:211-217 | Every attribute is stripped, and the order is kept. |
| AttributeNames.TrimAttributeNamespace | compiler/src/main/java/android/databinding/tool/store/SetterStore.java:546-549 | A name without a colon is kept. Otherwise the name is a colon-free namespace, a colon and the result, so the result is the text after the first colon, whatever the namespace. |
| AttributeNames.DefaultSetterName | compiler/src/main/java/android/databinding/tool/store/SetterStore.java:551-553 | The default setter name starts with `set` and is three longer than the trimmed name. For a name without a colon it is `set` and the capitalised name. |
| AttributeNames.DefaultSetterIgnoresNamespace | compiler/src/main/java/android/databinding/tool/store/SetterStore.java:546-553 | For `ns:name` under any namespace, `android` included, the default setter is `set` and the capitalised `name`, further colons in `name` included. For a colon-free `name` it is the setter of the bare name. |
| AttributeNames.DefaultSetterAfterStrip | compiler/src/main/java/android/databinding/tool/store/SetterStore.java:438-491 | For names with at most one colon, stripping first does not change the default setter name. |
| TypeModel.ConversionLevel | compiler/src/main/java/com/android/databinding/store/SetterStore.java:476-496 | The level is the kind's rung on the byte-char-short-int-long-float-double ladder, and -1 for null or any other type. |
| TypeModel.ImplicitConversionAsWrittenFollowsLadder | compiler/src/main/java/com/android/databinding/store/SetterStore.java:430-441 | As written, a conversion is implicit exactly when both sides are primitive, neither is boolean, the target is not char, and the ladder level rises. |
| TypeModel.ImplicitConversionCorrection | compiler/src/main/java/com/android/databinding/store/SetterStore.java:430-441 | The widening relation of the Java language is the as-written relation minus two cases: `char` to `short`, and any conversion from a primitive off the ladder (such as `void`, whose level -1 is below every rung). |
| TypeModel.VoidToIntIsNotWidening | compiler/src/main/java/com/android/databinding/store/SetterStore.java:430-441 | As written, `void` to `int` is accepted, because `getConversionLevel` gives `void` the level -1; the language has no such conversion. |
| TypeModel.CharToShortIsNotWidening | compiler/src/main/java/com/android/databinding/store/SetterStore.java:430-441 | As written, `char` to `short` is accepted, although it is not a widening conversion. |
| TypeModel.ImplicitConversionIsStrictOrder | compiler/src/main/java/com/android/databinding/store/SetterStore.java:430-441 | Implicit conversion is irreflexive and transitive, and it raises the ladder level. |
| TypeModel.IsBoxingConversion | compiler/src/main/java/com/android/databinding/store/SetterStore.java:498-504 | A boxing conversion never relates a type to itself. |
| TypeModel.CanUseForConversion | compiler/src/main/java/android/databinding/tool/store/SetterStore.java:627-630 | Every type can be used as itself. |
| Keys.DescribeMethod | compiler/src/main/java/android/databinding/tool/store/SetterStore.java:723-728 | The description is the enclosing class and the simple name. |
| Keys.AttributeIndices | compiler/src/main/java/android/databinding/tool/store/SetterStore.java:669-678 | The index map covers exactly the attributes and gives each one the last position where it occurs. |
| Keys.IndicesOfDistinct | compiler/src/main/java/android/databinding/tool/store/SetterStore.java:674-677 | In a repetition-free list, each attribute's index is its position. |
| Keys.EqualKeysAgreeOn | compiler/src/main/java/android/databinding/tool/store/SetterStore.java:681-701 | Equal keys give every attribute the same parameter type. |
| Keys.AgreeingKeysAreEqual | compiler/src/main/java/android/databinding/tool/store/SetterStore.java:681-701 | Keys with the same view, the same attribute set and agreeing parameter types are equal. |
| Keys.MultiKeyEqualsCharacterization | compiler/src/main/java/android/databinding/tool/store/SetterStore.java:681-706 | Two keys are equal exactly when they have the same view, the same attribute set and the same parameter type for each attribute. Equal keys hash alike. |
| Keys.MultiKeyEqualsIsEquivalence | compiler/src/main/java/android/databinding/tool/store/SetterStore.java:681-701 | On repetition-free keys, equality is reflexive, symmetric and transitive. |
| Keys.SwappedAttributesGiveEqualKey | compiler/src/main/java/android/databinding/tool/store/SetterStore.java:681-701 | Listing two attributes, and their parameters, in the other order gives an equal key. |
| Keys.MakeMultiKey | compiler/src/main/java/android/databinding/tool/store/SetterStore.java:669-678 | A key is built exactly for n+1 parameters. It has the first parameter as view, the stripped attributes, and parameter i+1 for attribute i. |
| MultiTable.FindMulti | compiler/src/main/java/android/databinding/tool/store/SetterStore.java:798-799 | A lookup finds an entry whose key is equal, or reports that no key is equal. |
| MultiTable.PutMulti | compiler/src/main/java/android/databinding/tool/store/SetterStore.java:208 | `put` replaces the adapter of an equal key in place, or appends. The table stays valid. |
| MultiTable.PutMultiLastWins | compiler/src/main/java/android/databinding/tool/store/SetterStore.java:208 | After a `put`, the key finds its adapter. A second `put` under the same key overrides the first. |
| MultiTable.PutAllMulti | compiler/src/main/java/android/databinding/tool/store/SetterStore.java:637 | `putAll` keeps the table valid and grows it by at most the second table's size. |
| MultiTable.FindMultiFirst | compiler/src/main/java/android/databinding/tool/store/SetterStore.java:208 | `get` stops at the first entry whose key is equal: no earlier key is equal. |
| MultiTable.FindMultiIsFirst | compiler/src/main/java/android/databinding/tool/store/SetterStore.java:208 | Conversely, the first entry with an equal key is the one `get` finds. |
| MultiTable.FindMultiEqualKeys | compiler/src/main/java/android/databinding/tool/store/SetterStore.java:681-706 | Keys that are equal to each other are found at the same entry. |
| MultiTable.GetMultiAfterPut | compiler/src/main/java/android/databinding/tool/store/SetterStore.java:208 | After `put(k, m)`, `get(key)` is `m` when `key` equals `k`, and otherwise what it was before. |
| MultiTable.GetMultiAfterPutAll | compiler/src/main/java/android/databinding/tool/store/SetterStore.java:637 | After `putAll(second)`, `get(key)` is the adapter of the last entry of `second` whose key is equal. When no entry of `second` has an equal key, it is what it was before. |
| MultiTable.FilterOwned | compiler/src/main/java/android/databinding/tool/store/SetterStore.java:263-303 | Exactly the entries declared outside the classes are kept. |
| MultiTable.FilterKeepsValid | compiler/src/main/java/android/databinding/tool/store/SetterStore.java:263-303 | Filtering keeps a valid table valid. |
| Resolver.GetConversionMethod | compiler/src/main/java/android/databinding/tool/store/SetterStore.java:598-625 | A converter is found exactly when both types are present and some registered converter accepts the source and yields something usable for the target. What is returned is such a converter. |
| Resolver.FirstTarget | compiler/src/main/java/android/databinding/tool/store/SetterStore.java:607-613 | In a usable source type, the inner loop stops at a target usable for the wanted type. |
| Resolver.NoUsableSourceNoConverter | compiler/src/main/java/android/databinding/tool/store/SetterStore.java:600-624 | When no source type is usable, no converter fits. |
| Resolver.IsBetterParameter | compiler/src/main/java/android/databinding/tool/store/SetterStore.java:555-596 | A winning parameter can always take the argument. With no best parameter yet, a parameter wins exactly when it can take the argument. |
| Resolver.ExactMatchRule | compiler/src/main/java/android/databinding/tool/store/SetterStore.java:558-562 | An exact match wins unless the view is no better and the best is already exact. |
| Resolver.ImplicitConversionRule | compiler/src/main/java/android/databinding/tool/store/SetterStore.java:570-574 | A widening candidate wins exactly when the best parameter has no level or a higher one. |
| Resolver.ExactMatchBeatsWidening | compiler/src/main/java/android/databinding/tool/store/SetterStore.java:555-596 | Once an exact match is held, no widening candidate displaces it. |
| Resolver.BoxingDisplacesExactMatch | compiler/src/main/java/android/databinding/tool/store/SetterStore.java:563-568 | A boxing candidate displaces an exact match when the view match is better, and not otherwise. |
| Resolver.RenamedSetter | compiler/src/main/java/android/databinding/tool/store/SetterStore.java:507-521 | The renamed setter is absent exactly when no registered class takes the view. Otherwise it is the setter of such a class. |
| Resolver.SetterCandidates | compiler/src/main/java/android/databinding/tool/store/SetterStore.java:507-523 | The candidate names end with the default setter name and then the trimmed name, preceded by the renamed setter when there is one. |
| Resolver.ScanMethods | compiler/src/main/java/android/databinding/tool/store/SetterStore.java:532-540 | The result is the previous best or an eligible method of the list. It is empty exactly when nothing was held and no method is usable. |
| Resolver.ScanNames | compiler/src/main/java/android/databinding/tool/store/SetterStore.java:529-541 | The result is the previous best or a method a candidate name denotes. It is empty exactly when nothing was held and none is usable. |
| Resolver.OlderLastNameWins | compiler/src/main/java/com/android/databinding/store/SetterStore.java:355-375 | The older store resets the best parameter for each name, so a usable method under the last name always wins. |
| Resolver.GetBestSetter | compiler/src/main/java/android/databinding/tool/store/SetterStore.java:501-544 | The best setter is a method of a candidate name, and it is absent exactly when no candidate method is usable. |
| Resolver.ScanAdapters | compiler/src/main/java/android/databinding/tool/store/SetterStore.java:452-479 | The adapter loop picks nothing new exactly when no adapter for a supertype of the view can take the value. Otherwise it picks such an adapter. |
| Resolver.GetSetterCall | compiler/src/main/java/android/databinding/tool/store/SetterStore.java:436-495 | The call is the default setter exactly when there is no view, or no usable setter method and no usable adapter. An adapter call uses a registered adapter for a supertype of the view, and a model-method call names a candidate method. A cast is set only by the newer store, and only for object values. |
| Resolver.SetterCallOf | compiler/src/main/java/android/databinding/tool/store/SetterStore.java:439-494 | The same as `GetSetterCall`, for an attribute whose namespace is already stripped. |
| Resolver.SetterCallIgnoresNamespace | compiler/src/main/java/android/databinding/tool/store/SetterStore.java:438 | An attribute under any namespace but `android` resolves like the bare name. |
| SetterCalls.CastString | compiler/src/main/java/android/databinding/tool/store/SetterStore.java:898-900 | The cast text is the type in parentheses followed by a space. |
| SetterCalls.ConvertValue | compiler/src/main/java/android/databinding/tool/store/SetterStore.java:891-894 | Without a converter the value is unchanged. With one, the value can be read back from inside the converter call. |
| SetterCalls.ToJava | compiler/src/main/java/android/databinding/tool/store/SetterStore.java:886-889 | Rendering fails exactly when there is not exactly one value expression, and the error names the count. |
| SetterCalls.MinApi | compiler/src/main/java/android/databinding/tool/store/SetterStore.java:810-864 | Default and adapter setters work from API level 1. |
| SetterCalls.ToJavaShape | compiler/src/main/java/android/databinding/tool/store/SetterStore.java:810-889 | Every rendered call is a fixed prefix, then the converted value, then `)`. |
| SetterCalls.ToJavaRoundTrip | compiler/src/main/java/android/databinding/tool/store/SetterStore.java:886-894 | The value expression can be read back from the rendered call. |
| SetterCalls.ToJavaInjective | compiler/src/main/java/android/databinding/tool/store/SetterStore.java:886-894 | Different value expressions render differently. |
| SetterCalls.PlainCalls | compiler/src/main/java/android/databinding/tool/store/SetterStore.java:810-840 | An adapter renders as `Type.method(view, value)` and a default setter as `view.setX(value)`. |
| MultiAttribute.Scan | compiler/src/main/java/android/databinding/tool/store/SetterStore.java:398-426 | The loop fails exactly at a requested attribute whose value fits neither by assignment, boxing, widening, converter nor cast. Otherwise it counts the attributes of the key that were found. |
| MultiAttribute.CreateMultiAttributeSetter | compiler/src/main/java/android/databinding/tool/store/SetterStore.java:392-434 | A setter is built exactly when no value mismatches and every key attribute was found. It carries the key and the adapter. |
| MultiAttribute.CreateMultiAttributeSetterIff | compiler/src/main/java/android/databinding/tool/store/SetterStore.java:392-434 | For distinct requested attributes, a setter is built exactly when all of its attributes are requested, without repetition, and no value mismatches. |
| MultiAttribute.CreateMultiAttributeSetterContents | compiler/src/main/java/android/databinding/tool/store/SetterStore.java:398-426 | Each key attribute's converter and cast are the ones its value's fit calls for. |
| MultiAttribute.HitsOfDistinct | compiler/src/main/java/android/databinding/tool/store/SetterStore.java:398-401 | For distinct requested attributes, the match counter is the size of the common part. |
| MultiAttribute.FixesOf | compiler/src/main/java/android/databinding/tool/store/SetterStore.java:402-423 | Each requested attribute of the key gets the fit of its value to the key's parameter. |
| MultiAttribute.GetMatching | compiler/src/main/java/android/databinding/tool/store/SetterStore.java:371-390 | The candidates are exactly the setters that the entries for a supertype of the view, not needing more attributes than requested, build. |
| MultiAttribute.ArgumentTexts | compiler/src/main/java/android/databinding/tool/store/SetterStore.java:933-951 | Each argument text is the value, converted or cast as that attribute requires. |
| MultiAttribute.ToJava | compiler/src/main/java/android/databinding/tool/store/SetterStore.java:923-954 | Rendering fails exactly when the number of values differs from the number of attributes. |
| MultiAttribute.JoinArguments | compiler/src/main/java/android/databinding/tool/store/SetterStore.java:933-951 | The loop writes a comma before every argument text. |
| MultiAttribute.RenderMultiCall | compiler/src/main/java/android/databinding/tool/store/SetterStore.java:923-954 | The `StringBuilder` rendering equals the functional rendering. |
| MultiAttribute.CommaJoinIsConcat | compiler/src/main/java/android/databinding/tool/store/SetterStore.java:933-951 | The comma join is the concatenation of comma-prefixed parts. |
| MultiAttribute.PlainArguments | compiler/src/main/java/android/databinding/tool/store/SetterStore.java:943-949 | Without converters or casts, the arguments are the values, each after a comma. |
| Covering.RemoveConsumed | compiler/src/main/java/android/databinding/tool/store/SetterStore.java:344-369 | Exactly the setters that need none of the attributes are kept. The list shrinks when one needs one. |
| Covering.Cover | compiler/src/main/java/android/databinding/tool/store/SetterStore.java:335-339 | The chosen setters come from the candidates, and the first candidate is chosen first. |
| Covering.CoverDisjoint | compiler/src/main/java/android/databinding/tool/store/SetterStore.java:335-359 | No two chosen setters share an attribute. |
| Covering.CoverMaximal | compiler/src/main/java/android/databinding/tool/store/SetterStore.java:335-359 | Every candidate shares an attribute with a chosen setter. |
| Covering.CoverLoop | compiler/src/main/java/android/databinding/tool/store/SetterStore.java:335-339 | The `while` loop computes the cover. |
| Covering.SortedCandidates | compiler/src/main/java/android/databinding/tool/store/SetterStore.java:330-334 | The sorted candidates are exactly the matching setters, each needing an attribute. |
| Covering.GetMultiAttributeSetterCalls | compiler/src/main/java/android/databinding/tool/store/SetterStore.java:328-341 | Every chosen call is a matching setter for the stripped attributes. |
| Covering.MultiAttributeSetterCallsCover | compiler/src/main/java/android/databinding/tool/store/SetterStore.java:328-359 | The chosen calls share no attributes, and every matching setter overlaps one of them. |
| Covering.MultiAttributeSetterCallsFromTable | compiler/src/main/java/android/databinding/tool/store/SetterStore.java:371-390 | Each chosen call is the setter that some considered table entry builds. |
| Covering.FirstCallIsWidest | compiler/src/main/java/android/databinding/tool/store/SetterStore.java:63-65 | When assignability is antisymmetric, the first call needs as many attributes as any candidate. |
| Ranking.Compare | compiler/src/main/java/android/databinding/tool/store/SetterStore.java:59-143 | A setter with more attributes comes first, and a non-positive comparison means at least as many attributes. |
| Ranking.CompareAntisymmetric | compiler/src/main/java/android/databinding/tool/store/SetterStore.java:59-143 | When assignability is antisymmetric, the corrected comparator is antisymmetric. |
| Ranking.CompareAsWrittenNotAntisymmetric | compiler/src/main/java/android/databinding/tool/store/SetterStore.java:68-74 | As written, two setters on unrelated views both compare as less than each other. The corrected comparator falls through to the attribute comparison. |
| Ranking.UnrelatedInterfacesExample | compiler/src/main/java/android/databinding/tool/store/SetterStore.java:68-74 | A concrete pair of setters on unrelated views for which the comparator returns -1 both ways. |
| Ranking.AttributeVerdictAntisymmetric | compiler/src/main/java/android/databinding/tool/store/SetterStore.java:92-139 | The verdict on one attribute is antisymmetric. |
| Ranking.LexCompareAntisymmetric | compiler/src/main/java/android/databinding/tool/store/SetterStore.java:78-87 | The attribute-name comparison is antisymmetric. |
| Ranking.CompareNotTransitive | compiler/src/main/java/android/databinding/tool/store/SetterStore.java:59-143 | On a host where `C` is assignable to `A` and `String` to `Object`, the corrected comparator puts `C(Object)` before `A(int)`, `A(int)` before `B(String)` and `B(String)` before `C(Object)`: it is antisymmetric but not transitive. |
| Ranking.SortSettersOnCycle | compiler/src/main/java/android/databinding/tool/store/SetterStore.java:334 | On that cycle, the model's sort turns `[A, C, B]` into `[C, A, B]`, where TimSort gives `[B, C, A]`. |
| Ranking.SortSetters | compiler/src/main/java/android/databinding/tool/store/SetterStore.java:334 | The sort is a permutation of its input. |
| Ranking.SortedByAttributeCount | compiler/src/main/java/android/databinding/tool/store/SetterStore.java:334 | After the sort, adjacent setters are in comparator order and attribute counts never increase. |
| MethodAdapters.FirstOldNewMismatch | compiler/src/main/java/android/databinding/annotationprocessor/ProcessMethodAdapters.java:105-114 | The loop stops at the first old-value parameter whose type differs from its new-value partner, or finds none. |
| MethodAdapters.AdapterRejection | compiler/src/main/java/android/databinding/annotationprocessor/ProcessMethodAdapters.java:86-123 | A declaration is skipped exactly when it breaks a rule. The checks come in the source's order: not a public static method, no attribute, an old/new type mismatch (with its 1-based positions), then the wrong parameter count. |
| MethodAdapters.WarnsIffNamespaceDropped | compiler/src/main/java/android/databinding/annotationprocessor/ProcessMethodAdapters.java:140-144 | The namespace warning is given exactly for the attributes whose namespace the store drops. |
| MethodAdapters.NamespaceWarnings | compiler/src/main/java/android/databinding/annotationprocessor/ProcessMethodAdapters.java:146-150 | One warning is given per offending attribute. |
| MethodAdapters.AddBindingAdapter1 | compiler/src/main/java/android/databinding/annotationprocessor/ProcessMethodAdapters.java:86-136 | One declaration: the step aborts exactly on a well-formed 2n+1 multi-attribute declaration. A broken declaration yields only its message. A single-attribute adapter is added only if its key was absent. Only the adapter tables change. |
| MethodAdapters.AddBindingAdapters | compiler/src/main/java/android/databinding/annotationprocessor/ProcessMethodAdapters.java:82-138 | The loop aborts exactly when some declaration aborts. Otherwise only the adapter tables change. |
| MethodAdapters.AdaptersAddedOnlyByDeclarations | compiler/src/main/java/android/databinding/annotationprocessor/ProcessMethodAdapters.java:82-138 | Every adapter entry that the loop changes was absent, and it belongs to a valid single-attribute declaration of the round. |
| MethodAdapters.RejectedAdapterSkipped | compiler/src/main/java/android/databinding/annotationprocessor/ProcessMethodAdapters.java:86-123 | A broken declaration adds its message and nothing else. |
| MethodAdapters.DuplicateAdapterReportedAndSkipped | compiler/src/main/java/android/databinding/annotationprocessor/ProcessMethodAdapters.java:134-136 | A duplicate adapter adds its namespace warnings and the duplicate message, and it leaves the store unchanged. |
| MethodAdapters.AddBindingAdaptersAppend | compiler/src/main/java/android/databinding/annotationprocessor/ProcessMethodAdapters.java:84-137 | One more declaration is processed after the others, and its messages are appended. |
| MethodAdapters.DuplicateStep | compiler/src/main/java/android/databinding/annotationprocessor/ProcessMethodAdapters.java:124-136 | A declaration whose key is present is reported and changes nothing. |
| MethodAdapters.AddRenamed | compiler/src/main/java/android/databinding/annotationprocessor/ProcessMethodAdapters.java:152-171 | Only the renamed-setter table changes. |
| MethodAdapters.AddRenamedMethods | compiler/src/main/java/android/databinding/annotationprocessor/ProcessMethodAdapters.java:158-169 | The last entry's setter is stored for its stripped attribute and view type. There is one warning per namespaced attribute. |
| MethodAdapters.RenamedAddedOnlyByEntries | compiler/src/main/java/android/databinding/annotationprocessor/ProcessMethodAdapters.java:158-169 | Every renamed setter that changes is declared by the class, for one of its entries. |
| MethodAdapters.ConversionRejection | compiler/src/main/java/android/databinding/annotationprocessor/ProcessMethodAdapters.java:177-195 | A converter is accepted exactly when it is a public static method with one parameter and a non-void result. The errors come in the source's order. |
| MethodAdapters.AddConversions | compiler/src/main/java/android/databinding/annotationprocessor/ProcessMethodAdapters.java:173-200 | Every changed converter comes from an accepted declaration. The last accepted declaration is in place. There is one message per declaration. Only the converter table changes. |
| MethodAdapters.AddUntaggable | compiler/src/main/java/android/databinding/annotationprocessor/ProcessMethodAdapters.java:202-208 | Every named type becomes untaggable, declared by a class that names it or by its earlier declarer. |
| MethodAdapters.RoundClasses | compiler/src/main/java/android/databinding/annotationprocessor/ProcessMethodAdapters.java:210-231 | The cleared classes are exactly the classes of the round's four kinds of declaration. |
| MethodAdapters.OnHandleStep | compiler/src/main/java/android/databinding/annotationprocessor/ProcessMethodAdapters.java:54-74 | The step aborts exactly when an adapter declaration aborts. Otherwise the multi-attribute table stays valid. |
| MethodAdapters.StepConversionsAreCurrent | compiler/src/main/java/android/databinding/annotationprocessor/ProcessMethodAdapters.java:61-65 | After the step, a converter either predates the round and is declared outside it, or is an accepted declaration of the round. |
| MethodAdapters.StepAdaptersAreCurrent | compiler/src/main/java/android/databinding/annotationprocessor/ProcessMethodAdapters.java:61-63 | After the step, an adapter either predates the round and is declared outside it, or comes from a valid declaration of the round. |
| Bindable.Prefixes | annotationprocessor/src/main/java/com/android/databinding/annotationprocessor/ProcessBindable.java:126-139 | The loop answers exactly whether the prefix starts a strictly longer name. |
| Bindable.Decapitalize | annotationprocessor/src/main/java/com/android/databinding/annotationprocessor/ProcessBindable.java:121-123 | The first character is lower-cased and the rest is kept. |
| Bindable.StripPrefixFromField | annotationprocessor/src/main/java/com/android/databinding/annotationprocessor/ProcessBindable.java:96-107 | An `mX` or `_x` field loses its prefix and is decapitalised. Any other name is kept. |
| Bindable.StripPrefixFromMethod | annotationprocessor/src/main/java/com/android/databinding/annotationprocessor/ProcessBindable.java:109-124 | A name is given exactly for getters, setters and boolean getters, and it is non-empty and shorter than the method name. Any other method is an error. |
| Bindable.GetPropertyName | annotationprocessor/src/main/java/com/android/databinding/annotationprocessor/ProcessBindable.java:83-94 | A field uses the field rule and a method uses the accessor rule. Any other kind is an error naming the kind. |
| Bindable.FieldNamesRoundTrip | annotationprocessor/src/main/java/com/android/databinding/annotationprocessor/ProcessBindable.java:96-107 | `m` plus the capitalised property, and `_` plus the property, both give the property back. |
| Bindable.AccessorNamesRoundTrip | annotationprocessor/src/main/java/com/android/databinding/annotationprocessor/ProcessBindable.java:109-163 | `getP`, `setP` and `isP` accessors of the right shapes give the property `p` back. |
| Bindable.DecapitalizeCapitalize | annotationprocessor/src/main/java/com/android/databinding/annotationprocessor/ProcessBindable.java:121-123 | Decapitalising undoes capitalising a lower-case property name. |
| Bindable.Properties | annotationprocessor/src/main/java/com/android/databinding/annotationprocessor/ProcessBindable.java:41-49 | The properties are exactly the names that some element gives. |
| Bindable.PropertyErrors | annotationprocessor/src/main/java/com/android/databinding/annotationprocessor/ProcessBindable.java:83-124 | The errors are exactly those that some element gives. |
| Bindable.BrId | annotationprocessor/src/main/java/com/android/databinding/annotationprocessor/ProcessBindable.java:59-74 | A property's id is its 1-based position in sorted order. |
| Bindable.BrIdsAreConsecutive | annotationprocessor/src/main/java/com/android/databinding/annotationprocessor/ProcessBindable.java:70-74 | Ids are non-zero, unique, and ordered like the names. |
| Bindable.BrIdsCoverRange | annotationprocessor/src/main/java/com/android/databinding/annotationprocessor/ProcessBindable.java:70-74 | Every id from 1 to the number of properties is used. |
| Bindable.BrDeclaresEachProperty | annotationprocessor/src/main/java/com/android/databinding/annotationprocessor/ProcessBindable.java:66-75 | Every property has a field with its id, and every field is a property with its id. |
| Bindable.GenerateBR | annotationprocessor/src/main/java/com/android/databinding/annotationprocessor/ProcessBindable.java:55-81 | The writer loop produces the `BR` text. |
| Bindable.NatToStringRoundTrip | annotationprocessor/src/main/java/com/android/databinding/annotationprocessor/ProcessBindable.java:73 | The decimal text of an id reads back as the id. |
| Bindable.Process | annotationprocessor/src/main/java/com/android/databinding/annotationprocessor/ProcessBindable.java:37-53 | A round claims its annotations and writes `BR` from the elements' properties exactly when `BR` was not yet generated. Its errors are exactly the elements' errors. Afterwards the flag is set. |
| Bindable.BrGeneratedAtMostOnce | annotationprocessor/src/main/java/com/android/databinding/annotationprocessor/ProcessBindable.java:38-40 | A second round writes nothing and claims nothing. |
| ListExt.JoinToCamelCase | compiler/src/main/kotlin/com/android/databinding/ext/list_ext.kt:24-28 | The join fails on no sections. Otherwise it concatenates the camel-cased sections. |
| ListExt.JoinToCamelCaseAppend | compiler/src/main/kotlin/com/android/databinding/ext/list_ext.kt:24-28 | Joining two lists of sections is joining each and concatenating. |
| ListExt.JoinToCamelCaseAsVar | compiler/src/main/kotlin/com/android/databinding/ext/list_ext.kt:30-34 | The join fails exactly on no sections. |
| ListExt.AsVarDiffersInFirstSection | compiler/src/main/kotlin/com/android/databinding/ext/list_ext.kt:30-34 | The variable-name join is the first section as a variable, then the rest camel-cased. It equals the plain join when the first section's two spellings agree. |
| ListExt.Indent | compiler/src/main/kotlin/com/android/databinding/ext/list_ext.kt:50 | The indent is four spaces per level, and nothing for levels up to 0. |
| ListExt.NonBlank | compiler/src/main/kotlin/com/android/databinding/ext/list_ext.kt:52 | Exactly the non-blank lines are kept. |
| ListExt.IndentedLinesAsFilter | compiler/src/main/kotlin/com/android/databinding/ext/list_ext.kt:48-56 | The indented join is the non-blank lines, each indented and ended by a newline. |
| ListExt.IndentedLinesAppend | compiler/src/main/kotlin/com/android/databinding/ext/list_ext.kt:48-56 | The join distributes over concatenation of line lists. |
| ListExt.JoinIndented | compiler/src/main/kotlin/com/android/databinding/ext/list_ext.kt:48-56 | The `StringBuilder` loop computes the indented join. |
| ListExt.JoinIndentedExceptFirst | compiler/src/main/kotlin/com/android/databinding/ext/list_ext.kt:58-69 | No lines give an empty text, and one line gives that line. Otherwise the text starts with the first line. |
| ListExt.NewlineRotation | compiler/src/main/kotlin/com/android/databinding/ext/list_ext.kt:58-69 | Newline-before and newline-after joins agree up to the final newline. |
| ListExt.JoinIndentedExceptFirstRotation | compiler/src/main/kotlin/com/android/databinding/ext/list_ext.kt:58-69 | The except-first join plus a newline is the first line, a newline, and the rest joined indented. |
| ListExt.JoinIndentedAuto | compiler/src/main/kotlin/com/android/databinding/ext/list_ext.kt:71-74 | The join fails exactly on no lines, and one line is returned as is. |
| ListExt.JoinIndentedAutoIsExceptFirst | compiler/src/main/kotlin/com/android/databinding/ext/list_ext.kt:71-74 | For two or more lines, it is the except-first join at the first line's indentation, plus a newline. |
| LayoutNames.JoinSplit | compiler/src/main/kotlin/com/android/databinding/main.kt:153 | Joining the pieces of a split restores the text. |
| LayoutNames.SplitJoin | compiler/src/main/kotlin/com/android/databinding/main.kt:153 | Splitting a join of separator-free pieces gives the pieces back. |
| LayoutNames.DropTrailingEmpty | compiler/src/main/kotlin/com/android/databinding/main.kt:153 | Java's `split` keeps a prefix of the pieces, ends on a non-empty piece, and drops only empty pieces. |
| LayoutNames.JavaSplit | compiler/src/main/kotlin/com/android/databinding/main.kt:153 | No piece contains the separator. |
| LayoutNames.ToLayoutId | compiler/src/main/kotlin/com/android/databinding/main.kt:155-156 | The id fails exactly on a name without `.`. Otherwise it is the part before the first `.`. |
| LayoutNames.LayoutIdOfFileName | compiler/src/main/kotlin/com/android/databinding/main.kt:155-156 | The id of `base.ext` is `base`. |
| LayoutNames.ToClassName | compiler/src/main/kotlin/com/android/databinding/main.kt:152-153 | The class name fails exactly on a name without `.` or an empty section. It never contains `_`. |
| LayoutNames.ClassNameOfSections | compiler/src/main/kotlin/com/android/databinding/main.kt:152-153 | The class name of `a_b_c.ext` is the concatenation of the capitalised sections. |
| LayoutNames.BinderNames | compiler/src/main/kotlin/com/android/databinding/main.kt:109-110 | The binder class name ends in `Binder`, and the layout name is the layout id. |
| LayoutNames.GetFullViewClassName | compiler/src/main/kotlin/com/android/databinding/main.kt:256-264 | A qualified name is kept. `View` and `ViewGroup` go to `android.view`, and the others to `android.widget`. |
| LayoutNames.FullViewClassNameIdempotent | compiler/src/main/kotlin/com/android/databinding/main.kt:256-264 | Qualifying twice is qualifying once. |
| LayoutNames.XmlFilterIgnoresCase | compiler/src/main/kotlin/com/android/databinding/main.kt:232-236 | An extension spelling `xml` in any case passes, and so does the lower-cased name. |
| LayoutNames.LayoutFolderQualifiers | compiler/src/main/kotlin/com/android/databinding/main.kt:223-230 | Every `layout*` folder is a layout folder, and a name shorter than `layout` is not. |
| LayoutNames.ProcessIfNecessary | compiler/src/main/kotlin/com/android/databinding/main.kt:85-90 | The flag ends set, and processing runs exactly when it was clear. |
| LayoutNames.ProcessRunsAtMostOnce | compiler/src/main/kotlin/com/android/databinding/main.kt:85-90 | Over any number of calls, processing runs at most once, and it runs exactly when the flag was clear and there was a call. |
| LayoutNames.ProcessRunsAfterFlag | compiler/src/main/kotlin/com/android/databinding/main.kt:85-90 | Once the flag is set, processing never runs. |

## Left out

- Host reflection (`ModelAnalyzer`, `ModelClass`, `findClass`, generics erasure, `toJavaCode`) is a parameter.
  - `findClass` never fails, so the `catch` branches that log an unknown class are not modelled.
  - A class is identified by its qualified name. This matches `equals` and `isSameType` only when names are unique.
- The `isBoxingConversion`, `isImplicitConversion` and `getImplicitConversionLevel` of `ModelMethod` are not part of this model. Stand-ins:
  - `isBoxingConversion` and the conversion level use the older store's own definitions.
  - `isImplicitConversion` is `TypeModel.IsImplicitConversion`. It uses `TypeModel.Widens`, the widening primitive conversions of section 5.1.2 of the Java Language Specification, in both stores.
  - `Widens` differs from the older store's ladder test in two cases, both of which the ladder accepts (see Findings): `char` to `short`, and a source primitive off the ladder (such as `void`, level -1) to any primitive on it other than `char` and `boolean`.
- Logging (`L.d`, `L.e`, `L.w`, the messager's NOTE lines) is reduced to diagnostic values where the processor reports something. Otherwise it is dropped.
- File and stream I/O are left out:
  - `SetterStore.get`, `write`, the serialised snapshots and `GenerationalClassUtil`;
  - the `BR` `Filer`/`Writer` and its `IOException` branch.

  `load` takes the snapshots as a list, and `BR` is produced as text.
- The file system and XML handling of `main.kt` are left out: `findXmlFiles`, the existence checks, `parseAndStripXml`, `DataBinderWriter` and the `LayoutBinder` setters. Only the names those setters receive are modelled.
- `toCamelCase`, `toCamelCaseAsVar`, `getIndentation` and `times` are defined outside `list_ext.kt`. The first three are parameters, and `times` is repetition.
- Kotlin's `split("_")` and `trim()` are taken to behave like Java's `String.split` and `trim`. `split` drops trailing empty pieces, and blankness means only characters up to the space.
- `StringUtils.capitalize`, Kotlin's `toUpperCase` of a section's first letter, and `Character.toLowerCase`, `isUpperCase` and `isJavaIdentifierStart` are ASCII approximations. A full case mapping can change a string's length (`ß` becomes `SS`), and the model does not.
- The `Array` overloads of `joinToCamelCase` and `joinToCamelCaseAsVar` are the same as the `List` ones and are not modelled separately.
- `ProcessMethodAdapters` calls an `addBindingAdapter(processingEnv, ...)` overload that the store shown does not have. The model calls the store's `addBindingAdapter(attribute, method)` and `addBindingAdapter(attributes, method)`.
- The multi-attribute key constructor indexes past its attribute list on a 2n+1 declaration. The model treats that unchecked exception as ending the step (`Abort`).
- Keys.MakeMultiKey and Registry.AddMultiBindingAdapter require at least one attribute and n+1 or 2n+1 parameters. These are the only declarations `ProcessMethodAdapters` passes on (`ProcessMethodAdapters.java:96-123`). With fewer parameters the key constructor builds a key that is shorter than its attribute list. Its later `equals` would index past that list, and this is not modelled.
- The rest of the model uses the corrected definitions of the Findings. The code as written is modelled next to each one and compared with it. The members that rely on a correction follow, one per line:
- Resolver.IsBetterParameter: for the older store it uses `TypeModel.IsImplicitConversion` instead of the ladder test at lines 430-441 of the older store, so neither a `char` value for a `short` parameter nor a value of a primitive type off the ladder (such as `void`) for a parameter on it is accepted, where the older store's `isBetterParameter` (its line 403) accepts both.
- Resolver.ImplicitConversionRule: for the older store it uses `TypeModel.IsImplicitConversion` instead of the ladder test at lines 430-441 of the older store, so neither a `char` value for a `short` parameter nor a value of a primitive type off the ladder (such as `void`) for a parameter on it is accepted, where the older store's `isBetterParameter` (its line 403) accepts both.
- Resolver.ScanMethods: for the older store it uses `TypeModel.IsImplicitConversion` instead of the ladder test at lines 430-441 of the older store, so neither a `char` value for a `short` parameter nor a value of a primitive type off the ladder (such as `void`) for a parameter on it is accepted, where the older store's `isBetterParameter` (its line 403) accepts both.
- Resolver.ScanNames: for the older store it uses `TypeModel.IsImplicitConversion` instead of the ladder test at lines 430-441 of the older store, so neither a `char` value for a `short` parameter nor a value of a primitive type off the ladder (such as `void`) for a parameter on it is accepted, where the older store's `isBetterParameter` (its line 403) accepts both.
- Resolver.OlderLastNameWins: for the older store it uses `TypeModel.IsImplicitConversion` instead of the ladder test at lines 430-441 of the older store, so neither a `char` value for a `short` parameter nor a value of a primitive type off the ladder (such as `void`) for a parameter on it is accepted, where the older store's `isBetterParameter` (its line 403) accepts both.
- Resolver.GetBestSetter: for the older store it uses `TypeModel.IsImplicitConversion` instead of the ladder test at lines 430-441 of the older store, so neither a `char` value for a `short` parameter nor a value of a primitive type off the ladder (such as `void`) for a parameter on it is accepted, where the older store's `isBetterParameter` (its line 403) accepts both. As written, the older store picks `setX(short)` for a `char` value, where the model gives nothing.
- Resolver.ScanAdapters: for the older store it uses `TypeModel.IsImplicitConversion` instead of the ladder test at lines 430-441 of the older store, so neither a `char` value for a `short` parameter nor a value of a primitive type off the ladder (such as `void`) for a parameter on it is accepted, where the older store's `isBetterParameter` (its line 403) accepts both.
- Resolver.GetSetterCall: for the older store it uses `TypeModel.IsImplicitConversion` instead of the ladder test at lines 430-441 of the older store, so neither a `char` value for a `short` parameter nor a value of a primitive type off the ladder (such as `void`) for a parameter on it is accepted, where the older store's `isBetterParameter` (its line 403) accepts both. As written, the older store calls `setX(short)` for a `char` value, where the model gives the default setter.
- Resolver.SetterCallOf: for the older store it uses `TypeModel.IsImplicitConversion` instead of the ladder test at lines 430-441 of the older store, so neither a `char` value for a `short` parameter nor a value of a primitive type off the ladder (such as `void`) for a parameter on it is accepted, where the older store's `isBetterParameter` (its line 403) accepts both.
- Registry.AddBindingAdapter: it uses structural `AccessorKey` equality; as written, `containsKey` with a fresh key is false whenever the view type differs from the value type (`AccessorKeyAsWritten.AddAsWritten`). As written, a second `(V, X)` adapter with V different from X is accepted silently.
- Registry.MergeTables: it uses structural `AccessorKey` equality; as written, `containsKey` with a fresh key is false whenever the view type differs from the value type (`AccessorKeyAsWritten.AddAsWritten`). As written, `merge` adds the snapshot's `(V, X)` adapter as a second entry when V differs from X.
- Registry.LoadPrecedence: it uses structural `AccessorKey` equality; as written, `containsKey` with a fresh key is false whenever the view type differs from the value type (`AccessorKeyAsWritten.AddAsWritten`). As written, both snapshots' `(V, X)` adapters are kept when V differs from X, and resolution may pick the later one.
- MethodAdapters.AddBindingAdapter1: it uses structural `AccessorKey` equality; as written, `containsKey` with a fresh key is false whenever the view type differs from the value type (`AccessorKeyAsWritten.AddAsWritten`).
- MethodAdapters.DuplicateAdapterReportedAndSkipped: it uses structural `AccessorKey` equality; as written, `containsKey` with a fresh key is false whenever the view type differs from the value type (`AccessorKeyAsWritten.AddAsWritten`). As written, the duplicate is reported only when its view type equals its value type.
- MethodAdapters.AdaptersAddedOnlyByDeclarations: it uses structural `AccessorKey` equality; as written, `containsKey` with a fresh key is false whenever the view type differs from the value type (`AccessorKeyAsWritten.AddAsWritten`). As written, a second `(V, X)` adapter with V different from X is added as another entry while the first is present, so an added entry need not have been absent.
- MethodAdapters.DuplicateStep: it uses structural `AccessorKey` equality; as written, `containsKey` with a fresh key is false whenever the view type differs from the value type (`AccessorKeyAsWritten.AddAsWritten`).
- Ranking.Compare: it uses the corrected, antisymmetric comparator; with the comparator as written two setters on unrelated views each compare below the other, and TimSort may reverse them. The corrected comparator is still not transitive (`Ranking.CompareNotTransitive`), so no order agrees with it and `Collections.sort` is not bound to any one result. The model's insertion-sort order is one that TimSort need not produce: on the cycle, `[A, C, B]` sorts to `[C, A, B]` in the model and to `[B, C, A]` under TimSort (`Ranking.SortSettersOnCycle`).
- Ranking.SortSetters: it uses the corrected, antisymmetric comparator; with the comparator as written two setters on unrelated views each compare below the other, and TimSort may reverse them. For the setters of `Ranking.UnrelatedInterfacesExample` in the order `[A, B]`, TimSort with the comparator as written gives `[B, A]`. The corrected comparator is still not transitive (`Ranking.CompareNotTransitive`), so no order agrees with it and `Collections.sort` is not bound to any one result. The model's insertion-sort order is one that TimSort need not produce: on the cycle, `[A, C, B]` sorts to `[C, A, B]` in the model and to `[B, C, A]` under TimSort (`Ranking.SortSettersOnCycle`).
- Covering.SortedCandidates: it uses the corrected, antisymmetric comparator; with the comparator as written two setters on unrelated views each compare below the other, and TimSort may reverse them. The corrected comparator is still not transitive (`Ranking.CompareNotTransitive`), so no order agrees with it and `Collections.sort` is not bound to any one result. The model's insertion-sort order is one that TimSort need not produce: on the cycle, `[A, C, B]` sorts to `[C, A, B]` in the model and to `[B, C, A]` under TimSort (`Ranking.SortSettersOnCycle`).
- Covering.GetMultiAttributeSetterCalls: it uses the corrected, antisymmetric comparator; with the comparator as written two setters on unrelated views each compare below the other, and TimSort may reverse them. On unrelated views, the source may call the other setter first. The corrected comparator is still not transitive (`Ranking.CompareNotTransitive`), so no order agrees with it and `Collections.sort` is not bound to any one result. The model's insertion-sort order is one that TimSort need not produce: on the cycle, `[A, C, B]` sorts to `[C, A, B]` in the model and to `[B, C, A]` under TimSort (`Ranking.SortSettersOnCycle`).
- MethodAdapters.OnHandleStep: it uses the corrected `Registry.ClearAll` (see Findings), so the multi-attribute adapters of the cleared classes are dropped, which `clear` as written does not do. `store.write` is left out.
- `Registry.Merge`: the nested tables are described by `Registry.MergeTables`, and the multi-attribute table by `MultiTable.GetMultiAfterPutAll`, rather than repeated in `Merge`'s own contract. The aliasing of an inner map that `merge` shares with the snapshot is not modelled, because nothing reads the snapshot afterwards.
- `Resolver.GetSetterCall`: the cast text is stated only as "newer store, object value". The nullability test is a parameter.
- `MultiAttribute.ToJava`: its contract states only the error case. The text of a successful rendering is given by the function and related to the loop by `MultiAttribute.RenderMultiCall` and `MultiAttribute.PlainArguments`.
- MultiTable.GetMultiAfterPut and MultiTable.GetMultiAfterPutAll are stated for keys that name each attribute once. Only on such keys is `MultiValueAdapterKey.equals` an equivalence. A key with a repeated attribute is not described.
- `SetterCalls.MinApi`: a model method's API level comes from the host and is not constrained.
- `ListExt.JoinToCamelCaseAsVar`: the success case is stated by `ListExt.AsVarDiffersInFirstSection`, not in its own contract.
- The error message texts, the `Preconditions` messages and `toString` methods are not modelled.

## Findings

| source | as written | input that shows it | evidently intended | confidence | as-written member | corrected member |
|---|---|---|---|---|---|---|
| compiler/src/main/java/android/databinding/tool/store/SetterStore.java:770-777 | `AccessorKey.equals` compares `viewType` with `that.valueType`, so `containsKey` (a fresh key) finds a duplicate only when view type equals value type | a second adapter for `android:text` on `(android.widget.TextView, java.lang.String)` is accepted instead of refused | compare `viewType` with `that.viewType` | high, not executed | AccessorKeyAsWritten.SecondTextViewAdapterAccepted | Registry.SecondAdapterForSameKeyRefused |
| compiler/src/main/java/android/databinding/tool/store/SetterStore.java:263-303 | `clear` removes stale entries from every table except `multiValueAdapters` | a multi-attribute adapter declared by a class being recompiled survives `clear(classes)` | also drop the multi-attribute adapters owned by the cleared classes | medium, not executed | Registry.ClearKeepsStaleMultiAdapter | Registry.ClearAll |
| compiler/src/main/java/com/android/databinding/store/SetterStore.java:430-441 | the ladder byte < char < short < ... makes `char` to `short` an implicit conversion, and a primitive off the ladder gets level -1, below every rung | `isImplicitConversion(char, short)` is true, and so is `isImplicitConversion(void, int)` (`TypeModel.VoidToIntIsNotWidening`) | only the widening primitive conversions of section 5.1.2 of the Java Language Specification | medium, not executed | TypeModel.CharToShortIsNotWidening | TypeModel.ImplicitConversionCorrection |
| compiler/src/main/java/android/databinding/tool/store/SetterStore.java:68-74 | for different view types the comparator returns -1 unless `view1` is assignable from `view2`, so two unrelated views both come first | setters on unrelated views `A` and `B` with one attribute each: `compare(o1, o2) == compare(o2, o1) == -1` | an antisymmetric order (unrelated views fall through to the attribute comparison); the correction is antisymmetric but still not transitive (`Ranking.CompareNotTransitive`), so the sorted order remains the model's own choice | medium, not executed | Ranking.CompareAsWrittenNotAntisymmetric | Ranking.CompareAntisymmetric |

=== FILE: accessor_key_as_written.dfy ===
/** `AccessorKey.equals` and `hashCode` exactly as both stores write them, and what a `HashMap`
    keyed by them does when an adapter is registered twice. The rest of the model uses the
    structural equality `Keys.SameAccessor` instead. */
module AccessorKeyAsWritten {
  import opened Wrappers
  import opened Keys

  const TwoTo32: nat := 0x1_0000_0000

  /** `String.hashCode`, `s[0]*31^(n-1) + ... + s[n-1]` in 32-bit arithmetic, as an unsigned
      residue. */
  function StringHash(s: string): (r: nat)
    ensures r < TwoTo32
  {
    if |s| == 0 then 0 else (31 * StringHash(s[..|s| - 1]) + s[|s| - 1] as int) % TwoTo32
  }

  /** `Objects.hash(a, b)` on two hash codes: `31 * (31 * 1 + a) + b` in 32-bit arithmetic. */
  function ObjectsHash(a: nat, b: nat): (r: nat)
    ensures r < TwoTo32
  {
    (31 * (31 + a) + b) % TwoTo32
  }

  /** `AccessorKey.hashCode`: both fields. */
  function AccessorHash(k: AccessorKey): nat {
    ObjectsHash(StringHash(k.viewType), StringHash(k.valueType))
  }

  /** `key.equals(other)` as written: `key`'s view type is compared with `other`'s value type. */
  predicate EqualsAsWritten(key: AccessorKey, other: AccessorKey) {
    key.viewType == other.valueType && key.valueType == other.valueType
  }

  /** A `HashMap<AccessorKey, MethodDescription>` as the list of its entries in insertion order;
      with the as-written equality one key value can occur in several entries. */
  type AdapterEntries = seq<(AccessorKey, MethodDescription)>

  /** `containsKey(key)`: some entry has `key`'s hash and `key.equals` it. A freshly built key is
      never the same object as a stored one, so the identity shortcut never applies. */
  predicate ContainsKeyAsWritten(entries: AdapterEntries, key: AccessorKey) {
    exists i :: 0 <= i < |entries| && AccessorHash(entries[i].0) == AccessorHash(key)
                && EqualsAsWritten(key, entries[i].0)
  }

  /** The duplicate check and `put` of `addBindingAdapter` over one attribute's table, with the
      as-written equality: a key judged absent is appended as a new entry. */
  function AddAsWritten(entries: AdapterEntries, key: AccessorKey, adapter: MethodDescription): (r: Option<AdapterEntries>)
    ensures r.None? <==> ContainsKeyAsWritten(entries, key)
    ensures r.Some? ==> r.value == entries + [(key, adapter)]
  {
    if ContainsKeyAsWritten(entries, key) then None else Some(entries + [(key, adapter)])
  }

  /** The as-written equality holds between a key and itself only when its view type and value
      type coincide. */
  lemma EqualsAsWrittenReflexiveIff(k: AccessorKey)
    ensures EqualsAsWritten(k, k) <==> k.viewType == k.valueType
  {
  }

  /** The as-written duplicate check fires only for a key whose view type equals its value type;
      for such a key it fires whenever the key is already present. */
  lemma DuplicateDetectedOnlyForEqualTypes(entries: AdapterEntries, key: AccessorKey)
    ensures ContainsKeyAsWritten(entries, key) ==> key.viewType == key.valueType
    ensures key.viewType == key.valueType && (exists i :: 0 <= i < |entries| && entries[i].0 == key)
            ==> ContainsKeyAsWritten(entries, key)
  {
    if ContainsKeyAsWritten(entries, key) {
      var i :| 0 <= i < |entries| && AccessorHash(entries[i].0) == AccessorHash(key)
               && EqualsAsWritten(key, entries[i].0);
      assert key.viewType == entries[i].0.valueType == key.valueType;
    }
    if key.viewType == key.valueType && (exists i :: 0 <= i < |entries| && entries[i].0 == key) {
      var i :| 0 <= i < |entries| && entries[i].0 == key;
      assert AccessorHash(entries[i].0) == AccessorHash(key) && EqualsAsWritten(key, entries[i].0);
    }
  }

  /** Registering a `TextView`/`String` adapter twice for one attribute is accepted, and the
      table then holds two entries for the same key value. */
  lemma SecondTextViewAdapterAccepted(first: MethodDescription, second: MethodDescription)
    ensures var key := AccessorKey("android.widget.TextView", "java.lang.String");
      AddAsWritten([(key, first)], key, second) == Some([(key, first), (key, second)])
  {
    var key := AccessorKey("android.widget.TextView", "java.lang.String");
    assert key.viewType[0] == 'a' && key.valueType[0] == 'j';
    DuplicateDetectedOnlyForEqualTypes([(key, first)], key);
    assert [(key, first)] + [(key, second)] == [(key, first), (key, second)];
  }
}

=== FILE: attribute_names.dfy ===
/** Attribute-name handling shared by both setter stores: namespace stripping and the
    conventional setter name. */
module AttributeNames {
  import opened JavaStrings

  /** The one namespace that is kept on an attribute name. */
  const AndroidPrefix: string := "android:"

  /** `ns:name` with a colon-free namespace `ns`. */
  function Qualify(ns: string, name: string): string {
    ns + ":" + name
  }

  lemma {:induction false} FirstColonOfQualified(ns: string, name: string)
    requires ':' !in ns
    ensures IndexOf(Qualify(ns, name), ':') == |ns|
    ensures Qualify(ns, name)[|ns| + 1..] == name
  {
    var s := Qualify(ns, name);
    assert s[..|ns|] == ns;
    assert s[|ns|] == ':';
    assert s[|ns| + 1..] == name;
  }

  /** Only the `android` namespace qualifies a name into the `android:` prefix. */
  lemma AndroidQualified(ns: string, name: string)
    requires ':' !in ns
    ensures StartsWith(Qualify(ns, name), AndroidPrefix) ==> ns == "android"
  {
    var s := Qualify(ns, name);
    if StartsWith(s, AndroidPrefix) {
      assert s[7] == AndroidPrefix[7] == ':';
      assert s[|ns|] == ':';
      assert forall i :: 0 <= i < |ns| ==> s[i] == ns[i];
      assert forall i :: 0 <= i < 7 ==> s[i] == AndroidPrefix[i] != ':';
      assert ns == s[..7] == "android";
    }
  }

  /** The namespace stripping of the newer store's `stripNamespace` and of the older store's
      `getSetterCall`: an attribute in the `android:` namespace is kept whole; any other
      attribute loses everything up to and including its first colon. */
  function StripNamespace(attribute: string): (r: string)
    ensures StartsWith(attribute, AndroidPrefix) ==> r == attribute
    ensures ':' !in attribute ==> r == attribute
    ensures !StartsWith(attribute, AndroidPrefix) && ':' in attribute ==>
      |r| < |attribute|
      && attribute == Qualify(attribute[..|attribute| - |r| - 1], r)
      && ':' !in attribute[..|attribute| - |r| - 1]
  {
    if !StartsWith(attribute, AndroidPrefix) then
      var colon := IndexOf(attribute, ':');
      if colon >= 0 then
        assert attribute == attribute[..colon] + ":" + attribute[colon + 1..];
        attribute[colon + 1..]
      else attribute
    else attribute
  }

  /** Stripping undoes qualification with any namespace except `android`. */
  lemma StripNamespaceOfQualified(ns: string, name: string)
    requires ':' !in ns && ns != "android"
    ensures StripNamespace(Qualify(ns, name)) == name
  {
    FirstColonOfQualified(ns, name);
    AndroidQualified(ns, name);
  }

  /** `stripAttributes`: every attribute stripped, order kept. */
  function StripAttributes(attributes: seq<string>): (r: seq<string>)
    ensures |r| == |attributes|
    ensures forall i :: 0 <= i < |r| ==> r[i] == StripNamespace(attributes[i])
  {
    seq(|attributes|, i requires 0 <= i < |attributes| => StripNamespace(attributes[i]))
  }

  /** `trimAttributeNamespace`: the text after the first colon, whatever the namespace. */
  function TrimAttributeNamespace(attribute: string): (r: string)
    ensures ':' !in attribute ==> r == attribute
    ensures ':' in attribute ==>
      |r| < |attribute|
      && attribute == Qualify(attribute[..|attribute| - |r| - 1], r)
      && ':' !in attribute[..|attribute| - |r| - 1]
  {
    var colon := IndexOf(attribute, ':');
    if colon == -1 then attribute
    else
      assert attribute == attribute[..colon] + ":" + attribute[colon + 1..];
      attribute[colon + 1..]
  }

  /** `getDefaultSetter`: `set` followed by the capitalised attribute name without namespace. */
  function DefaultSetterName(attribute: string): (r: string)
    ensures StartsWith(r, "set")
    ensures |r| == 3 + |TrimAttributeNamespace(attribute)|
    ensures ':' !in attribute ==> r == "set" + Capitalize(attribute)
  {
    "set" + Capitalize(TrimAttributeNamespace(attribute))
  }

  /** The conventional setter name ignores the namespace, `android` included: the first colon
      ends the namespace, and whatever follows it, further colons included, is the name. */
  lemma DefaultSetterIgnoresNamespace(ns: string, name: string)
    requires ':' !in ns
    ensures TrimAttributeNamespace(Qualify(ns, name)) == name
    ensures DefaultSetterName(Qualify(ns, name)) == "set" + Capitalize(name)
    ensures ':' !in name ==> DefaultSetterName(Qualify(ns, name)) == DefaultSetterName(name)
  {
    FirstColonOfQualified(ns, name);
  }

  /** For an attribute with at most one colon, looking up the stripped name produces the same
      conventional setter as the original. */
  lemma DefaultSetterAfterStrip(attribute: string)
    requires forall i, j :: 0 <= i < j < |attribute| && attribute[i] == ':' ==> attribute[j] != ':'
    ensures DefaultSetterName(StripNamespace(attribute)) == DefaultSetterName(attribute)
  {
    var r := StripNamespace(attribute);
    if !StartsWith(attribute, AndroidPrefix) && ':' in attribute {
      var ns := attribute[..|attribute| - |r| - 1];
      var c := |attribute| - |r| - 1;
      assert attribute[c] == ':';
      assert ':' !in r by {
        forall j | 0 <= j < |r| ensures r[j] != ':' {
          assert r[j] == attribute[c + 1 + j];
        }
      }
      DefaultSetterIgnoresNamespace(ns, r);
    }
  }
}

=== FILE: bindable.dfy ===
/** `ProcessBindable`: the property names that `@Bindable` fields and JavaBeans accessors stand
    for, and the `BR` class that numbers them. */
module Bindable {
  import opened Wrappers
  import opened JavaStrings
  import opened Ordering
  import opened Elements

  /** The name the source's `getKind() == BOOLEAN` return type has. */
  const BooleanType: string := "boolean"

  /** `prefixes(sequence, prefix)`: `prefix` starts `sequence`, which is strictly longer. */
  predicate PrefixOf(sequence: string, prefix: string) {
    |sequence| > |prefix| && sequence[..|prefix|] == prefix
  }

  /** The character loop of `prefixes`. */
  method Prefixes(sequence: string, prefix: string) returns (r: bool)
    ensures r <==> PrefixOf(sequence, prefix)
  {
    r := false;
    if |sequence| > |prefix| {
      r := true;
      var i := 0;
      while i < |prefix|
        invariant 0 <= i <= |prefix|
        invariant r <==> sequence[..i] == prefix[..i]
        invariant r
      {
        if sequence[i] != prefix[i] {
          r := false;
          assert sequence[..|prefix|][i] != prefix[i];
          return;
        }
        assert sequence[..i + 1] == sequence[..i] + [sequence[i]];
        assert prefix[..i + 1] == prefix[..i] + [prefix[i]];
        i := i + 1;
      }
      assert prefix[..i] == prefix;
    }
  }

  /** `isGetter`: `get`, an identifier start, no parameters, a result. */
  predicate IsGetter(e: Element) {
    PrefixOf(e.name, "get") && IsJavaIdentifierStart(e.name[3])
    && |e.parameterTypes| == 0 && e.returnType != VoidType
  }

  /** `isSetter`: `set`, an identifier start, one parameter, no result. */
  predicate IsSetter(e: Element) {
    PrefixOf(e.name, "set") && IsJavaIdentifierStart(e.name[3])
    && |e.parameterTypes| == 1 && e.returnType == VoidType
  }

  /** `isBooleanGetter`: `is`, an identifier start, no parameters, a `boolean` result. */
  predicate IsBooleanGetter(e: Element) {
    PrefixOf(e.name, "is") && IsJavaIdentifierStart(e.name[2])
    && |e.parameterTypes| == 0 && e.returnType == BooleanType
  }

  /** The first character in lower case, the rest untouched. */
  function Decapitalize(s: string): (r: string)
    ensures |r| == |s|
    ensures 0 < |s| ==> r[0] == ToLowerCase(s[0]) && r[1..] == s[1..]
  {
    if |s| == 0 then s else [ToLowerCase(s[0])] + s[1..]
  }

  /** `stripPrefixFromField`: `mName` and `_name` (the letter after `_` any identifier start)
      name the property `name`; any other field name is the property name itself. */
  function StripPrefixFromField(name: string): (r: string)
    ensures |r| == |name| || |r| == |name| - 1
    ensures |name| < 2 ==> r == name
    ensures |name| >= 2 && !((name[0] == 'm' && IsUpperCase(name[1])) || (name[0] == '_' && IsJavaIdentifierStart(name[1])))
            ==> r == name
    ensures |r| == |name| - 1 ==> r == Decapitalize(name[1..])
  {
    if |name| >= 2 && ((name[0] == 'm' && IsUpperCase(name[1])) || (name[0] == '_' && IsJavaIdentifierStart(name[1])))
    then Decapitalize(name[1..])
    else name
  }

  /** Why no property name could be derived. */
  datatype BindableError =
    | NotAllowedOn(kind: ElementKind)
    | NotJavaBeansAccessor(element: Element)

  /** `stripPrefixFromMethod`: the name of a getter or setter without `get`/`set`, of a boolean
      getter without `is`, decapitalised; an error for any other method. */
  function StripPrefixFromMethod(e: Element): (r: Result<string, BindableError>)
    ensures r.Success? <==> IsGetter(e) || IsSetter(e) || IsBooleanGetter(e)
    ensures r.Failure? ==> r.error == NotJavaBeansAccessor(e)
    ensures (IsGetter(e) || IsSetter(e)) ==> r == Success(Decapitalize(e.name[3..]))
    ensures r.Success? ==> 0 < |r.value| < |e.name| && IsJavaIdentifierStart(r.value[0])
  {
    if IsGetter(e) || IsSetter(e) then Success(Decapitalize(e.name[3..]))
    else if IsBooleanGetter(e) then Success(Decapitalize(e.name[2..]))
    else Failure(NotJavaBeansAccessor(e))
  }

  /** `getPropertyName`: fields and methods have one; `@Bindable` anywhere else is an error. */
  function GetPropertyName(e: Element): (r: Result<string, BindableError>)
    ensures e.kind == FieldElement ==> r == Success(StripPrefixFromField(e.name))
    ensures e.kind != FieldElement && e.kind != MethodElement ==> r == Failure(NotAllowedOn(e.kind))
    ensures e.kind == MethodElement ==> (r.Success? <==> IsGetter(e) || IsSetter(e) || IsBooleanGetter(e))
  {
    match e.kind
    case FieldElement => Success(StripPrefixFromField(e.name))
    case MethodElement => StripPrefixFromMethod(e)
    case _ => Failure(NotAllowedOn(e.kind))
  }

  // ---------------------------------------------------------------------------------------
  // Naming round trips

  /** A property name the conventions can produce: it starts with a lower-case letter. */
  predicate PropertyName(p: string) {
    |p| > 0 && IsLowerCase(p[0])
  }

  lemma DecapitalizeCapitalize(p: string)
    requires PropertyName(p)
    ensures Decapitalize(Capitalize(p)) == p
  {
    assert Decapitalize(Capitalize(p))[0] == p[0];
  }

  /** The field `mName` and the field `_name` both stand for the property `name`. */
  lemma FieldNamesRoundTrip(p: string)
    requires PropertyName(p)
    ensures StripPrefixFromField("m" + Capitalize(p)) == p
    ensures StripPrefixFromField("_" + p) == p
  {
    assert ("m" + Capitalize(p))[1..] == Capitalize(p);
    assert ("_" + p)[1..] == p;
    DecapitalizeCapitalize(p);
    assert Decapitalize(p)[0] == p[0];
  }

  /** `getName()`, `setName(x)` and, for a boolean property, `isName()` all stand for the
      property `name`: a getter and its setter agree. */
  lemma AccessorNamesRoundTrip(p: string, owner: string, valueType: string)
    requires PropertyName(p)
    ensures valueType != VoidType ==>
      StripPrefixFromMethod(Element(MethodElement, false, true, "get" + Capitalize(p), owner, [], valueType)) == Success(p)
    ensures StripPrefixFromMethod(Element(MethodElement, false, true, "set" + Capitalize(p), owner, [valueType], VoidType)) == Success(p)
    ensures StripPrefixFromMethod(Element(MethodElement, false, true, "is" + Capitalize(p), owner, [], BooleanType)) == Success(p)
  {
    DecapitalizeCapitalize(p);
    assert ("get" + Capitalize(p))[..3] == "get" && ("get" + Capitalize(p))[3..] == Capitalize(p);
    assert ("set" + Capitalize(p))[..3] == "set" && ("set" + Capitalize(p))[3..] == Capitalize(p);
    assert ("is" + Capitalize(p))[..2] == "is" && ("is" + Capitalize(p))[2..] == Capitalize(p);
    assert ("is" + Capitalize(p))[..3] != "get" && ("is" + Capitalize(p))[..3] != "set" by {
      assert ("is" + Capitalize(p))[..3][0] == 'i';
    }
  }

  // ---------------------------------------------------------------------------------------
  // BR

  /** The names of the round's properties; elements without one are left out. */
  function Properties(elements: seq<Element>): (r: set<string>)
    ensures forall p :: p in r <==> exists e :: e in elements && GetPropertyName(e) == Success(p)
  {
    set e | e in elements && GetPropertyName(e).Success? :: GetPropertyName(e).value
  }

  /** The errors the round's elements give, in order. */
  function PropertyErrors(elements: seq<Element>): (r: seq<BindableError>)
    ensures |r| <= |elements|
    ensures forall x :: x in r <==> exists e :: e in elements && GetPropertyName(e) == Failure(x)
  {
    if |elements| == 0 then []
    else
      assert forall e :: e in elements <==> e == elements[0] || e in elements[1..];
      (if GetPropertyName(elements[0]).Failure? then [GetPropertyName(elements[0]).error] else [])
      + PropertyErrors(elements[1..])
  }

  /** The `BR` id of each property: its position in ascending name order, counted from 1; id 0
      is `_all`. */
  function BrId(properties: set<string>, p: string): (r: nat)
    requires p in properties
    ensures 1 <= r <= |properties|
    ensures SortedStrings(properties)[r - 1] == p
  {
    var sorted := SortedStrings(properties);
    FirstIndex(sorted, x => x == p) + 1
  }

  /** The ids number the properties 1, 2, ..., n without gaps or repeats, and follow the names'
      order; none is the id 0 of `_all`. */
  lemma BrIdsAreConsecutive(properties: set<string>, p: string, q: string)
    requires p in properties && q in properties
    ensures BrId(properties, p) != 0
    ensures BrId(properties, p) == BrId(properties, q) <==> p == q
    ensures BrId(properties, p) < BrId(properties, q) <==> Less(p, q)
  {
    var sorted := SortedStrings(properties);
    var i, j := BrId(properties, p) - 1, BrId(properties, q) - 1;
    CompareToZeroIffEqual(p, q);
    CompareToAntisymmetric(p, q);
    if i < j {
      assert Less(sorted[i], sorted[j]);
    } else if j < i {
      assert Less(sorted[j], sorted[i]);
    }
  }

  /** Every id from 1 to the number of properties is some property's. */
  lemma BrIdsCoverRange(properties: set<string>, id: nat)
    requires 1 <= id <= |properties|
    ensures exists p :: p in properties && BrId(properties, p) == id
  {
    var sorted := SortedStrings(properties);
    var p := sorted[id - 1];
    StrictlySortedIsDistinct(sorted);
    assert p in properties;
    assert BrId(properties, p) == id;
  }

  const BrHeader: string := "package android.binding;\n\npublic final class BR {\n    public static final int _all = 0;\n"
  const BrFooter: string := "}\n"

  /** One `public static final int` field of `BR`. */
  datatype BrField = BrField(property: string, id: nat)

  /** The declaration of one id. */
  function BrLine(f: BrField): string {
    "    public static final int " + f.property + " = " + NatToString(f.id) + ";\n"
  }

  /** The fields of `BR` after `_all`, one per property in ascending name order. */
  function BrFields(properties: set<string>): (r: seq<BrField>)
    ensures |r| == |properties|
  {
    var sorted := SortedStrings(properties);
    seq(|sorted|, i requires 0 <= i < |sorted| => BrField(sorted[i], i + 1))
  }

  /** `BR` declares every property with its id, and nothing else. */
  lemma BrDeclaresEachProperty(properties: set<string>)
    ensures forall p :: p in properties ==> BrField(p, BrId(properties, p)) in BrFields(properties)
    ensures forall f :: f in BrFields(properties) ==> f.property in properties && f.id == BrId(properties, f.property)
  {
    var sorted := SortedStrings(properties);
    var fields := BrFields(properties);
    forall p | p in properties ensures BrField(p, BrId(properties, p)) in fields {
      assert fields[BrId(properties, p) - 1] == BrField(p, BrId(properties, p));
    }
    StrictlySortedIsDistinct(sorted);
    forall i | 0 <= i < |fields| ensures fields[i].property in properties && fields[i].id == BrId(properties, fields[i].property) {
      assert sorted[BrId(properties, sorted[i]) - 1] == sorted[i];
    }
  }

  /** The declarations of `fields`, in order. */
  function BrText(fields: seq<BrField>): string
    decreases |fields|
  {
    if |fields| == 0 then "" else BrText(fields[..|fields| - 1]) + BrLine(fields[|fields| - 1])
  }

  lemma BrTextStep(fields: seq<BrField>, i: nat)
    requires i < |fields|
    ensures BrText(fields[..i + 1]) == BrText(fields[..i]) + BrLine(fields[i])
  {
    assert fields[..i + 1][..i] == fields[..i];
  }

  /** The text of `BR.java`. */
  function BrSource(properties: set<string>): string {
    BrHeader + BrText(BrFields(properties)) + BrFooter
  }

  /** `generateBR`: the writer loop over the sorted properties, counting ids up from 0; what
      the loop writes goes between the header and the closing brace. */
  method GenerateBR(properties: set<string>) returns (text: string)
    ensures text == BrSource(properties)
  {
    var sorted := SortedStrings(properties);
    ghost var fields := BrFields(properties);
    var body := "";
    var id := 0;
    while id < |sorted|
      invariant 0 <= id <= |sorted|
      invariant body == BrText(fields[..id])
    {
      var property := sorted[id];
      BrTextStep(fields, id);
      assert fields[id] == BrField(property, id + 1);
      id := id + 1;
      body := body + BrLine(BrField(property, id));
    }
    assert fields[..id] == fields;
    text := BrHeader + body + BrFooter;
  }

  /** The decimal digits of `n`, as string concatenation writes an `int`. */
  function NatToString(n: nat): (r: string)
    ensures |r| >= 1
    ensures forall i :: 0 <= i < |r| ==> '0' <= r[i] <= '9'
    ensures (|r| == 1 <==> n < 10)
    decreases n
  {
    if n < 10 then [Digit(n)] else NatToString(n / 10) + [Digit(n % 10)]
  }

  function Digit(d: nat): (r: char)
    requires d < 10
    ensures '0' <= r <= '9' && r as int - '0' as int == d
  {
    ('0' as int + d) as char
  }

  /** The value a string of decimal digits denotes. */
  function DigitsValue(s: string): nat
    requires forall i :: 0 <= i < |s| ==> '0' <= s[i] <= '9'
  {
    if |s| == 0 then 0 else 10 * DigitsValue(s[..|s| - 1]) + (s[|s| - 1] as int - '0' as int)
  }

  /** Writing an id and reading it back gives the id: different ids are written differently. */
  lemma {:induction false} NatToStringRoundTrip(n: nat)
    ensures DigitsValue(NatToString(n)) == n
    decreases n
  {
    var s := NatToString(n);
    if n >= 10 {
      NatToStringRoundTrip(n / 10);
      assert s[..|s| - 1] == NatToString(n / 10);
    }
  }

  // ---------------------------------------------------------------------------------------
  // The processor

  /** What one round of `process` leaves behind: whether it claims the annotations (its return
      value), the generated flag, the text of `BR.java` when it writes one, and the errors it
      reports. */
  datatype RoundOutcome = RoundOutcome(claimed: bool, generated: bool, brSource: Option<string>, errors: seq<BindableError>)

  /** `process`: the first round writes `BR.java` from the properties of its elements, sets the
      generated flag and claims the annotations; every later round does nothing and claims
      nothing. */
  function Process(generated: bool, elements: seq<Element>): (r: RoundOutcome)
    ensures r.generated
    ensures r.claimed <==> !generated
    ensures generated ==> r.brSource.None? && r.errors == []
    ensures !generated ==> r.brSource == Some(BrSource(Properties(elements)))
    ensures !generated ==> forall x :: x in r.errors <==> exists e :: e in elements && GetPropertyName(e) == Failure(x)
  {
    if generated then RoundOutcome(false, true, None, [])
    else RoundOutcome(true, true, Some(BrSource(Properties(elements))), PropertyErrors(elements))
  }

  /** `BR.java` is written at most once, whatever the rounds bring. */
  lemma BrGeneratedAtMostOnce(generated: bool, first: seq<Element>, second: seq<Element>)
    ensures !Process(Process(generated, first).generated, second).claimed
    ensures Process(Process(generated, first).generated, second).brSource.None?
  {
  }
}

=== FILE: covering.dfy ===
/** `getMultiAttributeSetterCalls`: the multi-attribute setters chosen for the attributes of one
    view. The candidates are sorted best first; the best one is taken and every candidate sharing
    an attribute with it is dropped (`removeConsumedAttributes`), until none is left. */
module Covering {
  import opened Wrappers
  import opened TypeModel
  import opened AttributeNames
  import opened Keys
  import opened MultiTable
  import opened Resolver
  import opened MultiAttribute
  import opened Ranking

  /** The two setters need a common attribute. */
  predicate Overlap(a: MultiAttributeSetter, b: MultiAttributeSetter) {
    exists x :: x in a.key.attributes && x in b.key.attributes
  }

  /** `isInArray` over the consumed attributes: `s` needs one of them. */
  predicate Consumed(s: MultiAttributeSetter, attributes: seq<string>) {
    exists x :: x in attributes && x in s.key.attributes
  }

  /** `removeConsumedAttributes(matching, attributes)`: the setters that need none of the
      attributes, in their order. */
  function RemoveConsumed(matching: seq<MultiAttributeSetter>, attributes: seq<string>): (r: seq<MultiAttributeSetter>)
    ensures forall s :: s in r <==> s in matching && !Consumed(s, attributes)
    ensures |r| <= |matching|
    ensures (exists s :: s in matching && Consumed(s, attributes)) ==> |r| < |matching|
  {
    if |matching| == 0 then []
    else
      var rest := RemoveConsumed(matching[1..], attributes);
      assert forall s :: s in matching <==> s == matching[0] || s in matching[1..];
      if Consumed(matching[0], attributes) then rest else [matching[0]] + rest
  }

  /** Every candidate needs at least one attribute. */
  predicate NonEmptyKeys(matching: seq<MultiAttributeSetter>) {
    forall s :: s in matching ==> |s.key.attributes| >= 1
  }

  /** The `while` loop of `getMultiAttributeSetterCalls` over a sorted candidate list: the chosen
      setters come from the candidates and the first is the first candidate. */
  function Cover(matching: seq<MultiAttributeSetter>): (r: seq<MultiAttributeSetter>)
    requires NonEmptyKeys(matching)
    ensures forall c :: c in r ==> c in matching
    ensures |matching| > 0 ==> |r| > 0 && r[0] == matching[0]
    decreases |matching|
  {
    if |matching| == 0 then []
    else
      var best := matching[0];
      ConsumesItself(best);
      [best] + Cover(RemoveConsumed(matching, best.key.attributes))
  }

  lemma ConsumesItself(s: MultiAttributeSetter)
    requires |s.key.attributes| >= 1
    ensures Consumed(s, s.key.attributes)
  {
    assert s.key.attributes[0] in s.key.attributes;
  }

  /** No two chosen setters share an attribute. */
  lemma {:induction false} CoverDisjoint(matching: seq<MultiAttributeSetter>)
    requires NonEmptyKeys(matching)
    ensures forall i, j :: 0 <= i < j < |Cover(matching)| ==> !Overlap(Cover(matching)[i], Cover(matching)[j])
    decreases |matching|
  {
    if |matching| > 0 {
      var best := matching[0];
      ConsumesItself(best);
      var rest := RemoveConsumed(matching, best.key.attributes);
      CoverDisjoint(rest);
      var tail := Cover(rest);
      var r := Cover(matching);
      assert r == [best] + tail;
      forall i, j | 0 <= i < j < |r| ensures !Overlap(r[i], r[j]) {
        if i == 0 {
          assert r[0] == best;
          assert r[j] == tail[j - 1] && r[j] in rest;
          assert !Consumed(r[j], best.key.attributes);
          forall x | x in best.key.attributes ensures x !in r[j].key.attributes {
          }
        } else {
          assert r[i] == tail[i - 1] && r[j] == tail[j - 1];
        }
      }
    }
  }

  /** Every candidate shares an attribute with a chosen setter: nothing that could still be
      applied is left out. */
  lemma {:induction false} CoverMaximal(matching: seq<MultiAttributeSetter>)
    requires NonEmptyKeys(matching)
    ensures forall s :: s in matching ==> exists c :: c in Cover(matching) && Overlap(s, c)
    decreases |matching|
  {
    if |matching| > 0 {
      var best := matching[0];
      ConsumesItself(best);
      var rest := RemoveConsumed(matching, best.key.attributes);
      CoverMaximal(rest);
      var r := Cover(matching);
      assert r == [best] + Cover(rest);
      forall s | s in matching ensures exists c :: c in r && Overlap(s, c) {
        if s in rest {
          var c :| c in Cover(rest) && Overlap(s, c);
          assert c in r;
        } else {
          var x :| x in best.key.attributes && x in s.key.attributes;
          assert Overlap(s, best) && best in r;
        }
      }
    }
  }

  /** The loop itself. */
  method CoverLoop(matching: seq<MultiAttributeSetter>) returns (calls: seq<MultiAttributeSetter>)
    requires NonEmptyKeys(matching)
    ensures calls == Cover(matching)
  {
    calls := [];
    var left := matching;
    while |left| > 0
      invariant NonEmptyKeys(left)
      invariant calls + Cover(left) == Cover(matching)
      decreases |left|
    {
      var best := left[0];
      var next := RemoveConsumed(left, best.key.attributes);
      CoverStep(left);
      assert (calls + [best]) + Cover(next) == calls + ([best] + Cover(next));
      calls := calls + [best];
      left := next;
    }
    assert Cover(left) == [];
    assert calls + [] == calls;
  }

  /** One round of the loop: the best candidate is chosen and the rest is covered. */
  lemma CoverStep(left: seq<MultiAttributeSetter>)
    requires NonEmptyKeys(left) && |left| > 0
    ensures var next := RemoveConsumed(left, left[0].key.attributes);
      && NonEmptyKeys(next) && |next| < |left|
      && Cover(left) == [left[0]] + Cover(next)
  {
    ConsumesItself(left[0]);
  }

  /** The candidate setters of `getMultiAttributeSetterCalls`, sorted best first. */
  function SortedCandidates(h: Host, conv: ConversionTable, table: seq<MultiEntry>,
                            attributes: seq<string>, viewType: TypeRef, values: seq<TypeRef>): (r: seq<MultiAttributeSetter>)
    requires WellFormedKeys(KeysOf(table)) && |values| == |attributes|
    ensures NonEmptyKeys(r)
    ensures forall s :: s in r <==> s in GetMatching(h, conv, table, StripAttributes(attributes), viewType, values)
  {
    var requested := StripAttributes(attributes);
    var matching := GetMatching(h, conv, table, requested, viewType, values);
    var sorted := SortSetters(h, matching);
    assert forall s :: s in sorted <==> s in multiset(matching);
    forall s | s in matching ensures |s.key.attributes| >= 1 {
      var e :| e in table && Considered(h, e, requested, viewType)
               && CreateMultiAttributeSetter(h, conv, e.adapter, requested, values, e.key) == Some(s);
      var i :| 0 <= i < |table| && table[i] == e;
      assert KeysOf(table)[i] == e.key;
    }
    sorted
  }

  /** `getMultiAttributeSetterCalls(attributes, viewType, valueType)`: the namespaces are stripped,
      the setters the table's entries give are sorted best first, and covered. `values[i]` is the
      type of the value of `attributes[i]`. */
  function GetMultiAttributeSetterCalls(h: Host, conv: ConversionTable, table: seq<MultiEntry>,
                                        attributes: seq<string>, viewType: TypeRef, values: seq<TypeRef>): (r: seq<MultiAttributeSetter>)
    requires WellFormedKeys(KeysOf(table)) && |values| == |attributes|
    ensures forall c :: c in r ==> c in GetMatching(h, conv, table, StripAttributes(attributes), viewType, values)
  {
    Cover(SortedCandidates(h, conv, table, attributes, viewType, values))
  }

  /** The setters chosen for a view: no two need a common attribute, and every candidate shares
      an attribute with a chosen one. */
  lemma MultiAttributeSetterCallsCover(h: Host, conv: ConversionTable, table: seq<MultiEntry>,
                                       attributes: seq<string>, viewType: TypeRef, values: seq<TypeRef>)
    requires WellFormedKeys(KeysOf(table)) && |values| == |attributes|
    ensures var r := GetMultiAttributeSetterCalls(h, conv, table, attributes, viewType, values);
      && (forall i, j :: 0 <= i < j < |r| ==> !Overlap(r[i], r[j]))
      && (forall s :: s in GetMatching(h, conv, table, StripAttributes(attributes), viewType, values)
                      ==> exists c :: c in r && Overlap(s, c))
  {
    var sorted := SortedCandidates(h, conv, table, attributes, viewType, values);
    var matching := GetMatching(h, conv, table, StripAttributes(attributes), viewType, values);
    var r := GetMultiAttributeSetterCalls(h, conv, table, attributes, viewType, values);
    assert r == Cover(sorted);
    CoverDisjoint(sorted);
    CoverMaximal(sorted);
    forall s | s in matching ensures exists c :: c in r && Overlap(s, c) {
      assert s in sorted;
    }
  }

  /** Each chosen setter is the one an entry considered for the view gives. */
  lemma MultiAttributeSetterCallsFromTable(h: Host, conv: ConversionTable, table: seq<MultiEntry>,
                                           attributes: seq<string>, viewType: TypeRef, values: seq<TypeRef>)
    requires WellFormedKeys(KeysOf(table)) && |values| == |attributes|
    ensures forall c :: c in GetMultiAttributeSetterCalls(h, conv, table, attributes, viewType, values) ==>
              exists e :: e in table && Considered(h, e, StripAttributes(attributes), viewType)
                          && CreateMultiAttributeSetter(h, conv, e.adapter, StripAttributes(attributes), values, e.key) == Some(c)
  {
  }

  /** Under a host whose assignability is antisymmetric, the first chosen setter needs as many
      attributes as any candidate. */
  lemma FirstCallIsWidest(h: Host, conv: ConversionTable, table: seq<MultiEntry>,
                          attributes: seq<string>, viewType: TypeRef, values: seq<TypeRef>)
    requires WellFormedKeys(KeysOf(table)) && |values| == |attributes|
    requires AntisymmetricAssignability(h)
    ensures var r := GetMultiAttributeSetterCalls(h, conv, table, attributes, viewType, values);
      forall s :: s in GetMatching(h, conv, table, StripAttributes(attributes), viewType, values)
        ==> |r| > 0 && |r[0].key.attributes| >= |s.key.attributes|
  {
    var requested := StripAttributes(attributes);
    var matching := GetMatching(h, conv, table, requested, viewType, values);
    var sorted := SortedCandidates(h, conv, table, attributes, viewType, values);
    assert sorted == SortSetters(h, matching);
    SortedByAttributeCount(h, matching);
    forall s | s in matching ensures |sorted| > 0 && |sorted[0].key.attributes| >= |s.key.attributes| {
      var j :| 0 <= j < |sorted| && sorted[j] == s;
      if j > 0 {
        assert |sorted[0].key.attributes| >= |sorted[j].key.attributes|;
      }
    }
  }
}

=== FILE: elements.dfy ===
/** Program elements as the annotation processors see them, reduced to the facts the setter store
    and the declaration validators read. */
module Elements {
  import opened TypeModel

  /** The `ElementKind`s the processors distinguish. */
  datatype ElementKind = MethodElement | ClassElement | FieldElement | OtherElement

  /** An annotated element: its kind, the two modifiers the processors test, its simple name, the
      qualified name of its enclosing class (for a class, its own qualified name), and for a
      method its parameter types and return type, each by qualified name. */
  datatype Element = Element(
    kind: ElementKind,
    isStatic: bool,
    isPublic: bool,
    name: string,
    enclosingClass: string,
    parameterTypes: seq<TypeRef>,
    returnType: TypeRef)

  /** The name the source's `getQualifiedName` gives `void`. */
  const VoidType: TypeRef := "void"
}

=== FILE: java_strings.dfy ===
/** The java.lang.String and java.lang.Character behaviour the data-binding compiler relies on.
    Characters are compared by code point; case mapping and identifier classes cover ASCII only. */
module JavaStrings {

  /** `s.indexOf(c)`: the first position of `c` in `s`, or -1. */
  function IndexOf(s: string, c: char): (r: int)
    ensures -1 <= r < |s|
    ensures r == -1 <==> c !in s
    ensures 0 <= r ==> s[r] == c && c !in s[..r]
  {
    if |s| == 0 then -1
    else if s[0] == c then 0
    else
      var k := IndexOf(s[1..], c);
      if k == -1 then -1
      else
        assert s[..k + 1] == [s[0]] + s[1..][..k];
        k + 1
  }

  /** `s.startsWith(p)` */
  predicate StartsWith(s: string, p: string) {
    |p| <= |s| && s[..|p|] == p
  }

  /** `s.endsWith(p)` */
  predicate EndsWith(s: string, p: string) {
    |p| <= |s| && s[|s| - |p|..] == p
  }

  predicate IsUpperCase(c: char) {
    'A' <= c <= 'Z'
  }

  predicate IsLowerCase(c: char) {
    'a' <= c <= 'z'
  }

  /** `Character.isJavaIdentifierStart`, restricted to ASCII: a letter, `_` or `$`. */
  predicate IsJavaIdentifierStart(c: char) {
    IsUpperCase(c) || IsLowerCase(c) || c == '_' || c == '$'
  }

  function ToUpperCase(c: char): (r: char)
    ensures IsLowerCase(c) ==> IsUpperCase(r)
    ensures !IsLowerCase(c) ==> r == c
  {
    if IsLowerCase(c) then (c as int - 32) as char else c
  }

  function ToLowerCase(c: char): (r: char)
    ensures IsUpperCase(c) ==> IsLowerCase(r)
    ensures !IsUpperCase(c) ==> r == c
  {
    if IsUpperCase(c) then (c as int + 32) as char else c
  }

  /** `s.toLowerCase()` */
  function ToLowerString(s: string): (r: string)
    ensures |r| == |s|
    ensures forall i :: 0 <= i < |s| ==> r[i] == ToLowerCase(s[i])
  {
    seq(|s|, i requires 0 <= i < |s| => ToLowerCase(s[i]))
  }

  /** `StringUtils.capitalize`: the first character in upper case, the rest untouched. */
  function Capitalize(s: string): (r: string)
    ensures |r| == |s|
    ensures 0 < |s| ==> r[0] == ToUpperCase(s[0]) && r[1..] == s[1..]
  {
    if |s| == 0 then s else [ToUpperCase(s[0])] + s[1..]
  }

  /** `s.trim() == ""`: `trim` removes every leading and trailing character up to U+0020. */
  predicate IsBlank(s: string) {
    forall i :: 0 <= i < |s| ==> s[i] <= ' '
  }

  /** The concatenation of `parts`, in order (`joinToString("")`). */
  function Concat(parts: seq<string>): (r: string)
    ensures |parts| == 1 ==> r == parts[0]
  {
    if |parts| == 0 then "" else parts[0] + Concat(parts[1..])
  }

  lemma {:induction false} ConcatAppend(parts: seq<string>, last: string)
    ensures Concat(parts + [last]) == Concat(parts) + last
  {
    if |parts| == 0 {
      assert parts + [last] == [last];
    } else {
      assert (parts + [last])[1..] == parts[1..] + [last];
      ConcatAppend(parts[1..], last);
    }
  }

  /** `s.times(n)`: `s` repeated `n` times; no copies for `n <= 0`. */
  function Repeat(s: string, n: int): (r: string)
    ensures |r| == if n <= 0 then 0 else n * |s|
    decreases n
  {
    if n <= 0 then "" else s + Repeat(s, n - 1)
  }

  /** `a.compareTo(b)`: the difference of the first differing characters, else of the lengths. */
  function CompareTo(a: string, b: string): int
  {
    if |a| == 0 || |b| == 0 then |a| - |b|
    else if a[0] != b[0] then a[0] as int - b[0] as int
    else CompareTo(a[1..], b[1..])
  }

  /** `a` sorts strictly before `b` in `String` natural order. */
  predicate Less(a: string, b: string) {
    CompareTo(a, b) < 0
  }

  lemma {:induction false} CompareToZeroIffEqual(a: string, b: string)
    ensures CompareTo(a, b) == 0 <==> a == b
  {
    if |a| == 0 || |b| == 0 {
    } else if a[0] != b[0] {
    } else {
      CompareToZeroIffEqual(a[1..], b[1..]);
      if a[1..] == b[1..] {
        assert a == [a[0]] + a[1..] && b == [b[0]] + b[1..];
      }
    }
  }

  lemma {:induction false} CompareToAntisymmetric(a: string, b: string)
    ensures CompareTo(a, b) == -CompareTo(b, a)
  {
    if |a| == 0 || |b| == 0 {
    } else if a[0] != b[0] {
    } else {
      CompareToAntisymmetric(a[1..], b[1..]);
    }
  }

  lemma {:induction false} LessTransitive(a: string, b: string, c: string)
    requires Less(a, b) && Less(b, c)
    ensures Less(a, c)
  {
    if |a| == 0 || |b| == 0 || |c| == 0 {
    } else if a[0] != b[0] || b[0] != c[0] {
    } else {
      LessTransitive(a[1..], b[1..], c[1..]);
    }
  }
}

=== FILE: keys.dfy ===
/** The keys and values of the setter store's tables: `MethodDescription`, `AccessorKey` and the
    newer store's `MultiValueAdapterKey`. */
module Keys {
  import opened Wrappers
  import opened TypeModel
  import opened AttributeNames
  import opened Elements

  /** `MethodDescription`: a static method named by the qualified name of its declaring class
      (the source's `type` field) and its simple name. The source's `equals` compares both
      fields, which is Dafny's structural equality. */
  datatype MethodDescription = MethodDescription(declaringType: string, methodName: string)

  /** `new MethodDescription(ExecutableElement)`: the enclosing class and the simple name. */
  function DescribeMethod(e: Element): (r: MethodDescription)
    ensures r.declaringType == e.enclosingClass && r.methodName == e.name
  {
    MethodDescription(e.enclosingClass, e.name)
  }

  /** `AccessorKey`: the view type and value type of a single-attribute adapter. */
  datatype AccessorKey = AccessorKey(viewType: TypeRef, valueType: TypeRef)

  /** The key equality the model adopts for `AccessorKey`: both fields equal, matching the
      fields its `hashCode` hashes. The source's own `equals` is modelled separately, in
      `AccessorKeyAsWritten`. */
  predicate SameAccessor(a: AccessorKey, b: AccessorKey) {
    a.viewType == b.viewType && a.valueType == b.valueType
  }

  /** `MultiValueAdapterKey`: the view type, the (stripped) attribute names and the parameter
      types of a multi-attribute adapter, the view parameter excluded. */
  datatype MultiValueAdapterKey = MultiValueAdapterKey(
    viewType: TypeRef,
    attributes: seq<string>,
    parameterTypes: seq<TypeRef>)

  /** One parameter type per attribute, as the constructor builds a key from a declaration with
      `n + 1` parameters. */
  predicate WellFormedKey(k: MultiValueAdapterKey) {
    |k.attributes| == |k.parameterTypes|
  }

  predicate Distinct<T(==)>(s: seq<T>) {
    forall i, j :: 0 <= i < j < |s| ==> s[i] != s[j]
  }

  function AttributeSet(k: MultiValueAdapterKey): set<string> {
    set a | a in k.attributes
  }

  /** `attributeIndices`: the `TreeMap` the constructor fills by putting `attributes[i] -> i` for
      each `i` in turn, so a repeated attribute keeps its last position. */
  function AttributeIndices(attributes: seq<string>): (m: map<string, nat>)
    ensures m.Keys == set a | a in attributes
    ensures forall a :: a in m ==> m[a] < |attributes| && attributes[m[a]] == a
    ensures forall a, j :: a in m && m[a] < j < |attributes| ==> attributes[j] != a
  {
    if |attributes| == 0 then map[]
    else
      var n := |attributes| - 1;
      AttributeIndices(attributes[..n])[attributes[n] := n]
  }

  /** In a repetition-free attribute list, every attribute's index is its position. */
  lemma IndicesOfDistinct(attributes: seq<string>, i: nat)
    requires Distinct(attributes) && i < |attributes|
    ensures AttributeIndices(attributes)[attributes[i]] == i
  {
    var m := AttributeIndices(attributes);
    assert attributes[m[attributes[i]]] == attributes[i];
  }

  /** The parameter type the key gives attribute `a`. */
  function ParamOf(k: MultiValueAdapterKey, a: string): TypeRef
    requires WellFormedKey(k) && a in k.attributes
  {
    k.parameterTypes[AttributeIndices(k.attributes)[a]]
  }

  /** `MultiValueAdapterKey.equals`, as written: same view type, same number of attributes, same
      attribute set, and every attribute of `key`, by position, has the parameter type `other`
      gives the same attribute; `key` plays the role of `this`. */
  predicate MultiKeyEquals(key: MultiValueAdapterKey, other: MultiValueAdapterKey)
    requires WellFormedKey(key) && WellFormedKey(other)
  {
    var otherIndices := AttributeIndices(other.attributes);
    && key.viewType == other.viewType
    && |key.attributes| == |other.attributes|
    && AttributeIndices(key.attributes).Keys == otherIndices.Keys
    && forall i :: 0 <= i < |key.attributes| ==>
         key.parameterTypes[i] == other.parameterTypes[otherIndices[key.attributes[i]]]
  }

  /** What `MultiValueAdapterKey.hashCode` hashes: the view type and the attribute set. */
  function HashInputs(k: MultiValueAdapterKey): (TypeRef, set<string>) {
    (k.viewType, AttributeSet(k))
  }

  lemma {:induction false} DistinctCardinality<T>(s: seq<T>)
    requires Distinct(s)
    ensures |set x | x in s| == |s|
  {
    if |s| > 0 {
      var n := |s| - 1;
      DistinctCardinality(s[..n]);
      assert (set x | x in s) == (set x | x in s[..n]) + {s[n]};
      assert s[n] !in (set x | x in s[..n]);
    }
  }

  lemma EqualKeysAgreeOn(k1: MultiValueAdapterKey, k2: MultiValueAdapterKey, a: string)
    requires WellFormedKey(k1) && WellFormedKey(k2) && Distinct(k1.attributes)
    requires MultiKeyEquals(k1, k2) && a in k1.attributes
    ensures a in k2.attributes && ParamOf(k1, a) == ParamOf(k2, a)
  {
    var i := AttributeIndices(k1.attributes)[a];
    IndicesOfDistinct(k1.attributes, i);
    assert k1.attributes[i] == a;
    var m2 := AttributeIndices(k2.attributes);
    assert a in m2.Keys;
    assert k1.parameterTypes[i] == k2.parameterTypes[m2[k1.attributes[i]]];
  }

  lemma AgreeingKeysAreEqual(k1: MultiValueAdapterKey, k2: MultiValueAdapterKey)
    requires WellFormedKey(k1) && WellFormedKey(k2)
    requires Distinct(k1.attributes) && Distinct(k2.attributes)
    requires k1.viewType == k2.viewType && AttributeSet(k1) == AttributeSet(k2)
    requires forall a :: a in AttributeSet(k1) ==> ParamOf(k1, a) == ParamOf(k2, a)
    ensures MultiKeyEquals(k1, k2)
  {
    DistinctCardinality(k1.attributes);
    DistinctCardinality(k2.attributes);
    assert |k1.attributes| == |k2.attributes|;
    var m2 := AttributeIndices(k2.attributes);
    forall i | 0 <= i < |k1.attributes|
      ensures k1.parameterTypes[i] == k2.parameterTypes[m2[k1.attributes[i]]]
    {
      IndicesOfDistinct(k1.attributes, i);
      var a := k1.attributes[i];
      assert a in AttributeSet(k1);
      assert ParamOf(k1, a) == k1.parameterTypes[i];
    }
  }

  /** For keys without repeated attributes, equality ignores attribute order: two keys are equal
      exactly when they name the same view type and attribute set and give every attribute the
      same parameter type. Equal keys therefore hash alike. */
  lemma MultiKeyEqualsCharacterization(k1: MultiValueAdapterKey, k2: MultiValueAdapterKey)
    requires WellFormedKey(k1) && WellFormedKey(k2)
    requires Distinct(k1.attributes) && Distinct(k2.attributes)
    ensures MultiKeyEquals(k1, k2) <==>
      && k1.viewType == k2.viewType
      && AttributeSet(k1) == AttributeSet(k2)
      && forall a :: a in AttributeSet(k1) ==> ParamOf(k1, a) == ParamOf(k2, a)
    ensures MultiKeyEquals(k1, k2) ==> HashInputs(k1) == HashInputs(k2)
  {
    if MultiKeyEquals(k1, k2) {
      forall a | a in AttributeSet(k1) ensures ParamOf(k1, a) == ParamOf(k2, a) {
        EqualKeysAgreeOn(k1, k2, a);
      }
    }
    if && k1.viewType == k2.viewType
       && AttributeSet(k1) == AttributeSet(k2)
       && forall a :: a in AttributeSet(k1) ==> ParamOf(k1, a) == ParamOf(k2, a)
    {
      AgreeingKeysAreEqual(k1, k2);
    }
  }

  /** On keys without repeated attributes the equality is an equivalence. */
  lemma MultiKeyEqualsIsEquivalence(k1: MultiValueAdapterKey, k2: MultiValueAdapterKey, k3: MultiValueAdapterKey)
    requires WellFormedKey(k1) && WellFormedKey(k2) && WellFormedKey(k3)
    requires Distinct(k1.attributes) && Distinct(k2.attributes) && Distinct(k3.attributes)
    ensures MultiKeyEquals(k1, k1)
    ensures MultiKeyEquals(k1, k2) ==> MultiKeyEquals(k2, k1)
    ensures MultiKeyEquals(k1, k2) && MultiKeyEquals(k2, k3) ==> MultiKeyEquals(k1, k3)
  {
    MultiKeyEqualsCharacterization(k1, k1);
    MultiKeyEqualsCharacterization(k1, k2);
    MultiKeyEqualsCharacterization(k2, k1);
    MultiKeyEqualsCharacterization(k2, k3);
    MultiKeyEqualsCharacterization(k1, k3);
  }

  /** Declaring the same adapter with its attributes (and their parameters) listed in another
      order gives an equal key. */
  lemma SwappedAttributesGiveEqualKey(view: TypeRef, a: string, b: string, ta: TypeRef, tb: TypeRef)
    requires a != b
    ensures MultiKeyEquals(MultiValueAdapterKey(view, [a, b], [ta, tb]),
                           MultiValueAdapterKey(view, [b, a], [tb, ta]))
  {
    var k1 := MultiValueAdapterKey(view, [a, b], [ta, tb]);
    var k2 := MultiValueAdapterKey(view, [b, a], [tb, ta]);
    assert AttributeSet(k1) == {a, b} == AttributeSet(k2);
    IndicesOfDistinct(k1.attributes, 0);
    IndicesOfDistinct(k1.attributes, 1);
    IndicesOfDistinct(k2.attributes, 0);
    IndicesOfDistinct(k2.attributes, 1);
    assert ParamOf(k1, a) == ta == ParamOf(k2, a);
    assert ParamOf(k1, b) == tb == ParamOf(k2, b);
    AgreeingKeysAreEqual(k1, k2);
  }

  /** Why the newer store could not build a key. */
  datatype KeyError = OldValueParametersUnsupported(parameterCount: nat, attributeCount: nat)

  /** `new MultiValueAdapterKey(method, attributes)`: the attributes are stripped of their
      namespace, the first parameter is the view and the rest are the attribute parameters. The
      constructor pairs `attributes[i]` with parameter `i + 1` for every parameter after the
      view, so a declaration with old and new values (`2n + 1` parameters) indexes past the
      attributes and fails. */
  function MakeMultiKey(decl: Element, attributes: seq<string>): (r: Result<MultiValueAdapterKey, KeyError>)
    requires |attributes| >= 1
    requires |decl.parameterTypes| == |attributes| + 1 || |decl.parameterTypes| == 2 * |attributes| + 1
    ensures r.Success? <==> |decl.parameterTypes| == |attributes| + 1
    ensures r.Success? ==>
      && WellFormedKey(r.value)
      && r.value.viewType == decl.parameterTypes[0]
      && |r.value.attributes| == |attributes|
      && (forall i :: 0 <= i < |attributes| ==>
            r.value.attributes[i] == StripNamespace(attributes[i])
            && r.value.parameterTypes[i] == decl.parameterTypes[i + 1])
  {
    if |decl.parameterTypes| - 1 > |attributes| then
      Failure(OldValueParametersUnsupported(|decl.parameterTypes|, |attributes|))
    else
      Success(MultiValueAdapterKey(decl.parameterTypes[0], StripAttributes(attributes), decl.parameterTypes[1..]))
  }
}

=== FILE: layout_names.dfy ===
/** The name helpers of the compiler's driver (`main.kt`): the binder class name and layout id of
    a layout file, the full class name of a view tag, the file and folder filters, and the flag
    that lets the layouts be processed once. */
module LayoutNames {
  import opened Wrappers
  import opened JavaStrings
  import opened ListExt

  // ---------------------------------------------------------------------------------------
  // Splitting on a character

  /** The pieces of `s` between the occurrences of `c`, empty pieces included. */
  function SplitAll(s: string, c: char): (r: seq<string>)
    ensures |r| >= 1
    ensures forall i :: 0 <= i < |r| ==> c !in r[i]
    decreases |s|
  {
    if |s| == 0 then [""]
    else
      var rest := SplitAll(s[1..], c);
      if s[0] == c then [""] + rest
      else [[s[0]] + rest[0]] + rest[1..]
  }

  /** The pieces joined with `c` between them. */
  function JoinWith(parts: seq<string>, c: char): string
    requires |parts| >= 1
    decreases |parts|
  {
    if |parts| == 1 then parts[0] else parts[0] + [c] + JoinWith(parts[1..], c)
  }

  /** Splitting loses nothing: joining the pieces gives the string back. */
  lemma {:induction false} JoinSplit(s: string, c: char)
    ensures JoinWith(SplitAll(s, c), c) == s
    decreases |s|
  {
    if |s| > 0 {
      var rest := SplitAll(s[1..], c);
      JoinSplit(s[1..], c);
      if s[0] == c {
        assert ([""] + rest)[1..] == rest;
        assert s == [c] + s[1..];
      } else {
        var parts := SplitAll(s, c);
        assert parts[0] == [s[0]] + rest[0] && parts[1..] == rest[1..];
        if |rest| == 1 {
          assert s == [s[0]] + s[1..];
        } else {
          assert JoinWith(rest, c) == rest[0] + [c] + JoinWith(rest[1..], c);
          assert s == [s[0]] + s[1..];
        }
      }
    }
  }

  /** A piece without `c` followed by `c` and more text splits off as the first piece. */
  lemma {:induction false} SplitAllAfterPiece(p: string, c: char, rest: string)
    requires c !in p
    ensures SplitAll(p + [c] + rest, c) == [p] + SplitAll(rest, c)
    decreases |p|
  {
    if |p| == 0 {
      assert p + [c] + rest == [c] + rest;
      assert ([c] + rest)[1..] == rest;
    } else {
      SplitAllAfterPiece(p[1..], c, rest);
      assert (p + [c] + rest)[1..] == p[1..] + [c] + rest;
      assert [p[0]] + p[1..] == p;
    }
  }

  /** Text without `c` is a single piece. */
  lemma {:induction false} SplitAllOfPiece(p: string, c: char)
    requires c !in p
    ensures SplitAll(p, c) == [p]
    decreases |p|
  {
    if |p| > 0 {
      SplitAllOfPiece(p[1..], c);
      assert [p[0]] + p[1..] == p;
    }
  }

  /** Joining loses nothing: pieces without `c` come back from splitting their join. */
  lemma {:induction false} SplitJoin(parts: seq<string>, c: char)
    requires |parts| >= 1
    requires forall i :: 0 <= i < |parts| ==> c !in parts[i]
    ensures SplitAll(JoinWith(parts, c), c) == parts
    decreases |parts|
  {
    if |parts| == 1 {
      SplitAllOfPiece(parts[0], c);
    } else {
      SplitJoin(parts[1..], c);
      SplitAllAfterPiece(parts[0], c, JoinWith(parts[1..], c));
      assert parts == [parts[0]] + parts[1..];
    }
  }

  /** A character in no piece and other than the separator is not in the join. */
  lemma {:induction false} NotInJoin(parts: seq<string>, c: char, d: char)
    requires |parts| >= 1 && d != c
    requires forall i :: 0 <= i < |parts| ==> d !in parts[i]
    ensures d !in JoinWith(parts, c)
    decreases |parts|
  {
    if |parts| > 1 {
      NotInJoin(parts[1..], c, d);
    }
  }

  /** The separator is in the join of two pieces or more. */
  lemma SeparatorInJoin(parts: seq<string>, c: char)
    requires |parts| >= 2
    ensures c in JoinWith(parts, c)
  {
    assert (parts[0] + [c] + JoinWith(parts[1..], c))[|parts[0]|] == c;
  }

  /** The pieces without the empty ones at the end. */
  function DropTrailingEmpty(parts: seq<string>): (r: seq<string>)
    ensures |r| <= |parts| && r == parts[..|r|]
    ensures |r| > 0 ==> r[|r| - 1] != ""
    ensures forall i :: |r| <= i < |parts| ==> parts[i] == ""
    decreases |parts|
  {
    if |parts| == 0 then []
    else if parts[|parts| - 1] == "" then DropTrailingEmpty(parts[..|parts| - 1])
    else parts
  }

  /** `String.split` on a one-character separator: the string itself when the separator does
      not occur, otherwise the pieces with trailing empty ones removed. */
  function JavaSplit(s: string, c: char): (r: seq<string>)
    ensures forall i :: 0 <= i < |r| ==> c !in r[i]
  {
    if c !in s then [s] else DropTrailingEmpty(SplitAll(s, c))
  }

  // ---------------------------------------------------------------------------------------
  // Layout file names

  /** Why a layout file name could not be mapped. */
  datatype NameError =
    | NoExtension          // `substring(0, indexOf("."))` with no `.`
    | EmptySection         // `substring(0, 1)` of an empty section

  /** `toLayoutId`: the file name before its first `.`. */
  function ToLayoutId(name: string): (r: Result<string, NameError>)
    ensures r.Failure? <==> '.' !in name
    ensures r.Failure? ==> r.error == NoExtension
    ensures r.Success? ==> '.' !in r.value && |r.value| < |name| && name[..|r.value|] == r.value && name[|r.value|] == '.'
  {
    var dot := IndexOf(name, '.');
    if dot < 0 then Failure(NoExtension) else Success(name[..dot])
  }

  /** A name and an extension give back the name. */
  lemma LayoutIdOfFileName(base: string, extension: string)
    requires '.' !in base
    ensures ToLayoutId(base + "." + extension) == Success(base)
  {
    var name := base + "." + extension;
    assert name[|base|] == '.';
    assert name[..|base|] == base;
  }

  /** `substring(0, 1).toUpperCase() + substring(1)` */
  function CapitalizeSection(section: string): string {
    Capitalize(section)
  }

  /** `toClassName`: the name before its first `.`, split on `_`, each section capitalised, the
      sections concatenated. A name without `.`, or with an empty section inside (two `_` in a
      row, a leading `_`, or nothing before the `.`), is an error. */
  function ToClassName(name: string): (r: Result<string, NameError>)
    ensures r.Failure? <==> '.' !in name || exists i :: 0 <= i < |JavaSplit(ToLayoutId(name).value, '_')| && JavaSplit(ToLayoutId(name).value, '_')[i] == ""
    ensures r.Success? ==> '_' !in r.value
  {
    match ToLayoutId(name)
    case Failure(e) => Failure(e)
    case Success(base) =>
      var sections := JavaSplit(base, '_');
      if exists i :: 0 <= i < |sections| && sections[i] == "" then Failure(EmptySection)
      else
        var capitalised := MapParts(sections, CapitalizeSection);
        NoUnderscore(capitalised);
        Success(Concat(capitalised))
  }

  lemma {:induction false} NoUnderscore(parts: seq<string>)
    requires forall i :: 0 <= i < |parts| ==> '_' !in parts[i]
    ensures '_' !in Concat(parts)
    decreases |parts|
  {
    if |parts| > 0 {
      NoUnderscore(parts[1..]);
    }
  }

  /** A file named by non-empty sections joined with `_` gets the class name of the sections
      capitalised and concatenated: `list_item.xml` is `ListItem`. */
  lemma ClassNameOfSections(sections: seq<string>, extension: string)
    requires |sections| >= 1
    requires forall i :: 0 <= i < |sections| ==> sections[i] != "" && '_' !in sections[i] && '.' !in sections[i]
    ensures ToClassName(JoinWith(sections, '_') + "." + extension) == Success(Concat(MapParts(sections, CapitalizeSection)))
  {
    var base := JoinWith(sections, '_');
    NotInJoin(sections, '_', '.');
    LayoutIdOfFileName(base, extension);
    if |sections| == 1 {
      assert JavaSplit(base, '_') == sections;
    } else {
      SeparatorInJoin(sections, '_');
      SplitJoin(sections, '_');
      assert JavaSplit(base, '_') == sections;
    }
  }

  /** `process` names the binder of a layout file after its class name and gives it the
      layout id. */
  function BinderNames(fileName: string): (r: Result<(string, string), NameError>)
    ensures r.Failure? <==> ToClassName(fileName).Failure?
    ensures r.Success? ==> EndsWith(r.value.0, "Binder") && r.value.1 == ToLayoutId(fileName).value
  {
    match ToClassName(fileName)
    case Failure(e) => Failure(e)
    case Success(className) =>
      var baseClassName := className + "Binder";
      assert baseClassName[|baseClassName| - 6..] == "Binder";
      Success((baseClassName, ToLayoutId(fileName).value))
  }

  // ---------------------------------------------------------------------------------------
  // Views, files and folders

  /** `getFullViewClassName`: a qualified name as it is; `View` and `ViewGroup` in
      `android.view`; any other simple name in `android.widget`. */
  function GetFullViewClassName(viewName: string): (r: string)
    ensures '.' in viewName ==> r == viewName
    ensures '.' !in viewName && (viewName == "View" || viewName == "ViewGroup") ==> r == "android.view." + viewName
    ensures '.' !in viewName && viewName != "View" && viewName != "ViewGroup" ==> r == "android.widget." + viewName
    ensures EndsWith(r, viewName) && '.' in r
  {
    if IndexOf(viewName, '.') == -1 then
      if viewName == "View" || viewName == "ViewGroup" then
        var r := "android.view." + viewName;
        assert r[|r| - |viewName|..] == viewName && r[7] == '.';
        r
      else
        var r := "android.widget." + viewName;
        assert r[|r| - |viewName|..] == viewName && r[7] == '.';
        r
    else
      assert viewName[|viewName| - |viewName|..] == viewName;
      viewName
  }

  /** Qualifying a view name twice is qualifying it once. */
  lemma FullViewClassNameIdempotent(viewName: string)
    ensures GetFullViewClassName(GetFullViewClassName(viewName)) == GetFullViewClassName(viewName)
  {
  }

  /** `xmlFilter`: a name ending in `.xml` in any case. */
  predicate XmlFilter(name: string) {
    EndsWith(ToLowerString(name), ".xml")
  }

  /** The filter reads the extension without regard to case. */
  lemma XmlFilterIgnoresCase(base: string, extension: string)
    requires |extension| == 3
    requires ToLowerString(extension) == "xml"
    ensures XmlFilter(base + "." + extension)
    ensures XmlFilter(ToLowerString(base + "." + extension))
  {
    var name := base + "." + extension;
    var lower := ToLowerString(name);
    assert lower[|lower| - 4..] == ".xml" by {
      forall i | 0 <= i < 4 ensures lower[|lower| - 4 + i] == ".xml"[i] {
        if i > 0 {
          assert name[|name| - 4 + i] == extension[i - 1];
          assert ToLowerString(extension)[i - 1] == ToLowerCase(extension[i - 1]);
        }
      }
    }
    var twice := ToLowerString(lower);
    assert forall i :: 0 <= i < |lower| ==> twice[i] == lower[i];
    assert twice == lower;
  }

  /** The layout-folder filter of `findLayoutFolders`: `layout` and its qualified variants. */
  predicate IsLayoutFolder(name: string) {
    StartsWith(name, "layout")
  }

  /** Every resource qualifier appended to `layout` names a layout folder, and no shorter name
      does. */
  lemma LayoutFolderQualifiers(qualifier: string, name: string)
    ensures IsLayoutFolder("layout" + qualifier)
    ensures |name| < 6 ==> !IsLayoutFolder(name)
  {
    assert ("layout" + qualifier)[..6] == "layout";
  }

  // ---------------------------------------------------------------------------------------
  // Processing once

  /** `processIfNecessary`: the flag after the call, and whether `process` ran. */
  function ProcessIfNecessary(processed: bool): (r: (bool, bool))
    ensures r.0
    ensures r.1 <==> !processed
  {
    if !processed then (true, true) else (processed, false)
  }

  /** How many times `process` runs over `calls` calls, starting from the flag `processed`. */
  function Runs(processed: bool, calls: nat): nat
    decreases calls
  {
    if calls == 0 then 0
    else
      var (next, ran) := ProcessIfNecessary(processed);
      (if ran then 1 else 0) + Runs(next, calls - 1)
  }

  /** However often it is called, `process` runs at most once, and exactly once when it had not
      run and is called at all. */
  lemma {:induction false} ProcessRunsAtMostOnce(processed: bool, calls: nat)
    ensures Runs(processed, calls) <= 1
    ensures Runs(processed, calls) == 1 <==> !processed && calls > 0
    decreases calls
  {
    if calls > 0 {
      ProcessRunsAtMostOnce(true, calls - 1);
      ProcessRunsAfterFlag(calls - 1);
    }
  }

  /** Once the flag is set, `process` does not run again. */
  lemma {:induction false} ProcessRunsAfterFlag(calls: nat)
    ensures Runs(true, calls) == 0
    decreases calls
  {
    if calls > 0 {
      ProcessRunsAfterFlag(calls - 1);
    }
  }
}

=== FILE: list_ext.dfy ===
/** The list extensions of the compiler (`list_ext.kt`): camel-case joining of name sections and
    the indented joining of generated source lines. `toCamelCase`, `toCamelCaseAsVar` and
    `getIndentation` are defined elsewhere and are parameters here; `times` is repetition. */
module ListExt {
  import opened Wrappers
  import opened JavaStrings

  /** Why a join was refused. */
  datatype JoinError =
    | EmptySections        // `IllegalArgumentException("invalid section size, cannot be zero")`
    | NoFirstLine          // `get(0)` on an empty list

  /** Each part through `f`, in order. */
  function MapParts(parts: seq<string>, f: string -> string): (r: seq<string>)
    ensures |r| == |parts|
    ensures forall i :: 0 <= i < |parts| ==> r[i] == f(parts[i])
  {
    seq(|parts|, i requires 0 <= i < |parts| => f(parts[i]))
  }

  /** `joinToCamelCase` (the `List` and `Array` versions are the same): every section
      camel-cased, concatenated; a single section is camel-cased alone; no section is an error. */
  function JoinToCamelCase(parts: seq<string>, camel: string -> string): (r: Result<string, JoinError>)
    ensures r.Failure? <==> |parts| == 0
    ensures r.Failure? ==> r.error == EmptySections
    ensures r.Success? ==> r.value == Concat(MapParts(parts, camel))
  {
    if |parts| == 0 then Failure(EmptySections)
    else if |parts| == 1 then Success(camel(parts[0]))
    else Success(Concat(MapParts(parts, camel)))
  }

  lemma {:induction false} ConcatOfAppend(a: seq<string>, b: seq<string>)
    ensures Concat(a + b) == Concat(a) + Concat(b)
    decreases |a|
  {
    if |a| == 0 {
      assert a + b == b;
    } else {
      assert (a + b)[1..] == a[1..] + b;
      ConcatOfAppend(a[1..], b);
    }
  }

  /** Joining two lists of sections is joining each and concatenating. */
  lemma JoinToCamelCaseAppend(a: seq<string>, b: seq<string>, camel: string -> string)
    requires |a| > 0 && |b| > 0
    ensures JoinToCamelCase(a + b, camel).value == JoinToCamelCase(a, camel).value + JoinToCamelCase(b, camel).value
  {
    assert MapParts(a + b, camel) == MapParts(a, camel) + MapParts(b, camel);
    ConcatOfAppend(MapParts(a, camel), MapParts(b, camel));
  }

  /** `joinToCamelCaseAsVar`: the first section as a variable name, the others camel-cased. */
  function JoinToCamelCaseAsVar(parts: seq<string>, camel: string -> string, camelVar: string -> string): (r: Result<string, JoinError>)
    ensures r.Failure? <==> |parts| == 0
    ensures r.Failure? ==> r.error == EmptySections
  {
    if |parts| == 0 then Failure(EmptySections)
    else if |parts| == 1 then Success(camelVar(parts[0]))
    else Success(camelVar(parts[0]) + JoinToCamelCase(parts[1..], camel).value)
  }

  /** The variable-name join differs from the plain join in the first section only: with the
      first section's two spellings equal, the two joins are equal. */
  lemma AsVarDiffersInFirstSection(parts: seq<string>, camel: string -> string, camelVar: string -> string)
    requires |parts| > 0
    ensures JoinToCamelCaseAsVar(parts, camel, camelVar).value
         == camelVar(parts[0]) + Concat(MapParts(parts[1..], camel))
    ensures camelVar(parts[0]) == camel(parts[0]) ==>
      JoinToCamelCaseAsVar(parts, camel, camelVar) == JoinToCamelCase(parts, camel)
  {
    assert MapParts(parts, camel) == [camel(parts[0])] + MapParts(parts[1..], camel);
    if |parts| == 1 {
      assert MapParts(parts[1..], camel) == [];
    }
  }

  // ---------------------------------------------------------------------------------------
  // Indentation

  /** `"    ".times(indentation)` */
  function Indent(indentation: int): (r: string)
    ensures |r| == if indentation <= 0 then 0 else 4 * indentation
  {
    Repeat("    ", indentation)
  }

  /** What `joinIndented(indentation)` writes for `lines`: every line that is not blank, after
      the indent and before a newline. */
  function IndentedLines(lines: seq<string>, indent: string): string
    decreases |lines|
  {
    if |lines| == 0 then ""
    else IndentedLines(lines[..|lines| - 1], indent)
         + (if IsBlank(lines[|lines| - 1]) then "" else indent + lines[|lines| - 1] + "\n")
  }

  /** The lines that are not blank, in order. */
  function NonBlank(lines: seq<string>): (r: seq<string>)
    ensures forall l :: l in r <==> l in lines && !IsBlank(l)
    ensures |r| <= |lines|
    decreases |lines|
  {
    if |lines| == 0 then []
    else
      assert forall l :: l in lines <==> l in lines[..|lines| - 1] || l == lines[|lines| - 1];
      NonBlank(lines[..|lines| - 1]) + (if IsBlank(lines[|lines| - 1]) then [] else [lines[|lines| - 1]])
  }

  /** `pre + l + post` for each `l`. */
  function Wrap(lines: seq<string>, pre: string, post: string): (r: seq<string>)
    ensures |r| == |lines|
    ensures forall i :: 0 <= i < |lines| ==> r[i] == pre + lines[i] + post
  {
    seq(|lines|, i requires 0 <= i < |lines| => pre + lines[i] + post)
  }

  /** The indented text is the non-blank lines, each indented and ended with a newline. */
  lemma {:induction false} IndentedLinesAsFilter(lines: seq<string>, indent: string)
    ensures IndentedLines(lines, indent) == Concat(Wrap(NonBlank(lines), indent, "\n"))
    decreases |lines|
  {
    if |lines| > 0 {
      var init, last := lines[..|lines| - 1], lines[|lines| - 1];
      IndentedLinesAsFilter(init, indent);
      if !IsBlank(last) {
        assert Wrap(NonBlank(lines), indent, "\n") == Wrap(NonBlank(init), indent, "\n") + [indent + last + "\n"];
        ConcatAppend(Wrap(NonBlank(init), indent, "\n"), indent + last + "\n");
      } else {
        assert NonBlank(lines) == NonBlank(init);
      }
    }
  }

  /** Joining two blocks of lines is joining each and concatenating. */
  lemma {:induction false} IndentedLinesAppend(a: seq<string>, b: seq<string>, indent: string)
    ensures IndentedLines(a + b, indent) == IndentedLines(a, indent) + IndentedLines(b, indent)
    decreases |b|
  {
    if |b| == 0 {
      assert a + b == a;
    } else {
      var init, last := b[..|b| - 1], b[|b| - 1];
      assert (a + b)[..|a + b| - 1] == a + init && (a + b)[|a + b| - 1] == last;
      IndentedLinesAppend(a, init, indent);
    }
  }

  /** `joinIndented(indentation)`: the `StringBuilder` loop. */
  method JoinIndented(lines: seq<string>, indentation: int) returns (r: string)
    ensures r == IndentedLines(lines, Indent(indentation))
  {
    var indent := Indent(indentation);
    r := "";
    var i := 0;
    while i < |lines|
      invariant 0 <= i <= |lines|
      invariant r == IndentedLines(lines[..i], indent)
    {
      assert lines[..i + 1][..i] == lines[..i];
      if !IsBlank(lines[i]) {
        r := r + indent + lines[i] + "\n";
      }
      i := i + 1;
    }
    assert lines[..i] == lines;
  }

  /** What the loop of `joinIndentedExceptFirst` appends for `lines`: a newline and the indent
      before every line that is not blank. */
  function NewlineIndented(lines: seq<string>, indent: string): string
    decreases |lines|
  {
    if |lines| == 0 then ""
    else NewlineIndented(lines[..|lines| - 1], indent)
         + (if IsBlank(lines[|lines| - 1]) then "" else "\n" + indent + lines[|lines| - 1])
  }

  /** `joinIndentedExceptFirst(indentation)`: the first line as it is, then the other non-blank
      lines each on a new line after the indent; nothing for no lines. */
  function JoinIndentedExceptFirst(lines: seq<string>, indentation: int): (r: string)
    ensures |lines| == 0 ==> r == ""
    ensures |lines| == 1 ==> r == lines[0]
    ensures |lines| >= 1 ==> StartsWith(r, lines[0])
  {
    if |lines| == 0 then ""
    else if |lines| == 1 then lines[0]
    else lines[0] + NewlineIndented(lines[1..], Indent(indentation))
  }

  /** Moving the newline from after each line to before it: the two ways of joining agree up
      to a final newline. */
  lemma {:induction false} NewlineRotation(lines: seq<string>, indent: string)
    ensures NewlineIndented(lines, indent) + "\n" == "\n" + IndentedLines(lines, indent)
    decreases |lines|
  {
    if |lines| > 0 {
      var init, last := lines[..|lines| - 1], lines[|lines| - 1];
      NewlineRotation(init, indent);
      if !IsBlank(last) {
        calc {
          NewlineIndented(lines, indent) + "\n";
          NewlineIndented(init, indent) + ("\n" + indent + last) + "\n";
          (NewlineIndented(init, indent) + "\n") + (indent + last + "\n");
          "\n" + IndentedLines(init, indent) + (indent + last + "\n");
          "\n" + IndentedLines(lines, indent);
        }
      } else {
        var empty: string := "";
        assert NewlineIndented(init, indent) + empty == NewlineIndented(init, indent);
        assert IndentedLines(init, indent) + empty == IndentedLines(init, indent);
        assert NewlineIndented(lines, indent) == NewlineIndented(init, indent);
        assert IndentedLines(lines, indent) == IndentedLines(init, indent);
      }
    }
  }

  /** Every line but the first joined with the newline first is the first line, a newline and
      the rest joined with the newline last, without that final newline. */
  lemma JoinIndentedExceptFirstRotation(lines: seq<string>, indentation: int)
    requires |lines| >= 1
    ensures JoinIndentedExceptFirst(lines, indentation) + "\n"
         == lines[0] + "\n" + IndentedLines(lines[1..], Indent(indentation))
  {
    var indent, rest := Indent(indentation), lines[1..];
    NewlineRotation(rest, indent);
    if |lines| == 1 {
      assert IndentedLines(rest, indent) == "";
      assert lines[0] + "\n" == lines[0] + "\n" + "";
    } else {
      assert JoinIndentedExceptFirst(lines, indentation) + "\n" == lines[0] + (NewlineIndented(rest, indent) + "\n");
    }
  }

  /** `joinIndented()`: a single line as it is; otherwise the first line, a newline and the rest
      indented to the first line's indentation. An empty list has no first line. */
  function JoinIndentedAuto(lines: seq<string>, getIndentation: string -> int): (r: Result<string, JoinError>)
    ensures r.Failure? <==> |lines| == 0
    ensures r.Failure? ==> r.error == NoFirstLine
    ensures |lines| == 1 ==> r == Success(lines[0])
  {
    if |lines| == 0 then Failure(NoFirstLine)
    else if |lines| < 2 then Success(lines[0])
    else Success(lines[0] + "\n" + IndentedLines(lines[1..], Indent(getIndentation(lines[0]))))
  }

  /** For two lines or more, `joinIndented()` is `joinIndentedExceptFirst` at the first line's
      indentation followed by a newline. */
  lemma JoinIndentedAutoIsExceptFirst(lines: seq<string>, getIndentation: string -> int)
    requires |lines| >= 2
    ensures JoinIndentedAuto(lines, getIndentation).value
         == JoinIndentedExceptFirst(lines, getIndentation(lines[0])) + "\n"
  {
    JoinIndentedExceptFirstRotation(lines, getIndentation(lines[0]));
  }
}

=== FILE: method_adapters.dfy ===
/** The `ProcessMethodAdapters` step of the annotation processor: it checks the declarations of a
    round (`@BindingAdapter`, `@BindingMethods`, `@BindingConversion`, `@Untaggable`), first
    forgets what the classes of the round registered in earlier rounds, then registers the
    declarations that pass, reporting the others. */
module MethodAdapters {
  import opened Wrappers
  import opened JavaStrings
  import opened TypeModel
  import opened AttributeNames
  import opened Elements
  import opened Keys
  import opened MultiTable
  import opened Registry

  /** A `@BindingAdapter` declaration: the annotated element and the annotation's attributes. */
  datatype AdapterDecl = AdapterDecl(element: Element, attributes: seq<string>)

  /** One `@BindingMethod`: views of `viewType` set `attribute` with their method `setterName`. */
  datatype BindingMethod = BindingMethod(viewType: TypeRef, attribute: string, setterName: string)

  /** A class annotated with `@BindingMethods`, by qualified name, and its entries. */
  datatype RenamedDecl = RenamedDecl(owner: string, methods: seq<BindingMethod>)

  /** A class annotated with `@Untaggable`, by qualified name, and the view types it names. */
  datatype UntaggableDecl = UntaggableDecl(owner: string, typeNames: seq<TypeRef>)

  /** The annotated elements one round hands to the step. */
  datatype Round = Round(
    adapters: seq<AdapterDecl>,
    renamed: seq<RenamedDecl>,
    conversions: seq<Element>,
    untaggable: seq<UntaggableDecl>)

  /** The messages the step reports. Parameter positions are counted from 1, as in the
      source's message text. */
  datatype Diagnostic =
    | InvalidAdapterElement(element: Element)
    | MissingAttributes(element: Element)
    | OldValuesOutOfOrder(element: Element, parameter: nat, partner: nat)
    | WrongParameterCount(element: Element, attributeCount: nat, parameterCount: nat)
    | IgnoredNamespace(attribute: string)
    | AdapterAlreadyRegistered(element: Element)
    | InvalidConversionElement(element: Element)
    | ConversionParameterCount(element: Element)
    | ConversionReturnsVoid(element: Element)
    | ConversionAdded(element: Element)

  /** What ends the step early: the newer store's key constructor indexes past the attribute
      array for a multi-attribute adapter with old and new values, and the resulting
      `ArrayIndexOutOfBoundsException` is not the `IllegalArgumentException` the step catches. */
  datatype Abort = AttributeIndexOutOfBounds(element: Element)

  /** The element is a method with the `static` and `public` modifiers. */
  predicate IsPublicStaticMethod(e: Element) {
    e.kind == MethodElement && e.isStatic && e.isPublic
  }

  // ---------------------------------------------------------------------------------------
  // @BindingAdapter

  /** The first position `k` in `i..n` whose old-value parameter type differs from its new-value
      parameter type `k + n`, in a parameter list of length `2n + 1`. Types are compared by
      qualified name. */
  function FirstOldNewMismatch(parameters: seq<TypeRef>, n: nat, i: nat): (r: Option<nat>)
    requires |parameters| == 2 * n + 1 && 1 <= i <= n + 1
    ensures r.None? <==> forall k :: i <= k <= n ==> parameters[k] == parameters[k + n]
    ensures r.Some? ==> i <= r.value <= n && parameters[r.value] != parameters[r.value + n]
    ensures r.Some? ==> forall k :: i <= k < r.value ==> parameters[k] == parameters[k + n]
    decreases n + 1 - i
  {
    if i > n then None
    else if parameters[i] != parameters[i + n] then Some(i)
    else FirstOldNewMismatch(parameters, n, i + 1)
  }

  /** The declaration rules, stated on their own: a public static method, at least one
      attribute, and either one parameter per attribute after the view, or old values followed
      by new values of the same types. */
  predicate WellDeclaredAdapter(d: AdapterDecl) {
    var n := |d.attributes|;
    var p := d.element.parameterTypes;
    && IsPublicStaticMethod(d.element)
    && n >= 1
    && (|p| == n + 1 || (|p| == 2 * n + 1 && forall k :: 1 <= k <= n ==> p[k] == p[k + n]))
  }

  /** The checks of `addBindingAdapters` in their order: the message the declaration is skipped
      with, or `None` when it is registered. */
  function AdapterRejection(d: AdapterDecl): (r: Option<Diagnostic>)
    ensures r.None? <==> WellDeclaredAdapter(d)
    ensures !IsPublicStaticMethod(d.element) ==> r == Some(InvalidAdapterElement(d.element))
    ensures IsPublicStaticMethod(d.element) && |d.attributes| == 0 ==> r == Some(MissingAttributes(d.element))
    ensures r.Some? && r.value.OldValuesOutOfOrder? ==>
      var n := |d.attributes|;
      var p := d.element.parameterTypes;
      && |p| == 2 * n + 1
      && 2 <= r.value.parameter <= n + 1 && r.value.partner == r.value.parameter + n
      && p[r.value.parameter - 1] != p[r.value.partner - 1]
      && forall k :: 1 <= k < r.value.parameter - 1 ==> p[k] == p[k + n]
    ensures r.Some? && r.value.WrongParameterCount? ==>
      r.value == WrongParameterCount(d.element, |d.attributes|, |d.element.parameterTypes|)
      && |d.element.parameterTypes| != |d.attributes| + 1
      && |d.element.parameterTypes| != 2 * |d.attributes| + 1
  {
    var e := d.element;
    var n := |d.attributes|;
    if !IsPublicStaticMethod(e) then Some(InvalidAdapterElement(e))
    else if n == 0 then Some(MissingAttributes(e))
    else if |e.parameterTypes| == 2 * n + 1 then
      match FirstOldNewMismatch(e.parameterTypes, n, 1)
      case Some(i) => Some(OldValuesOutOfOrder(e, i + 1, i + n + 1))
      case None => None
    else if |e.parameterTypes| != n + 1 then Some(WrongParameterCount(e, n, |e.parameterTypes|))
    else None
  }

  /** `warnAttributeNamespace`: an attribute outside the `android` namespace that names a
      namespace. */
  predicate WarnsNamespace(attribute: string) {
    ':' in attribute && !StartsWith(attribute, AndroidPrefix)
  }

  /** The warning is given exactly for the attributes whose namespace the store drops. */
  lemma WarnsIffNamespaceDropped(attribute: string)
    ensures WarnsNamespace(attribute) <==> StripNamespace(attribute) != attribute
  {
    if WarnsNamespace(attribute) {
      assert |StripNamespace(attribute)| < |attribute|;
    }
  }

  /** `warnAttributeNamespaces`: one warning per offending attribute, in order. */
  function NamespaceWarnings(attributes: seq<string>): (r: seq<Diagnostic>)
    ensures forall w :: w in r <==> exists a :: a in attributes && WarnsNamespace(a) && w == IgnoredNamespace(a)
    ensures |r| <= |attributes|
  {
    if |attributes| == 0 then []
    else
      var rest := NamespaceWarnings(attributes[1..]);
      assert forall a :: a in attributes <==> a == attributes[0] || a in attributes[1..];
      (if WarnsNamespace(attributes[0]) then [IgnoredNamespace(attributes[0])] else []) + rest
  }

  /** The registration of a multi-attribute declaration ends the step. */
  predicate AbortsOn(d: AdapterDecl) {
    WellDeclaredAdapter(d) && |d.attributes| >= 2 && |d.element.parameterTypes| == 2 * |d.attributes| + 1
  }

  /** The key a single-attribute declaration registers under. */
  function AdapterKey(d: AdapterDecl): AccessorKey
    requires WellDeclaredAdapter(d)
  {
    AccessorKey(d.element.parameterTypes[0], d.element.parameterTypes[1])
  }

  /** One declaration of `addBindingAdapters`: skipped with its message when a rule fails;
      otherwise namespace warnings, then registration, a single attribute in the adapter table
      and several in the multi-attribute table. A duplicate key is reported and the step goes
      on with the store unchanged. */
  function AddBindingAdapter1(s: Store, d: AdapterDecl): (r: Result<(Store, seq<Diagnostic>), Abort>)
    requires ValidMultiTable(s.multiValueAdapters)
    ensures r.Failure? <==> AbortsOn(d)
    ensures r.Failure? ==> r.error == AttributeIndexOutOfBounds(d.element)
    ensures r.Success? ==> ValidMultiTable(r.value.0.multiValueAdapters)
    ensures r.Success? ==> r.value.0.(adapterMethods := s.adapterMethods, multiValueAdapters := s.multiValueAdapters) == s
    ensures !WellDeclaredAdapter(d) ==> r == Success((s, [AdapterRejection(d).value]))
    ensures r.Success? && r.value.0.adapterMethods != s.adapterMethods ==>
      && WellDeclaredAdapter(d) && |d.attributes| == 1
      && !HasAdapter(s, StripNamespace(d.attributes[0]), AdapterKey(d))
      && Get2(r.value.0.adapterMethods, StripNamespace(d.attributes[0]), AdapterKey(d)) == Some(DescribeMethod(d.element))
      && forall a, k :: (a != StripNamespace(d.attributes[0]) || k != AdapterKey(d)) ==>
           Get2(r.value.0.adapterMethods, a, k) == Get2(s.adapterMethods, a, k)
  {
    match AdapterRejection(d)
    case Some(error) => Success((s, [error]))
    case None =>
      var warnings := NamespaceWarnings(d.attributes);
      if |d.attributes| == 1 then
        match AddBindingAdapter(s, Newer, d.attributes[0], d.element)
        case Failure(_) => Success((s, warnings + [AdapterAlreadyRegistered(d.element)]))
        case Success(s1) => Success((s1, warnings))
      else
        match AddMultiBindingAdapter(s, d.attributes, d.element)
        case Failure(_) => Failure(AttributeIndexOutOfBounds(d.element))
        case Success(s1) => Success((s1, warnings))
  }

  /** `addBindingAdapters`: the declarations in order, their messages collected. */
  function AddBindingAdapters(s: Store, decls: seq<AdapterDecl>): (r: Result<(Store, seq<Diagnostic>), Abort>)
    requires ValidMultiTable(s.multiValueAdapters)
    ensures r.Failure? <==> exists d :: d in decls && AbortsOn(d)
    ensures r.Success? ==> ValidMultiTable(r.value.0.multiValueAdapters)
    ensures r.Success? ==> r.value.0.(adapterMethods := s.adapterMethods, multiValueAdapters := s.multiValueAdapters) == s
    decreases |decls|
  {
    if |decls| == 0 then Success((s, []))
    else
      var last := decls[|decls| - 1];
      assert forall d :: d in decls <==> d in decls[..|decls| - 1] || d == last;
      match AddBindingAdapters(s, decls[..|decls| - 1])
      case Failure(e) => Failure(e)
      case Success((s1, messages)) =>
        match AddBindingAdapter1(s1, last)
        case Failure(e) => Failure(e)
        case Success((s2, more)) => Success((s2, messages + more))
  }

  /** With structural key equality a registered adapter is never replaced: every adapter entry
      the step adds was absent before and belongs to an accepted single-attribute declaration
      of the round. */
  lemma {:induction false} AdaptersAddedOnlyByDeclarations(s: Store, decls: seq<AdapterDecl>, a: string, k: AccessorKey)
    requires ValidMultiTable(s.multiValueAdapters)
    requires AddBindingAdapters(s, decls).Success?
    requires Get2(AddBindingAdapters(s, decls).value.0.adapterMethods, a, k) != Get2(s.adapterMethods, a, k)
    ensures Get2(s.adapterMethods, a, k).None?
    ensures exists d :: d in decls && WellDeclaredAdapter(d) && |d.attributes| == 1
                        && a == StripNamespace(d.attributes[0]) && k == AdapterKey(d)
                        && Get2(AddBindingAdapters(s, decls).value.0.adapterMethods, a, k) == Some(DescribeMethod(d.element))
    decreases |decls|
  {
    var last := decls[|decls| - 1];
    var prefix := decls[..|decls| - 1];
    assert forall d :: d in prefix ==> d in decls;
    var s1 := AddBindingAdapters(s, prefix).value.0;
    var s2 := AddBindingAdapter1(s1, last).value.0;
    assert AddBindingAdapters(s, decls).value.0 == s2;
    if s2.adapterMethods != s1.adapterMethods && a == StripNamespace(last.attributes[0]) && k == AdapterKey(last) {
      HasAdapterIffPresent(s1, a, k);
      if Get2(s1.adapterMethods, a, k) != Get2(s.adapterMethods, a, k) {
        AdaptersAddedOnlyByDeclarations(s, prefix, a, k);
      }
    } else {
      assert Get2(s2.adapterMethods, a, k) == Get2(s1.adapterMethods, a, k);
      AdaptersAddedOnlyByDeclarations(s, prefix, a, k);
    }
  }

  /** A declaration that breaks a rule is reported and registers nothing. */
  lemma RejectedAdapterSkipped(s: Store, decls: seq<AdapterDecl>, d: AdapterDecl)
    requires ValidMultiTable(s.multiValueAdapters) && !WellDeclaredAdapter(d)
    ensures AddBindingAdapters(s, decls + [d]) ==
      match AddBindingAdapters(s, decls)
      case Failure(e) => Failure(e)
      case Success((s1, messages)) => Success((s1, messages + [AdapterRejection(d).value]))
  {
    AddBindingAdaptersAppend(s, decls, d);
  }

  /** A second adapter for the same attribute, view type and value type is reported, and the
      declarations after it are still processed. */
  lemma DuplicateAdapterReportedAndSkipped(s: Store, decls: seq<AdapterDecl>, d: AdapterDecl)
    requires ValidMultiTable(s.multiValueAdapters)
    requires WellDeclaredAdapter(d) && |d.attributes| == 1
    requires AddBindingAdapters(s, decls).Success?
    requires HasAdapter(AddBindingAdapters(s, decls).value.0, StripNamespace(d.attributes[0]), AdapterKey(d))
    ensures AddBindingAdapters(s, decls + [d]).Success?
    ensures AddBindingAdapters(s, decls + [d]).value
         == (AddBindingAdapters(s, decls).value.0,
             AddBindingAdapters(s, decls).value.1 + NamespaceWarnings(d.attributes) + [AdapterAlreadyRegistered(d.element)])
  {
    var (s1, messages) := AddBindingAdapters(s, decls).value;
    var warnings := NamespaceWarnings(d.attributes);
    AddBindingAdaptersAppend(s, decls, d);
    DuplicateStep(s1, d);
    assert messages + (warnings + [AdapterAlreadyRegistered(d.element)])
        == messages + warnings + [AdapterAlreadyRegistered(d.element)];
  }

  /** One more declaration is processed after the others. */
  lemma AddBindingAdaptersAppend(s: Store, decls: seq<AdapterDecl>, d: AdapterDecl)
    requires ValidMultiTable(s.multiValueAdapters)
    ensures AddBindingAdapters(s, decls + [d]) ==
      match AddBindingAdapters(s, decls)
      case Failure(e) => Failure(e)
      case Success((s1, messages)) =>
        match AddBindingAdapter1(s1, d)
        case Failure(e) => Failure(e)
        case Success((s2, more)) => Success((s2, messages + more))
  {
    var all := decls + [d];
    assert all[..|all| - 1] == decls && all[|all| - 1] == d;
  }

  lemma DuplicateStep(s: Store, d: AdapterDecl)
    requires ValidMultiTable(s.multiValueAdapters)
    requires WellDeclaredAdapter(d) && |d.attributes| == 1
    requires HasAdapter(s, StripNamespace(d.attributes[0]), AdapterKey(d))
    ensures AddBindingAdapter1(s, d) == Success((s, NamespaceWarnings(d.attributes) + [AdapterAlreadyRegistered(d.element)]))
  {
    assert AddBindingAdapter(s, Newer, d.attributes[0], d.element).Failure?;
  }

  // ---------------------------------------------------------------------------------------
  // @BindingMethods

  /** `addRenamed`: for each annotated class and each of its entries in order, a namespace
      warning when due and a renamed setter declared by that class. */
  function AddRenamed(s: Store, decls: seq<RenamedDecl>): (r: (Store, seq<Diagnostic>))
    ensures r.0.(renamedMethods := s.renamedMethods) == s
    decreases |decls|
  {
    if |decls| == 0 then (s, [])
    else
      var (s1, messages) := AddRenamed(s, decls[..|decls| - 1]);
      var (s2, more) := AddRenamedMethods(s1, decls[|decls| - 1].owner, decls[|decls| - 1].methods);
      (s2, messages + more)
  }

  /** The entries of one `@BindingMethods` class, in order; a later entry for the same
      attribute and view class replaces an earlier one. */
  function AddRenamedMethods(s: Store, owner: string, methods: seq<BindingMethod>): (r: (Store, seq<Diagnostic>))
    ensures r.0.(renamedMethods := s.renamedMethods) == s
    ensures |methods| > 0 ==>
      var m := methods[|methods| - 1];
      Get2(r.0.renamedMethods, StripNamespace(m.attribute), m.viewType) == Some(MethodDescription(owner, m.setterName))
    ensures forall w :: w in r.1 <==> exists m :: m in methods && WarnsNamespace(m.attribute) && w == IgnoredNamespace(m.attribute)
    decreases |methods|
  {
    if |methods| == 0 then (s, [])
    else
      var m := methods[|methods| - 1];
      assert forall x :: x in methods <==> x in methods[..|methods| - 1] || x == m;
      var (s1, messages) := AddRenamedMethods(s, owner, methods[..|methods| - 1]);
      (AddRenamedMethod(s1, Newer, m.attribute, m.viewType, m.setterName, owner),
       messages + (if WarnsNamespace(m.attribute) then [IgnoredNamespace(m.attribute)] else []))
  }

  /** Every renamed setter the entries of a class change is declared by that class, for an
      attribute and view class one of its entries names. */
  lemma {:induction false} RenamedAddedOnlyByEntries(s: Store, owner: string, methods: seq<BindingMethod>, a: string, c: string)
    requires Get2(AddRenamedMethods(s, owner, methods).0.renamedMethods, a, c) != Get2(s.renamedMethods, a, c)
    ensures Get2(AddRenamedMethods(s, owner, methods).0.renamedMethods, a, c).Some?
    ensures Get2(AddRenamedMethods(s, owner, methods).0.renamedMethods, a, c).value.declaringType == owner
    ensures exists m :: m in methods && a == StripNamespace(m.attribute) && c == m.viewType
    decreases |methods|
  {
    var m := methods[|methods| - 1];
    var prefix := methods[..|methods| - 1];
    var s1 := AddRenamedMethods(s, owner, prefix).0;
    assert AddRenamedMethods(s, owner, methods).0 == AddRenamedMethod(s1, Newer, m.attribute, m.viewType, m.setterName, owner);
    if a == StripNamespace(m.attribute) && c == m.viewType {
      assert m in methods;
    } else {
      RenamedAddedOnlyByEntries(s, owner, prefix, a, c);
      var x :| x in prefix && a == StripNamespace(x.attribute) && c == x.viewType;
      assert x in methods;
    }
  }

  // ---------------------------------------------------------------------------------------
  // @BindingConversion

  /** The checks of `addConversions` in their order: the error the declaration is skipped with,
      or `None` when it is registered. */
  function ConversionRejection(e: Element): (r: Option<Diagnostic>)
    ensures r.None? <==> IsPublicStaticMethod(e) && |e.parameterTypes| == 1 && e.returnType != VoidType
    ensures !IsPublicStaticMethod(e) ==> r == Some(InvalidConversionElement(e))
    ensures IsPublicStaticMethod(e) && |e.parameterTypes| != 1 ==> r == Some(ConversionParameterCount(e))
  {
    if !IsPublicStaticMethod(e) then Some(InvalidConversionElement(e))
    else if |e.parameterTypes| != 1 then Some(ConversionParameterCount(e))
    else if e.returnType == VoidType then Some(ConversionReturnsVoid(e))
    else None
  }

  /** `addConversions`: accepted converters are noted and registered; a later converter for
      the same pair of types replaces an earlier one. */
  function AddConversions(s: Store, decls: seq<Element>): (r: (Store, seq<Diagnostic>))
    ensures r.0.(conversionMethods := s.conversionMethods) == s
    ensures forall f, t :: Get2(r.0.conversionMethods, f, t) != Get2(s.conversionMethods, f, t) ==>
      exists e :: e in decls && ConversionRejection(e).None? && e.parameterTypes[0] == f && e.returnType == t
        && Get2(r.0.conversionMethods, f, t) == Some(DescribeMethod(e))
    ensures |decls| > 0 && ConversionRejection(decls[|decls| - 1]).None? ==>
      var e := decls[|decls| - 1];
      Get2(r.0.conversionMethods, e.parameterTypes[0], e.returnType) == Some(DescribeMethod(e))
    ensures |r.1| == |decls|
    decreases |decls|
  {
    if |decls| == 0 then (s, [])
    else
      var e := decls[|decls| - 1];
      assert forall x :: x in decls[..|decls| - 1] ==> x in decls;
      var (s1, messages) := AddConversions(s, decls[..|decls| - 1]);
      match ConversionRejection(e)
      case Some(error) => (s1, messages + [error])
      case None => (AddConversionMethod(s1, e), messages + [ConversionAdded(e)])
  }

  // ---------------------------------------------------------------------------------------
  // @Untaggable

  /** `addUntaggable`: each class declares its view types untaggable. */
  function AddUntaggable(s: Store, decls: seq<UntaggableDecl>): (r: Store)
    ensures r.(untaggableTypes := s.untaggableTypes) == s
    ensures forall t :: t in r.untaggableTypes ==>
      (t in s.untaggableTypes && r.untaggableTypes[t] == s.untaggableTypes[t])
      || exists d :: d in decls && t in d.typeNames && r.untaggableTypes[t] == d.owner
    ensures forall d, t :: d in decls && t in d.typeNames ==> t in r.untaggableTypes
    decreases |decls|
  {
    if |decls| == 0 then s
    else
      var d := decls[|decls| - 1];
      assert forall x :: x in decls <==> x in decls[..|decls| - 1] || x == d;
      AddUntaggableTypes(AddUntaggable(s, decls[..|decls| - 1]), d.typeNames, d.owner)
  }

  // ---------------------------------------------------------------------------------------
  // The step

  /** `clearIncrementalClasses`: the classes whose earlier registrations are stale, that is the
      classes enclosing the adapters and converters of the round and the classes annotated
      with `@BindingMethods` or `@Untaggable`. Invalid declarations count too. */
  function RoundClasses(round: Round): (r: set<string>)
    ensures forall d :: d in round.adapters ==> d.element.enclosingClass in r
    ensures forall d :: d in round.renamed ==> d.owner in r
    ensures forall e :: e in round.conversions ==> e.enclosingClass in r
    ensures forall d :: d in round.untaggable ==> d.owner in r
    ensures forall c :: c in r ==>
      (exists d :: d in round.adapters && d.element.enclosingClass == c)
      || (exists d :: d in round.renamed && d.owner == c)
      || (exists e :: e in round.conversions && e.enclosingClass == c)
      || (exists d :: d in round.untaggable && d.owner == c)
  {
    (set d | d in round.adapters :: d.element.enclosingClass)
    + (set d | d in round.renamed :: d.owner)
    + (set e | e in round.conversions :: e.enclosingClass)
    + (set d | d in round.untaggable :: d.owner)
  }

  /** `onHandleStep`: the round's classes are cleared first, then adapters, renamed setters,
      converters and untaggable types are registered in that order. Writing the store out is
      left to the caller. */
  function OnHandleStep(s: Store, round: Round): (r: Result<(Store, seq<Diagnostic>), Abort>)
    requires ValidMultiTable(s.multiValueAdapters)
    ensures r.Failure? <==> exists d :: d in round.adapters && AbortsOn(d)
    ensures r.Success? ==> ValidMultiTable(r.value.0.multiValueAdapters)
  {
    var cleared := ClearAll(s, RoundClasses(round));
    match AddBindingAdapters(cleared, round.adapters)
    case Failure(e) => Failure(e)
    case Success((s1, m1)) =>
      var (s2, m2) := AddRenamed(s1, round.renamed);
      var (s3, m3) := AddConversions(s2, round.conversions);
      var s4 := AddUntaggable(s3, round.untaggable);
      Success((s4, m1 + m2 + m3))
  }

  /** After the step, a converter declared by a class of the round is one the round itself
      declares: earlier registrations of those classes do not survive, and others are kept. */
  lemma StepConversionsAreCurrent(s: Store, round: Round, f: TypeRef, t: TypeRef)
    requires ValidMultiTable(s.multiValueAdapters)
    requires OnHandleStep(s, round).Success?
    requires Get2(OnHandleStep(s, round).value.0.conversionMethods, f, t).Some?
    ensures var m := Get2(OnHandleStep(s, round).value.0.conversionMethods, f, t).value;
      || (m.declaringType !in RoundClasses(round) && Get2(s.conversionMethods, f, t) == Some(m))
      || exists e :: e in round.conversions && ConversionRejection(e).None?
           && e.parameterTypes[0] == f && e.returnType == t && m == DescribeMethod(e)
  {
    var cleared := ClearAll(s, RoundClasses(round));
    var s1 := AddBindingAdapters(cleared, round.adapters).value.0;
    var s2 := AddRenamed(s1, round.renamed).0;
    var s3 := AddConversions(s2, round.conversions).0;
    assert OnHandleStep(s, round).value.0.conversionMethods == s3.conversionMethods;
    assert s2.conversionMethods == cleared.conversionMethods;
  }

  /** After the step, an adapter declared by a class of the round is one the round itself
      declares. */
  lemma StepAdaptersAreCurrent(s: Store, round: Round, a: string, k: AccessorKey)
    requires ValidMultiTable(s.multiValueAdapters)
    requires OnHandleStep(s, round).Success?
    requires Get2(OnHandleStep(s, round).value.0.adapterMethods, a, k).Some?
    ensures var m := Get2(OnHandleStep(s, round).value.0.adapterMethods, a, k).value;
      || (m.declaringType !in RoundClasses(round) && Get2(s.adapterMethods, a, k) == Some(m))
      || exists d :: d in round.adapters && WellDeclaredAdapter(d) && |d.attributes| == 1
           && a == StripNamespace(d.attributes[0]) && k == AdapterKey(d) && m == DescribeMethod(d.element)
  {
    var cleared := ClearAll(s, RoundClasses(round));
    var s1 := AddBindingAdapters(cleared, round.adapters).value.0;
    assert OnHandleStep(s, round).value.0.adapterMethods == s1.adapterMethods;
    if Get2(s1.adapterMethods, a, k) != Get2(cleared.adapterMethods, a, k) {
      AdaptersAddedOnlyByDeclarations(cleared, round.adapters, a, k);
    }
  }
}

=== FILE: multi_attribute.dfy ===
/** Multi-attribute binding adapters at lookup time: building a `MultiAttributeSetter` for the
    attributes present on a view (`createMultiAttributeSetter`), the candidates of the whole
    table (`getMatchingMultiAttributeSetters`) and the call text (`MultiAttributeSetter.toJava`). */
module MultiAttribute {
  import opened Wrappers
  import opened JavaStrings
  import opened Ordering
  import opened TypeModel
  import opened Keys
  import opened MultiTable
  import opened SetterCalls
  import opened Resolver

  /** A multi-attribute adapter chosen for a view: its key (whose attributes are the setter's
      attributes), the adapter, and per key position the converter and the cast type to apply to
      that value. */
  datatype MultiAttributeSetter = MultiAttributeSetter(
    key: MultiValueAdapterKey,
    adapter: MethodDescription,
    converters: seq<Option<MethodDescription>>,
    casts: seq<Option<TypeRef>>)

  /** The constructor's `checkArgument`: one converter slot and one cast slot per attribute. */
  predicate WellFormedSetter(s: MultiAttributeSetter) {
    WellFormedKey(s.key) && |s.converters| == |s.key.attributes| && |s.casts| == |s.key.attributes|
  }

  // ---------------------------------------------------------------------------------------
  // createMultiAttributeSetter

  /** How one value reaches its parameter: directly (assignment, boxing or widening), through a
      converter, by a cast from `Object`, or not at all. */
  datatype ArgFix = Direct | Converted(converter: MethodDescription) | Cast | Mismatch

  function FixArgument(h: Host, conv: ConversionTable, attributeType: TypeRef, parameterType: TypeRef): ArgFix {
    if h.assignableFrom(parameterType, attributeType)
       || IsBoxingConversion(h, parameterType, attributeType)
       || IsImplicitConversion(h, Some(attributeType), Some(parameterType))
    then Direct
    else match GetConversionMethod(h, conv, Some(attributeType), Some(parameterType))
      case Some(m) => Converted(m)
      case None => if h.isObject(attributeType) then Cast else Mismatch
  }

  function ConverterOf(f: ArgFix): Option<MethodDescription> {
    if f.Converted? then Some(f.converter) else None
  }

  function CastOf(f: ArgFix, parameterType: TypeRef): Option<TypeRef> {
    if f.Cast? then Some(parameterType) else None
  }

  /** The state of the loop over the requested attributes. */
  datatype Draft = Draft(matched: nat, converters: seq<Option<MethodDescription>>, casts: seq<Option<TypeRef>>)

  /** The draft after a matched value with fix `f` for key position `idx` of parameter type `p`. */
  function Apply(d: Draft, idx: nat, f: ArgFix, p: TypeRef): Draft
    requires idx < |d.converters| && idx < |d.casts|
  {
    match f
    case Direct => d.(matched := d.matched + 1)
    case Converted(m) => Draft(d.matched + 1, d.converters[idx := Some(m)], d.casts)
    case Cast => Draft(d.matched + 1, d.converters[idx := None], d.casts[idx := Some(p)])
    case Mismatch => d
  }

  /** The number of positions of `requested` that name an attribute of `attributes`. */
  function Hits(requested: seq<string>, attributes: seq<string>): nat {
    if |requested| == 0 then 0
    else (if requested[0] in attributes then 1 else 0) + Hits(requested[1..], attributes)
  }

  /** The value at position `k` names an attribute of the key and cannot reach its parameter. */
  predicate MismatchAt(h: Host, conv: ConversionTable, key: MultiValueAdapterKey, requested: seq<string>,
                       values: seq<TypeRef>, k: nat)
    requires WellFormedKey(key) && |values| == |requested| && k < |requested|
  {
    requested[k] in key.attributes && FixArgument(h, conv, values[k], ParamOf(key, requested[k])).Mismatch?
  }

  /** The loop of `createMultiAttributeSetter` from position `i` on: a requested attribute the key
      knows counts as matched and records its converter, or its cast (clearing the converter);
      a mismatch ends the search with `null`. */
  function Scan(h: Host, conv: ConversionTable, key: MultiValueAdapterKey, requested: seq<string>,
                values: seq<TypeRef>, i: nat, d: Draft): (r: Option<Draft>)
    requires WellFormedKey(key) && |values| == |requested| && i <= |requested|
    requires |d.converters| == |key.attributes| && |d.casts| == |key.attributes|
    ensures r.None? <==> exists k :: i <= k < |requested| && MismatchAt(h, conv, key, requested, values, k)
    ensures r.Some? ==> |r.value.converters| == |key.attributes| && |r.value.casts| == |key.attributes|
    ensures r.Some? ==> r.value.matched == d.matched + Hits(requested[i..], key.attributes)
    decreases |requested| - i
  {
    if i == |requested| then Some(d)
    else
      assert requested[i..][1..] == requested[i + 1..];
      var a := requested[i];
      if a !in key.attributes then Scan(h, conv, key, requested, values, i + 1, d)
      else
        var idx := AttributeIndices(key.attributes)[a];
        var parameterType := key.parameterTypes[idx];
        var f := FixArgument(h, conv, values[i], parameterType);
        if f.Mismatch? then
          assert MismatchAt(h, conv, key, requested, values, i);
          None
        else Scan(h, conv, key, requested, values, i + 1, Apply(d, idx, f, parameterType))
  }

  /** `createMultiAttributeSetter(method, allAttributes, attributeValues, adapter)`: the setter
      exists when no value is mismatched and as many requested attributes matched as the key
      has. `values[i]` is the type of the value of `requested[i]`. */
  function CreateMultiAttributeSetter(h: Host, conv: ConversionTable, adapter: MethodDescription,
                                      requested: seq<string>, values: seq<TypeRef>,
                                      key: MultiValueAdapterKey): (r: Option<MultiAttributeSetter>)
    requires WellFormedKey(key) && |values| == |requested|
    ensures r.Some? ==> WellFormedSetter(r.value) && r.value.key == key && r.value.adapter == adapter
    ensures r.Some? <==> (&& (forall k :: 0 <= k < |requested| ==> !MismatchAt(h, conv, key, requested, values, k))
                          && Hits(requested, key.attributes) == |key.attributes|)
  {
    var n := |key.attributes|;
    assert requested[0..] == requested;
    match Scan(h, conv, key, requested, values, 0, Draft(0, seq(n, _ => None), seq(n, _ => None)))
    case None => None
    case Some(d) =>
      if d.matched != n then None
      else Some(MultiAttributeSetter(key, adapter, d.converters, d.casts))
  }

  // ---------------------------------------------------------------------------------------
  // When a setter is created

  /** A sequence has at most as many distinct elements as positions, and as many only when it
      repeats nothing. */
  lemma {:induction false} ElementsCardinality<T>(s: seq<T>)
    ensures |set x | x in s| <= |s|
    ensures |set x | x in s| == |s| ==> Distinct(s)
  {
    if |s| > 0 {
      var m := |s| - 1;
      ElementsCardinality(s[..m]);
      assert (set x | x in s) == (set x | x in s[..m]) + {s[m]};
      if s[m] !in (set x | x in s[..m]) && |set x | x in s| == |s| {
        forall i, j | 0 <= i < j < |s| ensures s[i] != s[j] {
          if j == m {
            assert s[i] in s[..m];
          } else {
            assert s[..m][i] != s[..m][j];
          }
        }
      }
    }
  }

  lemma {:induction false} SubsetCardinality<T>(x: set<T>, y: set<T>)
    requires x <= y
    ensures |x| <= |y|
  {
    if x != {} {
      var e :| e in x;
      SubsetCardinality(x - {e}, y - {e});
    }
  }

  /** Dropping the first element of a repetition-free sequence leaves one that repeats nothing and
      no longer holds that element. */
  lemma DistinctTail(s: seq<string>)
    requires Distinct(s) && |s| > 0
    ensures Distinct(s[1..]) && s[0] !in s[1..]
  {
    var rest := s[1..];
    forall i, j | 0 <= i < j < |rest| ensures rest[i] != rest[j] {
      assert rest[i] == s[i + 1] && rest[j] == s[j + 1];
    }
    forall i | 0 <= i < |rest| ensures rest[i] != s[0] {
      assert rest[i] == s[i + 1];
    }
  }

  lemma ElementsOfCons(s: seq<string>)
    requires |s| > 0
    ensures (set a | a in s) == (set a | a in s[1..]) + {s[0]}
  {
    assert forall a :: a in s <==> a == s[0] || a in s[1..];
  }

  /** Adding an element outside `r` to `r` adds one to the common part with `a` exactly when `a`
      holds it. */
  lemma CommonPartGrows(r: set<string>, x: string, a: set<string>)
    requires x !in r
    ensures |(r + {x}) * a| == |r * a| + (if x in a then 1 else 0)
  {
    if x in a {
      assert (r + {x}) * a == r * a + {x};
    } else {
      assert (r + {x}) * a == r * a;
    }
  }

  /** For requested attributes without repetition, the hits are the attributes both lists name. */
  lemma {:induction false} HitsOfDistinct(requested: seq<string>, attributes: seq<string>)
    requires Distinct(requested)
    ensures Hits(requested, attributes) == |(set a | a in requested) * (set a | a in attributes)|
  {
    if |requested| > 0 {
      var rest := requested[1..];
      DistinctTail(requested);
      HitsOfDistinct(rest, attributes);
      ElementsOfCons(requested);
      var R', A := set a | a in rest, set a | a in attributes;
      CommonPartGrows(R', requested[0], A);
    }
  }

  /** With requested attributes that repeat nothing (the attributes of one XML element), a setter
      is created exactly when every attribute of the key is requested, the key repeats no
      attribute, and no requested value misses its parameter. */
  lemma CreateMultiAttributeSetterIff(h: Host, conv: ConversionTable, adapter: MethodDescription,
                                      requested: seq<string>, values: seq<TypeRef>, key: MultiValueAdapterKey)
    requires WellFormedKey(key) && |values| == |requested| && Distinct(requested)
    ensures CreateMultiAttributeSetter(h, conv, adapter, requested, values, key).Some? <==>
            && (forall a :: a in key.attributes ==> a in requested)
            && Distinct(key.attributes)
            && (forall k :: 0 <= k < |requested| ==> !MismatchAt(h, conv, key, requested, values, k))
  {
    var R := set a | a in requested;
    var A := set a | a in key.attributes;
    var n := |key.attributes|;
    HitsOfDistinct(requested, key.attributes);
    ElementsCardinality(key.attributes);
    if (forall a :: a in key.attributes ==> a in requested) && Distinct(key.attributes) {
      assert R * A == A;
      DistinctCardinality(key.attributes);
    }
    if Hits(requested, key.attributes) == n {
      assert R * A <= A;
      if R * A != A {
        var x :| x in A && x !in R * A;
        SubsetCardinality(R * A, A - {x});
      }
      assert R * A == A;
      forall a | a in key.attributes ensures a in requested {
        assert a in A;
      }
    }
  }

  /** The fix each requested value needs, `Direct` for attributes the key does not name. */
  function FixesOf(h: Host, conv: ConversionTable, key: MultiValueAdapterKey, requested: seq<string>,
                   values: seq<TypeRef>): (r: seq<ArgFix>)
    requires WellFormedKey(key) && |values| == |requested|
    ensures |r| == |requested|
    ensures forall k :: 0 <= k < |requested| && requested[k] in key.attributes
              ==> r[k] == FixArgument(h, conv, values[k], ParamOf(key, requested[k]))
  {
    seq(|requested|, k requires 0 <= k < |requested| =>
      if requested[k] in key.attributes then FixArgument(h, conv, values[k], ParamOf(key, requested[k])) else Direct)
  }

  /** The draft holds, at the key position of each requested attribute before `i`, what that
      attribute's fix records. */
  ghost predicate Agrees(key: MultiValueAdapterKey, requested: seq<string>, fixes: seq<ArgFix>, i: nat, d: Draft)
    requires WellFormedKey(key) && |fixes| == |requested| && i <= |requested|
  {
    var indices := AttributeIndices(key.attributes);
    && |d.converters| == |key.attributes| && |d.casts| == |key.attributes|
    && forall k :: 0 <= k < i && requested[k] in key.attributes ==>
         var j := indices[requested[k]];
         d.converters[j] == ConverterOf(fixes[k]) && d.casts[j] == CastOf(fixes[k], key.parameterTypes[j])
  }

  /** The draft is empty at every key position no requested attribute before `i` reached. */
  ghost predicate Untouched(key: MultiValueAdapterKey, requested: seq<string>, i: nat, d: Draft)
    requires i <= |requested|
  {
    var indices := AttributeIndices(key.attributes);
    && |d.converters| == |key.attributes| && |d.casts| == |key.attributes|
    && forall j :: 0 <= j < |key.attributes| && (indices[key.attributes[j]] != j || key.attributes[j] !in requested[..i])
         ==> d.converters[j].None? && d.casts[j].None?
  }

  ghost predicate Recorded(key: MultiValueAdapterKey, requested: seq<string>, fixes: seq<ArgFix>, i: nat, d: Draft)
    requires WellFormedKey(key) && |fixes| == |requested| && i <= |requested|
  {
    Agrees(key, requested, fixes, i, d) && Untouched(key, requested, i, d)
  }

  /** `Apply` writes position `idx` only. */
  lemma ApplyEffect(d: Draft, idx: nat, f: ArgFix, p: TypeRef)
    requires idx < |d.converters| && idx < |d.casts|
    requires d.converters[idx].None? && d.casts[idx].None? && !f.Mismatch?
    ensures var next := Apply(d, idx, f, p);
      && |next.converters| == |d.converters| && |next.casts| == |d.casts|
      && next.converters[idx] == ConverterOf(f) && next.casts[idx] == CastOf(f, p)
      && (forall j :: 0 <= j < |d.converters| && j != idx ==> next.converters[j] == d.converters[j])
      && (forall j :: 0 <= j < |d.casts| && j != idx ==> next.casts[j] == d.casts[j])
  {
  }

  /** One matched value keeps the draft recorded. */
  lemma RecordStep(key: MultiValueAdapterKey, requested: seq<string>, fixes: seq<ArgFix>, i: nat, d: Draft)
    requires WellFormedKey(key) && |fixes| == |requested| && i < |requested| && Distinct(requested)
    requires requested[i] in key.attributes && !fixes[i].Mismatch?
    requires Recorded(key, requested, fixes, i, d)
    ensures var idx := AttributeIndices(key.attributes)[requested[i]];
      Recorded(key, requested, fixes, i + 1, Apply(d, idx, fixes[i], key.parameterTypes[idx]))
  {
    var a := requested[i];
    var indices := AttributeIndices(key.attributes);
    var idx := indices[a];
    var p := key.parameterTypes[idx];
    var next := Apply(d, idx, fixes[i], p);
    assert requested[..i + 1] == requested[..i] + [a];
    assert a !in requested[..i];
    assert key.attributes[idx] == a && indices[key.attributes[idx]] == idx;
    ApplyEffect(d, idx, fixes[i], p);
    assert Agrees(key, requested, fixes, i + 1, next) by {
      forall k | 0 <= k < i + 1 && requested[k] in key.attributes
        ensures var j := indices[requested[k]];
                next.converters[j] == ConverterOf(fixes[k]) && next.casts[j] == CastOf(fixes[k], key.parameterTypes[j])
      {
        if k < i {
          assert key.attributes[indices[requested[k]]] == requested[k] != a;
        }
      }
    }
    assert Untouched(key, requested, i + 1, next) by {
      forall j | 0 <= j < |key.attributes| && (indices[key.attributes[j]] != j || key.attributes[j] !in requested[..i + 1])
        ensures next.converters[j].None? && next.casts[j].None?
      {
        assert j != idx;
      }
    }
  }

  lemma {:induction false} ScanRecords(h: Host, conv: ConversionTable, key: MultiValueAdapterKey, requested: seq<string>,
                                       values: seq<TypeRef>, i: nat, d: Draft)
    requires WellFormedKey(key) && |values| == |requested| && i <= |requested| && Distinct(requested)
    requires Recorded(key, requested, FixesOf(h, conv, key, requested, values), i, d)
    ensures var r := Scan(h, conv, key, requested, values, i, d);
      r.Some? ==> Recorded(key, requested, FixesOf(h, conv, key, requested, values), |requested|, r.value)
    decreases |requested| - i
  {
    var fixes := FixesOf(h, conv, key, requested, values);
    if i < |requested| {
      var a := requested[i];
      if a !in key.attributes {
        assert requested[..i + 1] == requested[..i] + [a];
        ScanRecords(h, conv, key, requested, values, i + 1, d);
      } else {
        var idx := AttributeIndices(key.attributes)[a];
        var p := key.parameterTypes[idx];
        assert fixes[i] == FixArgument(h, conv, values[i], p);
        if !fixes[i].Mismatch? {
          RecordStep(key, requested, fixes, i, d);
          ScanRecords(h, conv, key, requested, values, i + 1, Apply(d, idx, fixes[i], p));
        }
      }
    }
  }

  /** With requested attributes that repeat nothing, a created setter holds, at the key position
      of each requested attribute, the converter or the cast its value needs, and nothing at the
      positions no value reached. */
  lemma CreateMultiAttributeSetterContents(h: Host, conv: ConversionTable, adapter: MethodDescription,
                                           requested: seq<string>, values: seq<TypeRef>, key: MultiValueAdapterKey)
    requires WellFormedKey(key) && |values| == |requested| && Distinct(requested)
    ensures var r := CreateMultiAttributeSetter(h, conv, adapter, requested, values, key);
      r.Some? ==> forall k :: 0 <= k < |requested| && requested[k] in key.attributes ==>
        var j := AttributeIndices(key.attributes)[requested[k]];
        var f := FixArgument(h, conv, values[k], key.parameterTypes[j]);
        r.value.converters[j] == ConverterOf(f) && r.value.casts[j] == CastOf(f, key.parameterTypes[j])
  {
    var n := |key.attributes|;
    var d0 := Draft(0, seq(n, _ => None), seq(n, _ => None));
    var fixes := FixesOf(h, conv, key, requested, values);
    assert Recorded(key, requested, fixes, 0, d0);
    ScanRecords(h, conv, key, requested, values, 0, d0);
    var scan := Scan(h, conv, key, requested, values, 0, d0);
    var r := CreateMultiAttributeSetter(h, conv, adapter, requested, values, key);
    assert requested[0..] == requested;
    if r.Some? {
      var d := scan.value;
      assert r.value.converters == d.converters && r.value.casts == d.casts;
      assert Agrees(key, requested, fixes, |requested|, d);
      var indices := AttributeIndices(key.attributes);
      forall k | 0 <= k < |requested| && requested[k] in key.attributes
        ensures var j := indices[requested[k]];
          var f := FixArgument(h, conv, values[k], key.parameterTypes[j]);
          r.value.converters[j] == ConverterOf(f) && r.value.casts[j] == CastOf(f, key.parameterTypes[j])
      {
        assert fixes[k] == FixArgument(h, conv, values[k], ParamOf(key, requested[k]));
      }
    }
  }

  // ---------------------------------------------------------------------------------------
  // getMatchingMultiAttributeSetters

  /** Entry `e` is considered for the requested attributes: it needs no more attributes than
      requested and its view type takes the view. */
  predicate Considered(h: Host, e: MultiEntry, requested: seq<string>, viewType: TypeRef) {
    |e.key.attributes| <= |requested| && h.assignableFrom(e.key.viewType, viewType)
  }

  /** The setters the table's entries give for the requested attributes, in table order. */
  function GetMatching(h: Host, conv: ConversionTable, table: seq<MultiEntry>, requested: seq<string>,
                       viewType: TypeRef, values: seq<TypeRef>): (r: seq<MultiAttributeSetter>)
    requires WellFormedKeys(KeysOf(table)) && |values| == |requested|
    ensures forall s :: s in r ==> WellFormedSetter(s)
    ensures forall s :: s in r ==> exists e :: e in table && Considered(h, e, requested, viewType)
                                       && CreateMultiAttributeSetter(h, conv, e.adapter, requested, values, e.key) == Some(s)
    ensures forall e :: e in table && Considered(h, e, requested, viewType)
              && CreateMultiAttributeSetter(h, conv, e.adapter, requested, values, e.key).Some?
              ==> CreateMultiAttributeSetter(h, conv, e.adapter, requested, values, e.key).value in r
    decreases |table|
  {
    if |table| == 0 then []
    else
      var e := table[0];
      assert KeysOf(table)[0] == e.key;
      assert KeysOf(table[1..]) == KeysOf(table)[1..];
      var rest := GetMatching(h, conv, table[1..], requested, viewType, values);
      assert forall x :: x in table <==> x == e || x in table[1..];
      if !Considered(h, e, requested, viewType) then rest
      else match CreateMultiAttributeSetter(h, conv, e.adapter, requested, values, e.key)
        case None => rest
        case Some(s) => [s] + rest
  }

  // ---------------------------------------------------------------------------------------
  // toJava

  /** One value, after the comma: through the converter, or behind the cast, or as is. */
  function ArgumentText(converter: Option<MethodDescription>, cast: Option<TypeRef>, value: string): string {
    if converter.Some? then StaticCall(converter.value, value)
    else (if cast.Some? then "(" + cast.value + ")" else "") + value
  }

  /** The text of each value, rendered with the converter and the cast at its position. */
  function ArgumentTexts(s: MultiAttributeSetter, values: seq<string>): (r: seq<string>)
    requires WellFormedSetter(s) && |values| == |s.key.attributes|
    ensures |r| == |values|
    ensures forall k :: 0 <= k < |values| ==> r[k] == ArgumentText(s.converters[k], s.casts[k], values[k])
  {
    seq(|values|, k requires 0 <= k < |values| => ArgumentText(s.converters[k], s.casts[k], values[k]))
  }

  /** The texts, each preceded by a comma. */
  function CommaJoin(texts: seq<string>): string {
    if |texts| == 0 then "" else CommaJoin(texts[..|texts| - 1]) + "," + texts[|texts| - 1]
  }

  /** `toJava(viewExpression, valueExpressions)`: exactly one value per attribute
      (`checkArgument`), rendered as the adapter's static call on the view and the values, with
      no space after the commas. */
  function ToJava(s: MultiAttributeSetter, viewExpression: string, values: seq<string>): (r: Result<string, RenderError>)
    requires WellFormedSetter(s)
    ensures r.Failure? <==> |values| != |s.key.attributes|
    ensures r.Failure? ==> r.error == WrongValueCount(|s.key.attributes|, |values|)
  {
    if |values| != |s.key.attributes| then Failure(WrongValueCount(|s.key.attributes|, |values|))
    else Success(StaticCall(s.adapter, viewExpression + CommaJoin(ArgumentTexts(s, values))))
  }

  /** The loop of `toJava` over the rendered values. */
  method JoinArguments(texts: seq<string>) returns (text: string)
    ensures text == CommaJoin(texts)
  {
    text := "";
    var i := 0;
    while i < |texts|
      invariant 0 <= i <= |texts|
      invariant text == CommaJoin(texts[..i])
    {
      assert texts[..i + 1][..i] == texts[..i];
      text := text + "," + texts[i];
      i := i + 1;
    }
    assert texts[..i] == texts;
  }

  /** The `StringBuilder` code of `toJava`: the adapter's name, the view, the values, the closing
      parenthesis. */
  method RenderMultiCall(s: MultiAttributeSetter, viewExpression: string, values: seq<string>) returns (r: Result<string, RenderError>)
    requires WellFormedSetter(s)
    ensures r == ToJava(s, viewExpression, values)
  {
    if |values| != |s.key.attributes| {
      return Failure(WrongValueCount(|s.key.attributes|, |values|));
    }
    var arguments := JoinArguments(ArgumentTexts(s, values));
    var head := s.adapter.declaringType + "." + s.adapter.methodName + "(";
    assert head + (viewExpression + arguments) + ")" == head + viewExpression + arguments + ")";
    return Success(head + viewExpression + arguments + ")");
  }

  /** The comma-prefixed values, in order. */
  function CommaParts(values: seq<string>): (r: seq<string>)
    ensures |r| == |values|
    ensures forall k :: 0 <= k < |values| ==> r[k] == "," + values[k]
  {
    seq(|values|, k requires 0 <= k < |values| => "," + values[k])
  }

  /** The comma-joined texts are the concatenation of the texts, each after a comma. */
  lemma {:induction false} CommaJoinIsConcat(texts: seq<string>)
    ensures CommaJoin(texts) == Concat(CommaParts(texts))
  {
    if |texts| > 0 {
      var init, last := texts[..|texts| - 1], texts[|texts| - 1];
      CommaJoinIsConcat(init);
      assert CommaParts(texts) == CommaParts(init) + ["," + last];
      ConcatAppend(CommaParts(init), "," + last);
    }
  }

  /** Without converters and casts the values are passed as they are, each after a comma. */
  lemma PlainArguments(s: MultiAttributeSetter, values: seq<string>)
    requires WellFormedSetter(s) && |values| == |s.key.attributes|
    requires forall j :: 0 <= j < |values| ==> s.converters[j].None? && s.casts[j].None?
    ensures CommaJoin(ArgumentTexts(s, values)) == Concat(CommaParts(values))
  {
    var texts := ArgumentTexts(s, values);
    forall k | 0 <= k < |values| ensures texts[k] == values[k] {
      var empty: string := "";
      assert empty + values[k] == values[k];
    }
    assert texts == values;
    CommaJoinIsConcat(values);
  }
}

=== FILE: multi_table.dfy ===
/** The newer store's `multiValueAdapters`: a `HashMap` whose keys use the hand-written
    `MultiValueAdapterKey.equals`, kept as its entries in insertion order. */
module MultiTable {
  import opened Wrappers
  import opened Keys

  /** One entry of the table. */
  datatype MultiEntry = MultiEntry(key: MultiValueAdapterKey, adapter: MethodDescription)

  function KeysOf(entries: seq<MultiEntry>): (r: seq<MultiValueAdapterKey>)
    ensures |r| == |entries|
    ensures forall i :: 0 <= i < |r| ==> r[i] == entries[i].key
  {
    seq(|entries|, i requires 0 <= i < |entries| => entries[i].key)
  }

  /** Every key is well formed and names at least one attribute. */
  ghost predicate WellFormedKeys(keys: seq<MultiValueAdapterKey>) {
    forall i :: 0 <= i < |keys| ==> WellFormedKey(keys[i]) && |keys[i].attributes| >= 1
  }

  /** `key` equals none of `keys`. */
  ghost predicate EqualsNone(key: MultiValueAdapterKey, keys: seq<MultiValueAdapterKey>)
    requires WellFormedKey(key) && WellFormedKeys(keys)
  {
    forall i :: 0 <= i < |keys| ==> !MultiKeyEquals(key, keys[i])
  }

  /** Well-formed keys, none equal to an earlier one. */
  ghost predicate ValidKeys(keys: seq<MultiValueAdapterKey>) {
    && WellFormedKeys(keys)
    && forall j :: 0 <= j < |keys| ==> EqualsNone(keys[j], keys[..j])
  }

  ghost predicate ValidMultiTable(entries: seq<MultiEntry>) {
    ValidKeys(KeysOf(entries))
  }

  lemma ValidKeysAppend(keys: seq<MultiValueAdapterKey>, key: MultiValueAdapterKey)
    requires ValidKeys(keys) && WellFormedKey(key) && |key.attributes| >= 1 && EqualsNone(key, keys)
    ensures ValidKeys(keys + [key])
  {
    var r := keys + [key];
    assert WellFormedKeys(r);
    forall j | 0 <= j < |r| ensures EqualsNone(r[j], r[..j]) {
      if j < |keys| {
        assert r[..j] == keys[..j];
      } else {
        assert r[..j] == keys;
      }
    }
  }

  /** The position `HashMap.get(key)` finds: the first entry whose key `key` equals. */
  function FindMulti(entries: seq<MultiEntry>, key: MultiValueAdapterKey): (r: Option<nat>)
    requires WellFormedKey(key) && WellFormedKeys(KeysOf(entries))
    ensures r.Some? ==> r.value < |entries| && MultiKeyEquals(key, entries[r.value].key)
    ensures r.None? ==> EqualsNone(key, KeysOf(entries))
  {
    if |entries| == 0 then None
    else if MultiKeyEquals(key, entries[0].key) then Some(0)
    else
      assert KeysOf(entries[1..]) == KeysOf(entries)[1..];
      match FindMulti(entries[1..], key)
      case None => None
      case Some(i) => Some(i + 1)
  }

  /** `multiValueAdapters.put(key, adapter)`: an entry with an equal key keeps its key and takes
      the new adapter; otherwise the pair is appended. */
  function PutMulti(entries: seq<MultiEntry>, key: MultiValueAdapterKey, adapter: MethodDescription): (r: seq<MultiEntry>)
    requires WellFormedKey(key) && |key.attributes| >= 1
    requires ValidMultiTable(entries)
    ensures ValidMultiTable(r)
    ensures match FindMulti(entries, key)
      case Some(i) => r == entries[i := MultiEntry(entries[i].key, adapter)]
      case None => r == entries + [MultiEntry(key, adapter)]
  {
    match FindMulti(entries, key)
    case Some(i) =>
      var r := entries[i := MultiEntry(entries[i].key, adapter)];
      assert KeysOf(r) == KeysOf(entries);
      r
    case None =>
      var r := entries + [MultiEntry(key, adapter)];
      assert KeysOf(r) == KeysOf(entries) + [key];
      ValidKeysAppend(KeysOf(entries), key);
      r
  }

  /** `multiValueAdapters.get(key)`. */
  function GetMulti(entries: seq<MultiEntry>, key: MultiValueAdapterKey): Option<MethodDescription>
    requires WellFormedKey(key) && WellFormedKeys(KeysOf(entries))
  {
    match FindMulti(entries, key)
    case Some(i) => Some(entries[i].adapter)
    case None => None
  }

  lemma {:induction false} FindMultiSameKeys(a: seq<MultiEntry>, b: seq<MultiEntry>, key: MultiValueAdapterKey)
    requires WellFormedKey(key) && WellFormedKeys(KeysOf(a))
    requires KeysOf(a) == KeysOf(b)
    ensures FindMulti(a, key) == FindMulti(b, key)
  {
    if |a| > 0 {
      assert a[0].key == KeysOf(a)[0] == b[0].key;
      assert KeysOf(a[1..]) == KeysOf(a)[1..] == KeysOf(b)[1..] == KeysOf(b[1..]);
      FindMultiSameKeys(a[1..], b[1..], key);
    }
  }

  lemma {:induction false} FindMultiAfterAppend(a: seq<MultiEntry>, e: MultiEntry, key: MultiValueAdapterKey)
    requires WellFormedKey(key) && WellFormedKeys(KeysOf(a)) && WellFormedKey(e.key) && |e.key.attributes| >= 1
    requires EqualsNone(key, KeysOf(a)) && MultiKeyEquals(key, e.key)
    ensures WellFormedKeys(KeysOf(a + [e]))
    ensures FindMulti(a + [e], key) == Some(|a|)
  {
    assert KeysOf(a + [e]) == KeysOf(a) + [e.key];
    if |a| > 0 {
      assert !MultiKeyEquals(key, KeysOf(a)[0]);
      assert (a + [e])[1..] == a[1..] + [e];
      assert KeysOf(a[1..]) == KeysOf(a)[1..];
      FindMultiAfterAppend(a[1..], e, key);
    } else {
      assert a + [e] == [e];
    }
  }

  /** After `put`, `get` with the same key returns the new adapter, and a later `put` with the
      same key replaces an earlier one. */
  lemma PutMultiLastWins(entries: seq<MultiEntry>, key: MultiValueAdapterKey, m1: MethodDescription, m2: MethodDescription)
    requires WellFormedKey(key) && |key.attributes| >= 1 && Distinct(key.attributes)
    requires ValidMultiTable(entries)
    ensures GetMulti(PutMulti(entries, key, m1), key) == Some(m1)
    ensures PutMulti(PutMulti(entries, key, m1), key, m2) == PutMulti(entries, key, m2)
  {
    MultiKeyEqualsIsEquivalence(key, key, key);
    var e1 := PutMulti(entries, key, m1);
    match FindMulti(entries, key)
    case Some(i) =>
      assert KeysOf(e1) == KeysOf(entries);
      FindMultiSameKeys(entries, e1, key);
    case None =>
      FindMultiAfterAppend(entries, MultiEntry(key, m1), key);
  }

  /** `putAll(second)`: each of `second`'s entries `put` in turn, so a later source's adapter
      replaces an equal key's. */
  function PutAllMulti(entries: seq<MultiEntry>, second: seq<MultiEntry>): (r: seq<MultiEntry>)
    requires ValidMultiTable(entries) && WellFormedKeys(KeysOf(second))
    ensures ValidMultiTable(r)
    ensures |entries| <= |r| <= |entries| + |second|
    decreases |second|
  {
    if |second| == 0 then entries
    else
      assert KeysOf(second)[0] == second[0].key;
      assert KeysOf(second[1..]) == KeysOf(second)[1..];
      PutAllMulti(PutMulti(entries, second[0].key, second[0].adapter), second[1..])
  }

  /** Every key names each of its attributes once. On such keys the key equality is an
      equivalence. */
  ghost predicate DistinctKeys(keys: seq<MultiValueAdapterKey>) {
    forall i :: 0 <= i < |keys| ==> Distinct(keys[i].attributes)
  }

  /** `get` finds the first entry whose key `key` equals: no earlier key is equal. */
  lemma {:induction false} FindMultiFirst(entries: seq<MultiEntry>, key: MultiValueAdapterKey)
    requires WellFormedKey(key) && WellFormedKeys(KeysOf(entries))
    ensures FindMulti(entries, key).Some? ==>
      forall j :: 0 <= j < FindMulti(entries, key).value ==> !MultiKeyEquals(key, entries[j].key)
  {
    if |entries| > 0 && !MultiKeyEquals(key, entries[0].key) {
      var tail := entries[1..];
      assert KeysOf(tail) == KeysOf(entries)[1..];
      FindMultiFirst(tail, key);
      if FindMulti(tail, key).Some? {
        var i := FindMulti(tail, key).value;
        assert FindMulti(entries, key) == Some(i + 1);
        forall j | 0 < j <= i ensures !MultiKeyEquals(key, entries[j].key) {
          assert entries[j] == tail[j - 1];
        }
      }
    }
  }

  /** Conversely, the first entry whose key `key` equals is the one `get` finds. */
  lemma {:induction false} FindMultiIsFirst(entries: seq<MultiEntry>, key: MultiValueAdapterKey, i: nat)
    requires WellFormedKey(key) && WellFormedKeys(KeysOf(entries))
    requires i < |entries| && MultiKeyEquals(key, entries[i].key)
    requires forall j :: 0 <= j < i ==> !MultiKeyEquals(key, entries[j].key)
    ensures FindMulti(entries, key) == Some(i)
  {
    if i > 0 {
      var tail := entries[1..];
      assert KeysOf(tail) == KeysOf(entries)[1..];
      assert !MultiKeyEquals(key, entries[0].key);
      forall j | 0 <= j < i - 1 ensures !MultiKeyEquals(key, tail[j].key) {
        assert tail[j] == entries[j + 1];
      }
      assert tail[i - 1] == entries[i];
      FindMultiIsFirst(tail, key, i - 1);
    }
  }

  lemma WellFormedAfterAppend(entries: seq<MultiEntry>, e: MultiEntry)
    requires WellFormedKeys(KeysOf(entries)) && WellFormedKey(e.key) && |e.key.attributes| >= 1
    ensures KeysOf(entries + [e]) == KeysOf(entries) + [e.key]
    ensures WellFormedKeys(KeysOf(entries + [e]))
  {
    assert KeysOf(entries + [e]) == KeysOf(entries) + [e.key];
  }

  lemma AppendKeepsFound(entries: seq<MultiEntry>, e: MultiEntry, key: MultiValueAdapterKey)
    requires WellFormedKey(key) && WellFormedKeys(KeysOf(entries)) && WellFormedKeys(KeysOf(entries + [e]))
    requires FindMulti(entries, key).Some?
    ensures FindMulti(entries + [e], key) == FindMulti(entries, key)
  {
    var longer := entries + [e];
    var i := FindMulti(entries, key).value;
    FindMultiFirst(entries, key);
    assert longer[i] == entries[i];
    assert forall j :: 0 <= j < i ==> longer[j] == entries[j];
    FindMultiIsFirst(longer, key, i);
  }

  lemma AppendKeepsMissing(entries: seq<MultiEntry>, e: MultiEntry, key: MultiValueAdapterKey)
    requires WellFormedKey(key) && WellFormedKeys(KeysOf(entries))
    requires KeysOf(entries + [e]) == KeysOf(entries) + [e.key] && WellFormedKeys(KeysOf(entries + [e]))
    requires WellFormedKey(e.key) && FindMulti(entries, key).None? && !MultiKeyEquals(key, e.key)
    ensures FindMulti(entries + [e], key).None?
  {
    var longer := entries + [e];
    var ks := KeysOf(longer);
    forall j | 0 <= j < |longer| ensures !MultiKeyEquals(key, longer[j].key) {
      if j < |entries| {
        assert KeysOf(entries)[j] == entries[j].key == longer[j].key;
      }
    }
  }

  /** Appending an entry whose key `key` does not equal leaves `get(key)` where it was. */
  lemma FindMultiAppendOther(entries: seq<MultiEntry>, e: MultiEntry, key: MultiValueAdapterKey)
    requires WellFormedKey(key) && WellFormedKeys(KeysOf(entries)) && WellFormedKey(e.key) && |e.key.attributes| >= 1
    requires !MultiKeyEquals(key, e.key)
    ensures WellFormedKeys(KeysOf(entries + [e]))
    ensures FindMulti(entries + [e], key) == FindMulti(entries, key)
  {
    WellFormedAfterAppend(entries, e);
    if FindMulti(entries, key).Some? {
      AppendKeepsFound(entries, e, key);
    } else {
      AppendKeepsMissing(entries, e, key);
    }
  }

  /** Equal keys are equal to the same keys. */
  lemma EqualKeysSameVerdict(key: MultiValueAdapterKey, k: MultiValueAdapterKey, other: MultiValueAdapterKey)
    requires WellFormedKey(k) && Distinct(k.attributes) && WellFormedKey(key) && Distinct(key.attributes)
    requires WellFormedKey(other) && Distinct(other.attributes)
    requires MultiKeyEquals(key, k)
    ensures MultiKeyEquals(key, other) == MultiKeyEquals(k, other)
  {
    MultiKeyEqualsIsEquivalence(key, k, other);
    MultiKeyEqualsIsEquivalence(k, key, other);
  }

  /** `get` finds nothing exactly when no key is equal. */
  lemma FindMultiNone(entries: seq<MultiEntry>, key: MultiValueAdapterKey)
    requires WellFormedKey(key) && WellFormedKeys(KeysOf(entries))
    ensures FindMulti(entries, key).None? <==> forall j :: 0 <= j < |entries| ==> !MultiKeyEquals(key, entries[j].key)
  {
    var ks := KeysOf(entries);
    assert forall j :: 0 <= j < |entries| ==> ks[j] == entries[j].key;
  }

  lemma SameVerdicts(entries: seq<MultiEntry>, k: MultiValueAdapterKey, key: MultiValueAdapterKey)
    requires WellFormedKeys(KeysOf(entries)) && DistinctKeys(KeysOf(entries))
    requires WellFormedKey(k) && Distinct(k.attributes) && WellFormedKey(key) && Distinct(key.attributes)
    requires MultiKeyEquals(key, k)
    ensures forall j :: 0 <= j < |entries| ==> MultiKeyEquals(key, entries[j].key) == MultiKeyEquals(k, entries[j].key)
  {
    var ks := KeysOf(entries);
    forall j | 0 <= j < |entries| ensures MultiKeyEquals(key, entries[j].key) == MultiKeyEquals(k, entries[j].key) {
      assert ks[j] == entries[j].key;
      EqualKeysSameVerdict(key, k, ks[j]);
    }
  }

  /** Keys equal to each other are found at the same entry. */
  lemma FindMultiEqualKeys(entries: seq<MultiEntry>, k: MultiValueAdapterKey, key: MultiValueAdapterKey)
    requires WellFormedKeys(KeysOf(entries)) && DistinctKeys(KeysOf(entries))
    requires WellFormedKey(k) && Distinct(k.attributes) && WellFormedKey(key) && Distinct(key.attributes)
    requires MultiKeyEquals(key, k)
    ensures FindMulti(entries, key) == FindMulti(entries, k)
  {
    SameVerdicts(entries, k, key);
    if FindMulti(entries, k).Some? {
      FindMultiFirst(entries, k);
      FindMultiIsFirst(entries, key, FindMulti(entries, k).value);
    } else {
      FindMultiNone(entries, k);
      FindMultiNone(entries, key);
    }
  }

  /** Keys not equal to each other are not found at the same entry. */
  lemma FindMultiUnequalKeys(entries: seq<MultiEntry>, k: MultiValueAdapterKey, key: MultiValueAdapterKey)
    requires WellFormedKeys(KeysOf(entries)) && DistinctKeys(KeysOf(entries))
    requires WellFormedKey(k) && Distinct(k.attributes) && WellFormedKey(key) && Distinct(key.attributes)
    requires !MultiKeyEquals(key, k)
    requires FindMulti(entries, k).Some? && FindMulti(entries, key).Some?
    ensures FindMulti(entries, key) != FindMulti(entries, k)
  {
    var i := FindMulti(entries, k).value;
    var ki := KeysOf(entries)[i];
    assert ki == entries[i].key;
    MultiKeyEqualsIsEquivalence(key, ki, k);
    MultiKeyEqualsIsEquivalence(k, ki, key);
  }

  /** `put` over an entry `k` equals: the keys stay, that entry takes the adapter. */
  lemma GetMultiAfterReplace(entries: seq<MultiEntry>, k: MultiValueAdapterKey, adapter: MethodDescription, key: MultiValueAdapterKey)
    requires ValidMultiTable(entries) && DistinctKeys(KeysOf(entries))
    requires WellFormedKey(k) && |k.attributes| >= 1 && Distinct(k.attributes)
    requires WellFormedKey(key) && Distinct(key.attributes)
    requires FindMulti(entries, k).Some?
    ensures KeysOf(PutMulti(entries, k, adapter)) == KeysOf(entries)
    ensures GetMulti(PutMulti(entries, k, adapter), key)
         == if MultiKeyEquals(key, k) then Some(adapter) else GetMulti(entries, key)
  {
    var r := PutMulti(entries, k, adapter);
    assert KeysOf(r) == KeysOf(entries);
    FindMultiSameKeys(entries, r, key);
    if MultiKeyEquals(key, k) {
      FindMultiEqualKeys(entries, k, key);
    } else if FindMulti(entries, key).Some? {
      FindMultiUnequalKeys(entries, k, key);
    }
  }

  /** `put` of a key no entry equals: the pair is appended. */
  lemma GetMultiAfterAppend(entries: seq<MultiEntry>, k: MultiValueAdapterKey, adapter: MethodDescription, key: MultiValueAdapterKey)
    requires ValidMultiTable(entries) && DistinctKeys(KeysOf(entries))
    requires WellFormedKey(k) && |k.attributes| >= 1 && Distinct(k.attributes)
    requires WellFormedKey(key) && Distinct(key.attributes)
    requires FindMulti(entries, k).None?
    ensures KeysOf(PutMulti(entries, k, adapter)) == KeysOf(entries) + [k]
    ensures GetMulti(PutMulti(entries, k, adapter), key)
         == if MultiKeyEquals(key, k) then Some(adapter) else GetMulti(entries, key)
  {
    var e := MultiEntry(k, adapter);
    assert PutMulti(entries, k, adapter) == entries + [e];
    WellFormedAfterAppend(entries, e);
    if MultiKeyEquals(key, k) {
      FindMultiEqualKeys(entries, k, key);
      FindMultiAfterAppend(entries, e, key);
    } else {
      FindMultiAppendOther(entries, e, key);
    }
  }

  /** `get(key)` after `put(k, adapter)`: the new adapter when `key` equals `k`, and what it
      was before otherwise. */
  lemma GetMultiAfterPut(entries: seq<MultiEntry>, k: MultiValueAdapterKey, adapter: MethodDescription, key: MultiValueAdapterKey)
    requires ValidMultiTable(entries) && DistinctKeys(KeysOf(entries))
    requires WellFormedKey(k) && |k.attributes| >= 1 && Distinct(k.attributes)
    requires WellFormedKey(key) && Distinct(key.attributes)
    ensures DistinctKeys(KeysOf(PutMulti(entries, k, adapter)))
    ensures GetMulti(PutMulti(entries, k, adapter), key)
         == if MultiKeyEquals(key, k) then Some(adapter) else GetMulti(entries, key)
  {
    if FindMulti(entries, k).Some? {
      GetMultiAfterReplace(entries, k, adapter, key);
    } else {
      GetMultiAfterAppend(entries, k, adapter, key);
    }
  }

  /** `second[j]` is the last entry of `second` whose key `key` equals. */
  ghost predicate LastEqualAt(second: seq<MultiEntry>, key: MultiValueAdapterKey, j: int)
    requires WellFormedKey(key) && WellFormedKeys(KeysOf(second))
  {
    && 0 <= j < |second|
    && MultiKeyEquals(key, KeysOf(second)[j])
    && forall l :: j < l < |second| ==> !MultiKeyEquals(key, KeysOf(second)[l])
  }

  lemma LastEqualInTail(second: seq<MultiEntry>, key: MultiValueAdapterKey, j: int)
    requires WellFormedKey(key) && WellFormedKeys(KeysOf(second)) && |second| > 0
    requires LastEqualAt(second, key, j) && j > 0
    ensures WellFormedKeys(KeysOf(second[1..]))
    ensures LastEqualAt(second[1..], key, j - 1) && second[1..][j - 1] == second[j]
  {
    assert KeysOf(second[1..]) == KeysOf(second)[1..];
  }

  lemma LastEqualAtHead(second: seq<MultiEntry>, key: MultiValueAdapterKey)
    requires WellFormedKey(key) && WellFormedKeys(KeysOf(second)) && |second| > 0
    requires LastEqualAt(second, key, 0)
    ensures WellFormedKeys(KeysOf(second[1..]))
    ensures EqualsNone(key, KeysOf(second[1..])) && MultiKeyEquals(key, second[0].key)
  {
    assert KeysOf(second[1..]) == KeysOf(second)[1..];
    assert KeysOf(second)[0] == second[0].key;
  }

  lemma EqualsNoneInTail(second: seq<MultiEntry>, key: MultiValueAdapterKey)
    requires WellFormedKey(key) && WellFormedKeys(KeysOf(second)) && |second| > 0
    requires EqualsNone(key, KeysOf(second))
    ensures WellFormedKeys(KeysOf(second[1..]))
    ensures EqualsNone(key, KeysOf(second[1..])) && !MultiKeyEquals(key, second[0].key)
  {
    assert KeysOf(second[1..]) == KeysOf(second)[1..];
    assert KeysOf(second)[0] == second[0].key;
  }

  lemma SplitKeys(second: seq<MultiEntry>)
    requires WellFormedKeys(KeysOf(second)) && DistinctKeys(KeysOf(second)) && |second| > 0
    ensures WellFormedKey(second[0].key) && |second[0].key.attributes| >= 1 && Distinct(second[0].key.attributes)
    ensures KeysOf(second[1..]) == KeysOf(second)[1..]
    ensures WellFormedKeys(KeysOf(second[1..])) && DistinctKeys(KeysOf(second[1..]))
  {
    assert KeysOf(second)[0] == second[0].key;
    assert KeysOf(second[1..]) == KeysOf(second)[1..];
  }

  /** `get(key)` after `putAll(second)`: the adapter of the last entry of `second` whose key
      `key` equals, and when there is none, what it was before. */
  lemma {:induction false} GetMultiAfterPutAll(entries: seq<MultiEntry>, second: seq<MultiEntry>, key: MultiValueAdapterKey)
    requires ValidMultiTable(entries) && DistinctKeys(KeysOf(entries))
    requires WellFormedKeys(KeysOf(second)) && DistinctKeys(KeysOf(second))
    requires WellFormedKey(key) && Distinct(key.attributes)
    ensures forall j :: LastEqualAt(second, key, j) ==>
              GetMulti(PutAllMulti(entries, second), key) == Some(second[j].adapter)
    ensures EqualsNone(key, KeysOf(second)) ==> GetMulti(PutAllMulti(entries, second), key) == GetMulti(entries, key)
    decreases |second|
  {
    if |second| > 0 {
      var first, rest := second[0], second[1..];
      var ks := KeysOf(second);
      SplitKeys(second);
      GetMultiAfterPut(entries, first.key, first.adapter, key);
      var next := PutMulti(entries, first.key, first.adapter);
      GetMultiAfterPutAll(next, rest, key);
      assert PutAllMulti(entries, second) == PutAllMulti(next, rest);
      forall j | LastEqualAt(second, key, j)
        ensures GetMulti(PutAllMulti(entries, second), key) == Some(second[j].adapter)
      {
        if j > 0 {
          LastEqualInTail(second, key, j);
        } else {
          LastEqualAtHead(second, key);
        }
      }
      if EqualsNone(key, ks) {
        EqualsNoneInTail(second, key);
      }
    }
  }

  /** The entries not owned by a class in `classes`, in order. */
  function FilterOwned(entries: seq<MultiEntry>, classes: set<string>): (r: seq<MultiEntry>)
    ensures forall e :: e in r <==> e in entries && e.adapter.declaringType !in classes
    ensures |r| <= |entries|
    decreases |entries|
  {
    if |entries| == 0 then []
    else
      var n := |entries| - 1;
      var rest := FilterOwned(entries[..n], classes);
      assert forall e :: e in entries <==> e in entries[..n] || e == entries[n];
      if entries[n].adapter.declaringType in classes then rest
      else rest + [entries[n]]
  }

  /** Dropping entries keeps the table valid. */
  lemma FilterOwnedValid(entries: seq<MultiEntry>, classes: set<string>)
    ensures ValidMultiTable(entries) ==> ValidMultiTable(FilterOwned(entries, classes))
  {
    if ValidMultiTable(entries) {
      FilterKeepsValid(entries, classes);
    }
  }

  /** A key equal to none of the entries is equal to none of those kept. */
  lemma EqualsNoneFiltered(key: MultiValueAdapterKey, entries: seq<MultiEntry>, classes: set<string>)
    requires WellFormedKey(key) && WellFormedKeys(KeysOf(entries)) && EqualsNone(key, KeysOf(entries))
    ensures WellFormedKeys(KeysOf(FilterOwned(entries, classes)))
    ensures EqualsNone(key, KeysOf(FilterOwned(entries, classes)))
  {
    var rest := FilterOwned(entries, classes);
    forall i | 0 <= i < |rest|
      ensures WellFormedKey(KeysOf(rest)[i]) && |KeysOf(rest)[i].attributes| >= 1
      ensures !MultiKeyEquals(key, KeysOf(rest)[i])
    {
      assert rest[i] in rest;
      var k :| 0 <= k < |entries| && entries[k] == rest[i];
      assert KeysOf(entries)[k] == KeysOf(rest)[i];
    }
  }

  lemma {:induction false} FilterKeepsValid(entries: seq<MultiEntry>, classes: set<string>)
    requires ValidMultiTable(entries)
    ensures ValidMultiTable(FilterOwned(entries, classes))
    decreases |entries|
  {
    if |entries| > 0 {
      var n := |entries| - 1;
      var ks := KeysOf(entries);
      assert KeysOf(entries[..n]) == ks[..n];
      assert ValidMultiTable(entries[..n]) by {
        forall j | 0 <= j < n ensures EqualsNone(ks[..n][j], ks[..n][..j]) {
          assert ks[..n][..j] == ks[..j];
        }
      }
      FilterKeepsValid(entries[..n], classes);
      var rest := FilterOwned(entries[..n], classes);
      if entries[n].adapter.declaringType !in classes {
        var last := entries[n].key;
        assert last == ks[n];
        assert EqualsNone(last, ks[..n]);
        EqualsNoneFiltered(last, entries[..n], classes);
        assert KeysOf(rest + [entries[n]]) == KeysOf(rest) + [last];
        ValidKeysAppend(KeysOf(rest), last);
      }
    }
  }
}

=== FILE: ordering.dfy ===
/** Deterministic enumeration of a finite set in ascending order. The model uses it wherever the
    source iterates a hash map or a sorted collection. */
module Ordering {
  import opened Wrappers
  import opened JavaStrings

  /** `less` is a strict total order on the elements of `s`. */
  ghost predicate StrictTotalOrderOn<T>(less: (T, T) -> bool, s: set<T>) {
    && (forall a, b :: a in s && b in s && less(a, b) ==> !less(b, a))
    && (forall a, b :: a in s && b in s && a != b ==> less(a, b) || less(b, a))
    && (forall a, b, c :: a in s && b in s && c in s && less(a, b) && less(b, c) ==> less(a, c))
  }

  predicate IsMinimum<T>(m: T, s: set<T>, less: (T, T) -> bool) {
    m in s && forall y :: y in s && y != m ==> less(m, y)
  }

  /** Every element of `r` sorts strictly before every later one. */
  ghost predicate StrictlySorted<T>(r: seq<T>, less: (T, T) -> bool) {
    forall i, j :: 0 <= i < j < |r| ==> less(r[i], r[j])
  }

  lemma {:induction false} MinimumExists<T>(s: set<T>, less: (T, T) -> bool)
    requires s != {} && StrictTotalOrderOn(less, s)
    ensures exists m :: IsMinimum(m, s, less)
    decreases |s|
  {
    var x :| x in s;
    if s != {x} {
      var rest := s - {x};
      MinimumExists(rest, less);
      var m :| IsMinimum(m, rest, less);
      if less(x, m) {
        assert IsMinimum(x, s, less);
      } else {
        assert IsMinimum(m, s, less);
      }
    } else {
      assert IsMinimum(x, s, less);
    }
  }

  /** The elements of `s`, each once, in ascending `less` order. */
  function SortedSeq<T(==,!new)>(s: set<T>, less: (T, T) -> bool): (r: seq<T>)
    requires StrictTotalOrderOn(less, s)
    ensures |r| == |s|
    ensures forall x :: x in r <==> x in s
    ensures StrictlySorted(r, less)
    decreases |s|
  {
    if s == {} then []
    else
      MinimumExists(s, less);
      var m :| IsMinimum(m, s, less);
      [m] + SortedSeq(s - {m}, less)
  }

  /** `Less` on strings is a strict total order on any set of strings. */
  lemma StringLessIsStrictTotalOrder(s: set<string>)
    ensures StrictTotalOrderOn(Less, s)
  {
    forall a, b | a in s && b in s && Less(a, b)
      ensures !Less(b, a)
    {
      CompareToAntisymmetric(a, b);
    }
    forall a, b | a in s && b in s && a != b
      ensures Less(a, b) || Less(b, a)
    {
      CompareToAntisymmetric(a, b);
      CompareToZeroIffEqual(a, b);
    }
    forall a, b, c | a in s && b in s && c in s && Less(a, b) && Less(b, c)
      ensures Less(a, c)
    {
      LessTransitive(a, b, c);
    }
  }

  /** The strings of `s` in ascending `String.compareTo` order, as a `TreeSet` iterates them. */
  function SortedStrings(s: set<string>): (r: seq<string>)
    ensures |r| == |s|
    ensures forall x :: x in r <==> x in s
    ensures StrictlySorted(r, Less)
  {
    StringLessIsStrictTotalOrder(s);
    SortedSeq(s, Less)
  }

  /** A strictly sorted sequence holds no element twice. */
  lemma StrictlySortedIsDistinct(r: seq<string>)
    requires StrictlySorted(r, Less)
    ensures forall i, j :: 0 <= i < j < |r| ==> r[i] != r[j]
  {
    forall i, j | 0 <= i < j < |r|
      ensures r[i] != r[j]
    {
      CompareToZeroIffEqual(r[i], r[j]);
    }
  }

  /** The position of the first element satisfying `p`, as a loop that returns on its first hit
      finds it; absent when none does. */
  function FirstWhere<T>(s: seq<T>, p: T -> bool): (r: Option<nat>)
    ensures r.Some? ==> r.value < |s| && p(s[r.value]) && forall j :: 0 <= j < r.value ==> !p(s[j])
    ensures r.None? ==> forall j :: 0 <= j < |s| ==> !p(s[j])
  {
    if |s| == 0 then None
    else if p(s[0]) then Some(0)
    else
      match FirstWhere(s[1..], p)
      case None => None
      case Some(i) => Some(i + 1)
  }

  /** The position of the first element satisfying `p`, when some element does. */
  function FirstIndex<T>(s: seq<T>, p: T -> bool): (r: nat)
    requires exists j :: 0 <= j < |s| && p(s[j])
    ensures r < |s| && p(s[r]) && forall j :: 0 <= j < r ==> !p(s[j])
  {
    if p(s[0]) then 0
    else
      var j :| 0 <= j < |s| && p(s[j]);
      assert s[1..][j - 1] == s[j];
      1 + FirstIndex(s[1..], p)
  }

  /** The least key of `keys` (in `String.compareTo` order) satisfying `p`, as a loop over a
      sorted key set finds it. */
  function FirstKeyWhere(keys: set<string>, p: string -> bool): (r: string)
    requires exists x :: x in keys && p(x)
    ensures r in keys && p(r)
  {
    var sorted := SortedStrings(keys);
    var x :| x in keys && p(x);
    assert exists j :: 0 <= j < |sorted| && sorted[j] == x;
    sorted[FirstIndex(sorted, p)]
  }
}

=== FILE: ranking.dfy ===
/** `COMPARE_MULTI_ATTRIBUTE_SETTERS`, the order in which candidate multi-attribute setters are
    tried, and the stable sort that applies it. A negative result puts the first setter first. */
module Ranking {
  import opened Wrappers
  import opened JavaStrings
  import opened Ordering
  import opened TypeModel
  import opened Keys
  import opened MultiAttribute

  /** The two key-set iterators compared in step: the first difference decides, by `compareTo`. */
  function LexCompare(a: seq<string>, b: seq<string>): (r: int)
    ensures r != 0 ==> exists k :: 0 <= k < |a| && k < |b| && a[..k] == b[..k] && r == CompareTo(a[k], b[k]) != 0
    ensures r == 0 && |a| == |b| ==> a == b
  {
    if |a| == 0 || |b| == 0 then 0
    else
      var c := CompareTo(a[0], b[0]);
      CompareToZeroIffEqual(a[0], b[0]);
      if c != 0 then
        assert a[..0] == b[..0];
        c
      else
        var r := LexCompare(a[1..], b[1..]);
        if r != 0 then
          var k :| 0 <= k < |a[1..]| && k < |b[1..]| && a[1..][..k] == b[1..][..k] && r == CompareTo(a[1..][k], b[1..][k]) != 0;
          assert a[..k + 1] == [a[0]] + a[1..][..k];
          assert b[..k + 1] == [b[0]] + b[1..][..k];
          r
        else
          if |a| == |b| then
            assert a == [a[0]] + a[1..] && b == [b[0]] + b[1..];
            0
          else 0
  }

  lemma {:induction false} LexCompareAntisymmetric(a: seq<string>, b: seq<string>)
    ensures LexCompare(a, b) == -LexCompare(b, a)
  {
    if |a| > 0 && |b| > 0 {
      CompareToAntisymmetric(a[0], b[0]);
      LexCompareAntisymmetric(a[1..], b[1..]);
    }
  }

  /** The attributes of a setter in the iteration order of its `attributeIndices` `TreeMap`. */
  function AttributeOrder(s: MultiAttributeSetter): (r: seq<string>)
    ensures forall a :: a in r <==> a in s.key.attributes
  {
    SortedStrings(AttributeSet(s.key))
  }

  /** The verdict of one shared attribute when both setters have the same view type and the same
      attributes: `None` to go on to the next attribute. A cast loses to no cast, a converter to
      none, a primitive wins over a reference type, a higher widening level wins (`long` before
      `int`), and a narrower reference type wins. */
  function AttributeVerdict(h: Host, o1: MultiAttributeSetter, o2: MultiAttributeSetter, a: string): Option<int>
    requires WellFormedSetter(o1) && WellFormedSetter(o2)
    requires a in o1.key.attributes && a in o2.key.attributes
  {
    var index1 := AttributeIndices(o1.key.attributes)[a];
    var index2 := AttributeIndices(o2.key.attributes)[a];
    var type1 := o1.key.parameterTypes[index1];
    var type2 := o2.key.parameterTypes[index2];
    if type1 == type2 then None
    else if o1.casts[index1].Some? then (if o2.casts[index2].None? then Some(1) else None)
    else if o2.casts[index2].Some? then Some(-1)
    else if o1.converters[index1].Some? then (if o2.converters[index2].None? then Some(1) else None)
    else if o2.converters[index2].Some? then Some(-1)
    else if h.isPrimitive(type1) then
      (if h.isPrimitive(type2) then Some(ConversionLevel(h, Some(type2)) - ConversionLevel(h, Some(type1))) else Some(-1))
    else if h.isPrimitive(type2) then Some(1)
    else if h.assignableFrom(type1, type2) then Some(1)
    else if h.assignableFrom(type2, type1) then Some(-1)
    else None
  }

  /** The loop over the shared attributes from position `k` of `attributes`; 0 when none decides. */
  function CompareAttributes(h: Host, o1: MultiAttributeSetter, o2: MultiAttributeSetter, attributes: seq<string>, k: nat): int
    requires WellFormedSetter(o1) && WellFormedSetter(o2) && k <= |attributes|
    requires forall a :: a in attributes ==> a in o1.key.attributes && a in o2.key.attributes
    decreases |attributes| - k
  {
    if k == |attributes| then 0
    else match AttributeVerdict(h, o1, o2, attributes[k])
      case Some(v) => v
      case None => CompareAttributes(h, o1, o2, attributes, k + 1)
  }

  /** Steps after the view types: attribute names, then parameter types. */
  function CompareSameView(h: Host, o1: MultiAttributeSetter, o2: MultiAttributeSetter): int
    requires WellFormedSetter(o1) && WellFormedSetter(o2)
  {
    if AttributeSet(o1.key) != AttributeSet(o2.key) then LexCompare(AttributeOrder(o1), AttributeOrder(o2))
    else CompareAttributes(h, o1, o2, AttributeOrder(o1), 0)
  }

  /** The comparator as written: more attributes first; then, for different view types, 1 when the
      first view type is assignable from the second and -1 otherwise; then the remaining steps. */
  function CompareAsWritten(h: Host, o1: MultiAttributeSetter, o2: MultiAttributeSetter): int
    requires WellFormedSetter(o1) && WellFormedSetter(o2)
  {
    if |o1.key.attributes| != |o2.key.attributes| then |o2.key.attributes| - |o1.key.attributes|
    else if o1.key.viewType != o2.key.viewType then
      (if h.assignableFrom(o1.key.viewType, o2.key.viewType) then 1 else -1)
    else CompareSameView(h, o1, o2)
  }

  /** The comparator with the view step made symmetric: a view type assignable from the other
      sorts later, one the other is assignable from sorts earlier, and unrelated view types
      (two interfaces the view implements) go on to the remaining steps. */
  function Compare(h: Host, o1: MultiAttributeSetter, o2: MultiAttributeSetter): (r: int)
    requires WellFormedSetter(o1) && WellFormedSetter(o2)
    ensures |o1.key.attributes| > |o2.key.attributes| ==> r < 0
    ensures r <= 0 ==> |o1.key.attributes| >= |o2.key.attributes|
  {
    if |o1.key.attributes| != |o2.key.attributes| then |o2.key.attributes| - |o1.key.attributes|
    else if o1.key.viewType != o2.key.viewType && h.assignableFrom(o1.key.viewType, o2.key.viewType) then 1
    else if o1.key.viewType != o2.key.viewType && h.assignableFrom(o2.key.viewType, o1.key.viewType) then -1
    else CompareSameView(h, o1, o2)
  }

  /** The host never calls two different types assignable from each other. */
  ghost predicate AntisymmetricAssignability(h: Host) {
    forall x, y :: h.assignableFrom(x, y) && h.assignableFrom(y, x) ==> x == y
  }

  lemma AttributeVerdictAntisymmetric(h: Host, o1: MultiAttributeSetter, o2: MultiAttributeSetter, a: string)
    requires WellFormedSetter(o1) && WellFormedSetter(o2)
    requires a in o1.key.attributes && a in o2.key.attributes
    requires AntisymmetricAssignability(h)
    ensures var v1 := AttributeVerdict(h, o1, o2, a);
            var v2 := AttributeVerdict(h, o2, o1, a);
            v1.None? <==> v2.None?
    ensures AttributeVerdict(h, o1, o2, a).Some? ==> AttributeVerdict(h, o1, o2, a).value == -AttributeVerdict(h, o2, o1, a).value
  {
    var type1 := o1.key.parameterTypes[AttributeIndices(o1.key.attributes)[a]];
    var type2 := o2.key.parameterTypes[AttributeIndices(o2.key.attributes)[a]];
    if type1 != type2 && h.assignableFrom(type1, type2) {
      assert !h.assignableFrom(type2, type1);
    }
  }

  lemma {:induction false} CompareAttributesAntisymmetric(h: Host, o1: MultiAttributeSetter, o2: MultiAttributeSetter,
                                                          attributes: seq<string>, k: nat)
    requires WellFormedSetter(o1) && WellFormedSetter(o2) && k <= |attributes|
    requires forall a :: a in attributes ==> a in o1.key.attributes && a in o2.key.attributes
    requires AntisymmetricAssignability(h)
    ensures CompareAttributes(h, o1, o2, attributes, k) == -CompareAttributes(h, o2, o1, attributes, k)
    decreases |attributes| - k
  {
    if k < |attributes| {
      AttributeVerdictAntisymmetric(h, o1, o2, attributes[k]);
      CompareAttributesAntisymmetric(h, o1, o2, attributes, k + 1);
    }
  }

  /** The corrected comparator is antisymmetric, as `Comparator` requires: exchanging the setters
      negates the result. */
  lemma CompareAntisymmetric(h: Host, o1: MultiAttributeSetter, o2: MultiAttributeSetter)
    requires WellFormedSetter(o1) && WellFormedSetter(o2)
    requires AntisymmetricAssignability(h)
    ensures Compare(h, o1, o2) == -Compare(h, o2, o1)
  {
    var v1, v2 := o1.key.viewType, o2.key.viewType;
    if |o1.key.attributes| != |o2.key.attributes| {
    } else if v1 != v2 && h.assignableFrom(v1, v2) {
      assert !h.assignableFrom(v2, v1);
    } else if v1 != v2 && h.assignableFrom(v2, v1) {
    } else if AttributeSet(o1.key) != AttributeSet(o2.key) {
      LexCompareAntisymmetric(AttributeOrder(o1), AttributeOrder(o2));
    } else {
      assert AttributeOrder(o1) == AttributeOrder(o2);
      CompareAttributesAntisymmetric(h, o1, o2, AttributeOrder(o1), 0);
    }
  }

  /** The comparator as written is not antisymmetric: two adapters with the same attributes for
      two unrelated interfaces the view implements each compare before the other. */
  lemma CompareAsWrittenNotAntisymmetric(h: Host, o1: MultiAttributeSetter, o2: MultiAttributeSetter)
    requires WellFormedSetter(o1) && WellFormedSetter(o2)
    requires |o1.key.attributes| == |o2.key.attributes| && o1.key.viewType != o2.key.viewType
    requires !h.assignableFrom(o1.key.viewType, o2.key.viewType) && !h.assignableFrom(o2.key.viewType, o1.key.viewType)
    ensures CompareAsWritten(h, o1, o2) == -1 && CompareAsWritten(h, o2, o1) == -1
    ensures Compare(h, o1, o2) == CompareSameView(h, o1, o2)
  {
  }

  /** A concrete pair: one-attribute adapters for the unrelated interfaces `A` and `B`, on a host
      where only equal types are assignable. */
  lemma UnrelatedInterfacesExample()
    ensures var h := Host((x, y) => x == y, _ => false, _ => OtherKind, t => t, _ => false);
      var o1 := MultiAttributeSetter(MultiValueAdapterKey("A", ["onClick"], ["L"]), MethodDescription("Adapters", "a"), [None], [None]);
      var o2 := MultiAttributeSetter(MultiValueAdapterKey("B", ["onClick"], ["L"]), MethodDescription("Adapters", "b"), [None], [None]);
      CompareAsWritten(h, o1, o2) == -1 && CompareAsWritten(h, o2, o1) == -1
  {
  }

  /** A host with three view types where only `C` is assignable to `A`, and `java.lang.String`
      to `java.lang.Object`; `int` is its one primitive. */
  function CycleHost(): Host {
    Host((x, y) => x == y || (x == "A" && y == "C") || (x == "java.lang.Object" && y == "java.lang.String"),
         t => t == "int", t => if t == "int" then IntKind else OtherKind, t => t, t => t == "java.lang.Object")
  }

  /** A one-attribute adapter for `app:x` on `view` taking a `parameter`, with no converter and no cast. */
  function CycleSetter(view: TypeRef, parameter: TypeRef): (s: MultiAttributeSetter)
    ensures WellFormedSetter(s)
  {
    MultiAttributeSetter(MultiValueAdapterKey(view, ["x"], [parameter]), MethodDescription("Adapters", view), [None], [None])
  }

  /** The single attribute of a `CycleSetter` is iterated alone, at position 0. */
  lemma CycleSetterOrder(view: TypeRef, parameter: TypeRef)
    ensures AttributeOrder(CycleSetter(view, parameter)) == ["x"]
    ensures AttributeIndices(["x"])["x"] == 0
  {
    var r := AttributeOrder(CycleSetter(view, parameter));
    assert "x" in r;
  }

  /** The corrected comparator is still not transitive: on `CycleHost`, `C(Object)` comes before
      `A(int)` by the view step, `A(int)` before `B(String)` because a primitive wins, and
      `B(String)` before `C(Object)` because the narrower reference type wins. No order is
      consistent with it, so a sort's result depends on the algorithm and the input order. */
  lemma CompareNotTransitive()
    ensures AntisymmetricAssignability(CycleHost())
    ensures var h := CycleHost();
      var a := CycleSetter("A", "int");
      var b := CycleSetter("B", "java.lang.String");
      var c := CycleSetter("C", "java.lang.Object");
      Compare(h, c, a) < 0 && Compare(h, a, b) < 0 && Compare(h, b, c) < 0
  {
    CycleSetterOrder("A", "int");
    CycleSetterOrder("B", "java.lang.String");
    CycleSetterOrder("C", "java.lang.Object");
  }

  /** On the cycle, the insertion sort turns `[A, C, B]` into `[C, A, B]`; TimSort, which
      reverses the strictly descending run `[A, C, B]`, gives `[B, C, A]`. */
  lemma SortSettersOnCycle()
    ensures var h := CycleHost();
      var a := CycleSetter("A", "int");
      var b := CycleSetter("B", "java.lang.String");
      var c := CycleSetter("C", "java.lang.Object");
      SortSetters(h, [a, c, b]) == [c, a, b]
  {
    var h := CycleHost();
    var a := CycleSetter("A", "int");
    var b := CycleSetter("B", "java.lang.String");
    var c := CycleSetter("C", "java.lang.Object");
    CompareNotTransitive();
    CompareAntisymmetric(h, a, b);
    var cmp := SetterOrder(h);
    assert cmp(c, a) < 0 && cmp(b, a) > 0;
    assert [a][..0] == [];
    assert Sort([a], cmp) == [a];
    assert [a, c][..1] == [a];
    assert InsertBack([a], c, cmp) == InsertBack([], c, cmp) + [a];
    assert Sort([a, c], cmp) == [c, a];
    assert [a, c, b][..2] == [a, c];
    assert InsertBack([c, a], b, cmp) == [c, a, b];
  }

  // ---------------------------------------------------------------------------------------
  // The stable sort

  /** `cmp` as a `Comparator` must be: exchanging the arguments negates the result. */
  ghost predicate Antisymmetric<T(!new)>(cmp: (T, T) -> int) {
    forall a, b :: cmp(a, b) == -cmp(b, a)
  }

  /** Each element compares at most equal to the next one. */
  predicate AdjacentInOrder<T>(s: seq<T>, cmp: (T, T) -> int) {
    forall i :: 0 <= i < |s| - 1 ==> cmp(s[i], s[i + 1]) <= 0
  }

  /** Insertion of `x` behind every element it does not compare before, scanning from the end
      (the insertion step `Collections.sort` uses on short lists). */
  function InsertBack<T>(s: seq<T>, x: T, cmp: (T, T) -> int): (r: seq<T>)
    ensures multiset(r) == multiset(s) + multiset{x}
    ensures |r| == |s| + 1
    decreases |s|
  {
    if |s| == 0 then [x]
    else
      var n := |s| - 1;
      if cmp(x, s[n]) < 0 then
        assert s == s[..n] + [s[n]];
        InsertBack(s[..n], x, cmp) + [s[n]]
      else s + [x]
  }

  /** The last position of an insertion holds the inserted element or the former last one. */
  lemma InsertBackLast<T>(s: seq<T>, x: T, cmp: (T, T) -> int)
    requires |s| > 0
    ensures InsertBack(s, x, cmp)[|s|] == x || InsertBack(s, x, cmp)[|s|] == s[|s| - 1]
  {
  }

  lemma AppendInOrder<T>(a: seq<T>, y: T, cmp: (T, T) -> int)
    requires AdjacentInOrder(a, cmp) && |a| > 0 && cmp(a[|a| - 1], y) <= 0
    ensures AdjacentInOrder(a + [y], cmp)
  {
    var r := a + [y];
    forall i | 0 <= i < |r| - 1 ensures cmp(r[i], r[i + 1]) <= 0 {
      if i < |a| - 1 {
        assert r[i] == a[i] && r[i + 1] == a[i + 1];
      }
    }
  }

  lemma {:induction false} InsertBackInOrder<T(!new)>(s: seq<T>, x: T, cmp: (T, T) -> int)
    requires AdjacentInOrder(s, cmp) && Antisymmetric(cmp)
    ensures AdjacentInOrder(InsertBack(s, x, cmp), cmp)
    decreases |s|
  {
    if |s| > 0 {
      var n := |s| - 1;
      var last := s[n];
      if cmp(x, last) < 0 {
        var front := s[..n];
        assert AdjacentInOrder(front, cmp) by {
          forall i | 0 <= i < |front| - 1 ensures cmp(front[i], front[i + 1]) <= 0 {
            assert front[i] == s[i] && front[i + 1] == s[i + 1];
          }
        }
        InsertBackInOrder(front, x, cmp);
        var a := InsertBack(front, x, cmp);
        if n > 0 {
          InsertBackLast(front, x, cmp);
          assert cmp(s[n - 1], s[n]) <= 0;
        }
        AppendInOrder(a, last, cmp);
      } else {
        assert cmp(last, x) == -cmp(x, last);
        AppendInOrder(s, x, cmp);
      }
    }
  }

  /** `Collections.sort(list, cmp)`, stable, as repeated insertion. */
  function Sort<T>(s: seq<T>, cmp: (T, T) -> int): (r: seq<T>)
    ensures multiset(r) == multiset(s)
    ensures |r| == |s|
  {
    if |s| == 0 then []
    else
      var n := |s| - 1;
      assert s == s[..n] + [s[n]];
      InsertBack(Sort(s[..n], cmp), s[n], cmp)
  }

  lemma {:induction false} SortInOrder<T(!new)>(s: seq<T>, cmp: (T, T) -> int)
    requires Antisymmetric(cmp)
    ensures AdjacentInOrder(Sort(s, cmp), cmp)
  {
    if |s| > 0 {
      var n := |s| - 1;
      SortInOrder(s[..n], cmp);
      InsertBackInOrder(Sort(s[..n], cmp), s[n], cmp);
    }
  }

  /** The comparator on all setters: `Compare` on well-formed ones (every setter the store
      builds), 0 otherwise. */
  function SetterOrder(h: Host): (cmp: (MultiAttributeSetter, MultiAttributeSetter) -> int)
    ensures forall a, b :: WellFormedSetter(a) && WellFormedSetter(b) ==> cmp(a, b) == Compare(h, a, b)
  {
    (a, b) => if WellFormedSetter(a) && WellFormedSetter(b) then Compare(h, a, b) else 0
  }

  lemma SetterOrderAntisymmetric(h: Host)
    requires AntisymmetricAssignability(h)
    ensures Antisymmetric(SetterOrder(h))
  {
    forall a, b ensures SetterOrder(h)(a, b) == -SetterOrder(h)(b, a) {
      if WellFormedSetter(a) && WellFormedSetter(b) {
        CompareAntisymmetric(h, a, b);
      }
    }
  }

  predicate AllWellFormed(s: seq<MultiAttributeSetter>) {
    forall i :: 0 <= i < |s| ==> WellFormedSetter(s[i])
  }

  /** `Collections.sort(matching, COMPARE_MULTI_ATTRIBUTE_SETTERS)` with the corrected comparator.
      That comparator is not transitive (`CompareNotTransitive`), so this is one admissible order,
      not necessarily TimSort's. */
  function SortSetters(h: Host, s: seq<MultiAttributeSetter>): (r: seq<MultiAttributeSetter>)
    requires AllWellFormed(s)
    ensures multiset(r) == multiset(s) && |r| == |s|
    ensures AllWellFormed(r)
  {
    var r := Sort(s, SetterOrder(h));
    assert forall i :: 0 <= i < |r| ==> r[i] in multiset(s);
    r
  }

  /** After sorting, setters with more attributes come first, so the first setter covers as many
      attributes as any; each setter compares at most equal to the next. */
  lemma SortedByAttributeCount(h: Host, s: seq<MultiAttributeSetter>)
    requires AllWellFormed(s) && AntisymmetricAssignability(h)
    ensures var r := SortSetters(h, s);
      && (forall i :: 0 <= i < |r| - 1 ==> Compare(h, r[i], r[i + 1]) <= 0)
      && (forall i, j :: 0 <= i < j < |r| ==> |r[i].key.attributes| >= |r[j].key.attributes|)
  {
    var r := SortSetters(h, s);
    SetterOrderAntisymmetric(h);
    SortInOrder(s, SetterOrder(h));
    forall i | 0 <= i < |r| - 1 ensures Compare(h, r[i], r[i + 1]) <= 0 {
      assert SetterOrder(h)(r[i], r[i + 1]) <= 0;
    }
    forall i, j | 0 <= i < j < |r| ensures |r[i].key.attributes| >= |r[j].key.attributes| {
      var k := i;
      while k < j
        invariant i <= k <= j
        invariant |r[i].key.attributes| >= |r[k].key.attributes|
      {
        assert Compare(h, r[k], r[k + 1]) <= 0;
        k := k + 1;
      }
    }
  }
}

=== FILE: resolver.dfy ===
/** Choosing the setter for one attribute: the converter lookup `getConversionMethod`, the
    parameter tie-break `isBetterParameter`, `getBestSetter` and `getSetterCall`, for both
    stores. Host reflection comes in as a `Host` and a method lookup; hash maps are enumerated in
    ascending key order. */
module Resolver {
  import opened Wrappers
  import opened JavaStrings
  import opened Ordering
  import opened TypeModel
  import opened AttributeNames
  import opened Keys
  import opened Registry
  import opened SetterCalls

  /** `conversionMethods`: from type -> to type -> converter. */
  type ConversionTable = map<TypeRef, map<TypeRef, MethodDescription>>

  // ---------------------------------------------------------------------------------------
  // Converters

  /** A converter is registered from `fk` to `tk`, accepts a `from` value and yields something
      usable as a `to`. */
  predicate ConverterFits(h: Host, conv: ConversionTable, from: TypeRef, to: TypeRef, fk: TypeRef, tk: TypeRef) {
    Get2(conv, fk, tk).Some? && CanUseForConversion(h, from, fk) && CanUseForConversion(h, tk, to)
  }

  /** The source type `fk` of the table accepts a `from` value and has a converter to `to`. */
  predicate UsableSource(h: Host, conv: ConversionTable, from: TypeRef, to: TypeRef, fk: TypeRef) {
    fk in conv && CanUseForConversion(h, from, fk) && exists tk :: tk in conv[fk] && CanUseForConversion(h, tk, to)
  }

  lemma NoUsableSourceNoConverter(h: Host, conv: ConversionTable, from: TypeRef, to: TypeRef, sources: seq<TypeRef>)
    requires forall fk :: fk in conv ==> fk in sources
    requires forall j :: 0 <= j < |sources| ==> !UsableSource(h, conv, from, to, sources[j])
    ensures !exists fk, tk :: ConverterFits(h, conv, from, to, fk, tk)
  {
    forall fk | fk in conv ensures !UsableSource(h, conv, from, to, fk) {
      var j :| 0 <= j < |sources| && sources[j] == fk;
    }
  }

  /** `getConversionMethod(from, to)`: the first source type (in key order) that accepts `from`
      and has a converter whose result fits `to`; in it, the first such converter. `null` on
      either side finds nothing. */
  function GetConversionMethod(h: Host, conv: ConversionTable, from: Option<TypeRef>, to: Option<TypeRef>): (r: Option<MethodDescription>)
    ensures r.Some? <==> from.Some? && to.Some? && exists fk, tk :: ConverterFits(h, conv, from.value, to.value, fk, tk)
    ensures r.Some? ==> exists fk, tk :: ConverterFits(h, conv, from.value, to.value, fk, tk) && Get2(conv, fk, tk) == r
  {
    if from.None? || to.None? then None
    else
      var f, t := from.value, to.value;
      var sources := SortedStrings(conv.Keys);
      match FirstWhere(sources, fk => UsableSource(h, conv, f, t, fk))
      case None =>
        NoUsableSourceNoConverter(h, conv, f, t, sources);
        None
      case Some(i) =>
        var tk := FirstTarget(h, conv, f, t, sources[i]);
        Some(conv[sources[i]][tk])
  }

  /** The inner loop of `getConversionMethod`: in a source type that has a usable converter,
      the first target type (in key order) whose converter result fits `to`. */
  function FirstTarget(h: Host, conv: ConversionTable, from: TypeRef, to: TypeRef, fk: TypeRef): (tk: TypeRef)
    requires UsableSource(h, conv, from, to, fk)
    ensures ConverterFits(h, conv, from, to, fk, tk)
  {
    FirstKeyWhere(conv[fk].Keys, x => CanUseForConversion(h, x, to))
  }

  // ---------------------------------------------------------------------------------------
  // The parameter tie-break

  /** A value of `argument` can be passed where `parameter` is expected: as is, by boxing, by a
      widening conversion, by assignment, through a registered converter, or by casting an
      `Object`. */
  predicate Acceptable(h: Host, conv: ConversionTable, argument: TypeRef, parameter: TypeRef) {
    || argument == parameter
    || IsBoxingConversion(h, parameter, argument)
    || IsImplicitConversion(h, Some(argument), Some(parameter))
    || h.assignableFrom(parameter, argument)
    || GetConversionMethod(h, conv, Some(argument), Some(parameter)).Some?
    || (h.isObject(argument) && !h.isPrimitive(parameter))
  }

  /** `isBetterParameter(argument, parameter, oldParameter, isBetterViewTypeMatch)`: whether a
      candidate taking `parameter` should replace the best one so far, which takes
      `oldParameter` (absent when there is none yet). Callers pass a better view match whenever
      there is no best candidate yet. Implicit conversion is the language's widening. */
  function IsBetterParameter(h: Host, conv: ConversionTable, argument: TypeRef, parameter: TypeRef,
                             oldParameter: Option<TypeRef>, isBetterViewTypeMatch: bool): (r: bool)
    requires oldParameter.None? ==> isBetterViewTypeMatch
    ensures r ==> Acceptable(h, conv, argument, parameter)
    ensures oldParameter.None? ==> (r <==> Acceptable(h, conv, argument, parameter))
  {
    if !isBetterViewTypeMatch && oldParameter == Some(argument) then false
    else if argument == parameter then true
    else if !isBetterViewTypeMatch && IsBoxingConversion(h, oldParameter.value, argument) then false
    else if IsBoxingConversion(h, parameter, argument) then true
    else
      var oldLevel := ConversionLevel(h, oldParameter);
      if IsImplicitConversion(h, Some(argument), Some(parameter)) then
        oldLevel < 0 || ConversionLevel(h, Some(parameter)) < oldLevel
      else if oldLevel >= 0 then false
      else if h.assignableFrom(parameter, argument) then
        oldParameter.None? || h.assignableFrom(oldParameter.value, parameter)
      else if GetConversionMethod(h, conv, Some(argument), Some(parameter)).Some? then true
      else if GetConversionMethod(h, conv, Some(argument), oldParameter).Some? then false
      else h.isObject(argument) && !h.isPrimitive(parameter)
  }

  /** An exact match wins, unless the view match is no better and the best so far already
      matches exactly. */
  lemma ExactMatchRule(h: Host, conv: ConversionTable, argument: TypeRef, oldParameter: Option<TypeRef>, isBetterView: bool)
    requires oldParameter.None? ==> isBetterView
    ensures IsBetterParameter(h, conv, argument, argument, oldParameter, isBetterView)
        <==> isBetterView || oldParameter != Some(argument)
  {
  }

  /** A widening candidate that is not an exact or boxing match wins exactly when the best so far
      is off the widening ladder or sits strictly higher on it. */
  lemma ImplicitConversionRule(h: Host, conv: ConversionTable, argument: TypeRef, parameter: TypeRef,
                               oldParameter: Option<TypeRef>, isBetterView: bool)
    requires oldParameter.None? ==> isBetterView
    requires isBetterView
    requires argument != parameter && !IsBoxingConversion(h, parameter, argument)
    requires IsImplicitConversion(h, Some(argument), Some(parameter))
    ensures IsBetterParameter(h, conv, argument, parameter, oldParameter, isBetterView)
        <==> ConversionLevel(h, oldParameter) < 0 || ConversionLevel(h, Some(parameter)) < ConversionLevel(h, oldParameter)
  {
  }

  /** With an exact match in hand and no worse view, a widening candidate never wins: the exact
      parameter is at most as high on the ladder. */
  lemma ExactMatchBeatsWidening(h: Host, conv: ConversionTable, argument: TypeRef, parameter: TypeRef)
    requires argument != parameter && !IsBoxingConversion(h, parameter, argument)
    requires IsImplicitConversion(h, Some(argument), Some(parameter))
    ensures !IsBetterParameter(h, conv, argument, parameter, Some(argument), true)
  {
    assert ConversionLevel(h, Some(argument)) < ConversionLevel(h, Some(parameter));
  }

  /** As written, boxing is checked before the best so far is consulted: when the view match is
      better (always so in `getBestSetter`), a boxing candidate replaces an exact match. */
  lemma BoxingDisplacesExactMatch(h: Host, conv: ConversionTable, argument: TypeRef, parameter: TypeRef)
    requires IsBoxingConversion(h, parameter, argument)
    ensures IsBetterParameter(h, conv, argument, parameter, Some(argument), true)
    ensures !IsBetterParameter(h, conv, argument, parameter, Some(argument), false)
  {
  }

  // ---------------------------------------------------------------------------------------
  // getBestSetter

  /** A method `viewType.getMethods(name, 1)` returns. */
  datatype HostMethod = HostMethod(
    name: string,
    parameterType: TypeRef,
    isVoid: bool,
    isStatic: bool,
    isPublic: bool,
    minApi: nat)

  /** `viewType.getMethods(name, 1)`, supplied by the host. */
  type MethodLookup = (TypeRef, string) -> seq<HostMethod>

  /** The renamed setter for `attribute`: the method registered for the first declaring class
      (in key order) that `viewType` is assignable to. */
  function RenamedSetter(h: Host, s: Store, attribute: string, viewType: TypeRef): (r: Option<string>)
    ensures r.None? <==> forall c :: Get2(s.renamedMethods, attribute, c).Some? ==> !h.assignableFrom(c, viewType)
    ensures r.Some? ==> exists c :: Get2(s.renamedMethods, attribute, c).Some? && h.assignableFrom(c, viewType)
                                  && r.value == Get2(s.renamedMethods, attribute, c).value.methodName
  {
    if attribute !in s.renamedMethods then None
    else
      var renamed := s.renamedMethods[attribute];
      var classes := SortedStrings(renamed.Keys);
      match FirstWhere(classes, c => h.assignableFrom(c, viewType))
      case None => None
      case Some(i) =>
        assert Get2(s.renamedMethods, attribute, classes[i]).Some?;
        Some(renamed[classes[i]].methodName)
  }

  /** The setter names tried, in order: the renamed setter (if any), the conventional `setX`,
      then the bare attribute name. */
  function SetterCandidates(h: Host, s: Store, attribute: string, viewType: TypeRef): (r: seq<string>)
    ensures |r| >= 2
    ensures r[|r| - 2..] == [DefaultSetterName(attribute), TrimAttributeNamespace(attribute)]
    ensures |r| == 3 <==> RenamedSetter(h, s, attribute, viewType).Some?
  {
    var renamed := RenamedSetter(h, s, attribute, viewType);
    (if renamed.Some? then [renamed.value] else []) + [DefaultSetterName(attribute), TrimAttributeNamespace(attribute)]
  }

  /** The older store considers public instance methods returning `void`; the newer one any
      method returning `void`. */
  predicate Eligible(v: Version, m: HostMethod) {
    if v == Older then m.isVoid && !m.isStatic && m.isPublic else m.isVoid
  }

  /** `m` may be the best setter: the store considers it and it takes the argument. */
  predicate Usable(h: Host, conv: ConversionTable, v: Version, argument: TypeRef, m: HostMethod) {
    Eligible(v, m) && Acceptable(h, conv, argument, m.parameterType)
  }

  /** None of the methods that `names` denote on `viewType` is usable. */
  predicate NoneUsable(h: Host, conv: ConversionTable, v: Version, methods: MethodLookup, viewType: TypeRef,
                       argument: TypeRef, names: seq<string>) {
    forall n, m :: n in names && m in methods(viewType, n) ==> !Usable(h, conv, v, argument, m)
  }

  /** `m` is an eligible method that one of `names` denotes on `viewType`. */
  predicate FromNames(v: Version, methods: MethodLookup, viewType: TypeRef, names: seq<string>, m: HostMethod) {
    Eligible(v, m) && exists n :: n in names && m in methods(viewType, n)
  }

  /** One candidate name's methods, each compared with the best so far. */
  function ScanMethods(h: Host, conv: ConversionTable, v: Version, argument: TypeRef, ms: seq<HostMethod>,
                       bestMethod: Option<HostMethod>, bestParameter: Option<TypeRef>): (r: (Option<HostMethod>, Option<TypeRef>))
    requires bestMethod.None? ==> bestParameter.None?
    ensures r.0.None? ==> r.1.None?
    ensures r.0 == bestMethod || (r.0.Some? && r.0.value in ms && Eligible(v, r.0.value))
    ensures r.0.None? <==> (bestMethod.None? && forall m :: m in ms ==> !Usable(h, conv, v, argument, m))
    ensures bestParameter.None? && (exists m :: m in ms && Usable(h, conv, v, argument, m)) ==> r.0.Some? && r.0.value in ms
    decreases |ms|
  {
    if |ms| == 0 then (bestMethod, bestParameter)
    else
      var m := ms[0];
      var next :=
        if Eligible(v, m) && IsBetterParameter(h, conv, argument, m.parameterType, bestParameter, true)
        then (Some(m), Some(m.parameterType))
        else (bestMethod, bestParameter);
      assert forall x :: x in ms <==> x == m || x in ms[1..];
      assert bestParameter.None? && Usable(h, conv, v, argument, m) ==> next.0 == Some(m);
      ScanMethods(h, conv, v, argument, ms[1..], next.0, next.1)
  }

  /** The candidate names in turn; the older store forgets the best parameter type at each new
      name, the newer one keeps it. */
  function ScanNames(h: Host, conv: ConversionTable, v: Version, methods: MethodLookup, viewType: TypeRef,
                     argument: TypeRef, names: seq<string>,
                     bestMethod: Option<HostMethod>, bestParameter: Option<TypeRef>): (r: Option<HostMethod>)
    requires bestMethod.None? ==> bestParameter.None?
    ensures r == bestMethod || (r.Some? && FromNames(v, methods, viewType, names, r.value))
    ensures r.None? <==> bestMethod.None? && NoneUsable(h, conv, v, methods, viewType, argument, names)
    decreases |names|
  {
    if |names| == 0 then bestMethod
    else
      var start := if v == Older then None else bestParameter;
      var next := ScanMethods(h, conv, v, argument, methods(viewType, names[0]), bestMethod, start);
      assert forall x :: x in names <==> x == names[0] || x in names[1..];
      ScanNames(h, conv, v, methods, viewType, argument, names[1..], next.0, next.1)
  }

  /** In the older store each candidate name starts from no best parameter, so a later name with
      any usable method overrides whatever an earlier name found, however much better; in
      particular the renamed setter is lost whenever the conventional `setX` exists. */
  lemma {:induction false} OlderLastNameWins(h: Host, conv: ConversionTable, methods: MethodLookup, viewType: TypeRef,
                                             argument: TypeRef, names: seq<string>,
                                             bestMethod: Option<HostMethod>, bestParameter: Option<TypeRef>)
    requires bestMethod.None? ==> bestParameter.None?
    requires |names| >= 1
    requires exists m :: m in methods(viewType, names[|names| - 1]) && Usable(h, conv, Older, argument, m)
    ensures var r := ScanNames(h, conv, Older, methods, viewType, argument, names, bestMethod, bestParameter);
      r.Some? && r.value in methods(viewType, names[|names| - 1])
    decreases |names|
  {
    var next := ScanMethods(h, conv, Older, argument, methods(viewType, names[0]), bestMethod, None);
    if |names| > 1 {
      assert names[1..][|names[1..]| - 1] == names[|names| - 1];
      OlderLastNameWins(h, conv, methods, viewType, argument, names[1..], next.0, next.1);
    }
  }

  /** `getBestSetter`: the view's one-argument setter among the candidate names whose parameter
      best takes the argument. */
  function GetBestSetter(h: Host, conv: ConversionTable, v: Version, methods: MethodLookup, s: Store,
                         viewType: TypeRef, argument: TypeRef, attribute: string): (r: Option<HostMethod>)
    ensures r.Some? ==> FromNames(v, methods, viewType, SetterCandidates(h, s, attribute, viewType), r.value)
    ensures r.None? <==> NoneUsable(h, conv, v, methods, viewType, argument, SetterCandidates(h, s, attribute, viewType))
  {
    ScanNames(h, conv, v, methods, viewType, argument, SetterCandidates(h, s, attribute, viewType), None, None)
  }

  // ---------------------------------------------------------------------------------------
  // getSetterCall

  /** Adapter keys in ascending order of view type, then value type. */
  predicate KeyLess(a: AccessorKey, b: AccessorKey) {
    Less(a.viewType, b.viewType) || (a.viewType == b.viewType && Less(a.valueType, b.valueType))
  }

  lemma KeyLessIsStrictTotalOrder(s: set<AccessorKey>)
    ensures StrictTotalOrderOn(KeyLess, s)
  {
    forall a, b | a in s && b in s && KeyLess(a, b) ensures !KeyLess(b, a) {
      CompareToAntisymmetric(a.viewType, b.viewType);
      CompareToAntisymmetric(a.valueType, b.valueType);
    }
    forall a, b | a in s && b in s && a != b ensures KeyLess(a, b) || KeyLess(b, a) {
      CompareToAntisymmetric(a.viewType, b.viewType);
      CompareToZeroIffEqual(a.viewType, b.viewType);
      CompareToAntisymmetric(a.valueType, b.valueType);
      CompareToZeroIffEqual(a.valueType, b.valueType);
    }
    forall a, b, c | a in s && b in s && c in s && KeyLess(a, b) && KeyLess(b, c) ensures KeyLess(a, c) {
      if Less(a.viewType, b.viewType) && Less(b.viewType, c.viewType) {
        LessTransitive(a.viewType, b.viewType, c.viewType);
      }
      if Less(a.valueType, b.valueType) && Less(b.valueType, c.valueType) {
        LessTransitive(a.valueType, b.valueType, c.valueType);
      }
    }
  }

  function SortedKeys(s: set<AccessorKey>): (r: seq<AccessorKey>)
    ensures forall k :: k in r <==> k in s
  {
    KeyLessIsStrictTotalOrder(s);
    SortedSeq(s, KeyLess)
  }

  /** The adapter loop of `getSetterCall`: each adapter whose view type takes the view replaces
      the best so far when its value type is a better parameter. `bestValue` is absent exactly
      when no setter has been found. */
  function ScanAdapters(h: Host, conv: ConversionTable, adapters: map<AccessorKey, MethodDescription>,
                        keys: seq<AccessorKey>, viewType: TypeRef, valueType: TypeRef,
                        bestValue: Option<TypeRef>, call: Option<Target>): (r: (Option<TypeRef>, Option<Target>))
    requires forall k :: k in keys ==> k in adapters
    requires bestValue.None? <==> call.None?
    ensures r.0.None? <==> r.1.None?
    ensures r.1.None? <==> call.None? && forall k :: k in keys && h.assignableFrom(k.viewType, viewType)
                                                   ==> !Acceptable(h, conv, valueType, k.valueType)
    ensures r.1 == call || (r.1.Some? && r.1.value.AdapterSetter?
                            && exists k :: k in keys && h.assignableFrom(k.viewType, viewType)
                                           && adapters[k] == r.1.value.adapter)
    decreases |keys|
  {
    if |keys| == 0 then (bestValue, call)
    else
      var key := keys[0];
      var next :=
        if h.assignableFrom(key.viewType, viewType) then
          var isBetterView := bestValue.None? || h.assignableFrom(bestValue.value, key.valueType);
          if IsBetterParameter(h, conv, valueType, key.valueType, bestValue, isBetterView)
          then (Some(key.valueType), Some(AdapterSetter(adapters[key])))
          else (bestValue, call)
        else (bestValue, call);
      assert forall x :: x in keys <==> x == key || x in keys[1..];
      ScanAdapters(h, conv, adapters, keys[1..], viewType, valueType, next.0, next.1)
  }

  /** `getSetterCall(attribute, viewType, valueType)`: the namespace is stripped; the best view
      setter is found, then any adapter registered for the attribute may replace it; the converter
      from the value type to the chosen parameter type is installed. With no view type, or when
      nothing takes the value, the conventional setter name is used. The newer store also casts
      an `Object` value to a nullable parameter type; `isNullable` is the host's answer. */
  function GetSetterCall(h: Host, v: Version, methods: MethodLookup, isNullable: TypeRef -> bool, s: Store,
                         attribute: string, viewType: Option<TypeRef>, valueType: TypeRef): (r: SetterCall)
    ensures var a := StripNamespace(attribute);
      && (r.target.DummySetter? <==>
            || viewType.None?
            || (&& GetBestSetter(h, s.conversionMethods, v, methods, s, viewType.value, valueType, a).None?
                && forall k :: Get2(s.adapterMethods, a, k).Some? && h.assignableFrom(k.viewType, viewType.value)
                               ==> !Acceptable(h, s.conversionMethods, valueType, k.valueType)))
      && (r.target.DummySetter? ==> r.target.methodName == DefaultSetterName(a) && r.converter.None? && r.castString == "")
      && (r.target.AdapterSetter? ==> exists k :: Get2(s.adapterMethods, a, k) == Some(r.target.adapter)
                                               && h.assignableFrom(k.viewType, viewType.value))
      && (r.target.ModelMethodSetter? ==> exists m :: FromNames(v, methods, viewType.value, SetterCandidates(h, s, a, viewType.value), m)
                                                     && r.target.methodName == m.name)
      && (r.castString != "" ==> v == Newer && h.isObject(valueType))
  {
    SetterCallOf(h, v, methods, isNullable, s, StripNamespace(attribute), viewType, valueType)
  }

  /** `getSetterCall` once the namespace is stripped. */
  function SetterCallOf(h: Host, v: Version, methods: MethodLookup, isNullable: TypeRef -> bool, s: Store,
                        a: string, viewType: Option<TypeRef>, valueType: TypeRef): (r: SetterCall)
    ensures r.target.DummySetter? <==>
            || viewType.None?
            || (&& GetBestSetter(h, s.conversionMethods, v, methods, s, viewType.value, valueType, a).None?
                && forall k :: Get2(s.adapterMethods, a, k).Some? && h.assignableFrom(k.viewType, viewType.value)
                               ==> !Acceptable(h, s.conversionMethods, valueType, k.valueType))
    ensures r.target.DummySetter? ==> r.target.methodName == DefaultSetterName(a) && r.converter.None? && r.castString == ""
    ensures r.target.AdapterSetter? ==> exists k :: Get2(s.adapterMethods, a, k) == Some(r.target.adapter)
                                                && h.assignableFrom(k.viewType, viewType.value)
    ensures r.target.ModelMethodSetter? ==> exists m :: FromNames(v, methods, viewType.value, SetterCandidates(h, s, a, viewType.value), m)
                                                      && r.target.methodName == m.name
    ensures r.castString != "" ==> v == Newer && h.isObject(valueType)
  {
    if viewType.None? then SetterCall(DummySetter(DefaultSetterName(a)), None, "")
    else
      var view := viewType.value;
      var conv := s.conversionMethods;
      var best := GetBestSetter(h, conv, v, methods, s, view, valueType, a);
      var adapters := if a in s.adapterMethods then s.adapterMethods[a] else map[];
      var keys := SortedKeys(adapters.Keys);
      var found := ScanAdapters(h, conv, adapters, keys, view, valueType,
                                if best.Some? then Some(best.value.parameterType) else None,
                                if best.Some? then Some(ModelMethodSetter(best.value.name, best.value.minApi)) else None);
      assert forall k :: Get2(s.adapterMethods, a, k).Some? <==> k in keys;
      if found.1.None? then SetterCall(DummySetter(DefaultSetterName(a)), None, "")
      else
        var bestValue := found.0.value;
        var conversion := GetConversionMethod(h, conv, Some(valueType), Some(bestValue));
        var cast := if v == Newer && h.isObject(valueType) && isNullable(bestValue) then CastString(bestValue) else "";
        SetterCall(found.1.value, conversion, cast)
  }

  /** Looking an attribute up under any namespace but `android` finds the same setter as looking
      up its bare name. */
  lemma SetterCallIgnoresNamespace(h: Host, v: Version, methods: MethodLookup, isNullable: TypeRef -> bool, s: Store,
                                   ns: string, name: string, viewType: Option<TypeRef>, valueType: TypeRef)
    requires ':' !in ns && ns != "android" && ':' !in name
    ensures GetSetterCall(h, v, methods, isNullable, s, Qualify(ns, name), viewType, valueType)
         == GetSetterCall(h, v, methods, isNullable, s, name, viewType, valueType)
  {
    StripNamespaceOfQualified(ns, name);
    assert StripNamespace(Qualify(ns, name)) == StripNamespace(name);
  }
}

=== FILE: setter_calls.dfy ===
/** The single-value setter calls `getSetterCall` returns (`DummySetter`, `AdapterSetter`,
    `ModelMethodSetter`) and the Java source text they render. */
module SetterCalls {
  import opened Wrappers
  import opened JavaStrings
  import opened TypeModel
  import opened Keys

  /** A call of the static method `m` on the argument list `args`: `Type.method(args)`. */
  function StaticCall(m: MethodDescription, args: string): string {
    m.declaringType + "." + m.methodName + "(" + args + ")"
  }

  /** What a single-value setter invokes:
      - `DummySetter`: a method of the view chosen by naming convention alone;
      - `AdapterSetter`: a static binding adapter taking the view and the value;
      - `ModelMethodSetter`: a setter method the view's class declares, with the API level it
        needs. */
  datatype Target =
    | DummySetter(methodName: string)
    | AdapterSetter(adapter: MethodDescription)
    | ModelMethodSetter(methodName: string, minApi: nat)

  /** A setter with the converter `setConverter` installed (absent for `null`) and the cast text
      `setCast` installed (empty until set; the older store has no casts). */
  datatype SetterCall = SetterCall(target: Target, converter: Option<MethodDescription>, castString: string)

  /** `setCast(castTo)`: the text `(T) ` put in front of the value. */
  function CastString(castTo: TypeRef): (r: string)
    ensures |r| == |castTo| + 3 && r[0] == '(' && r[|r| - 2..] == ") "
  {
    "(" + castTo + ") "
  }

  /** `convertValue`: the value expression passed through the converter, when there is one. */
  function ConvertValue(converter: Option<MethodDescription>, valueExpression: string): (r: string)
    ensures converter.None? ==> r == valueExpression
    ensures converter.Some? ==> Unwrap(r, converter.value.declaringType + "." + converter.value.methodName + "(", ")") == Some(valueExpression)
  {
    if converter.None? then valueExpression
    else
      var pre := converter.value.declaringType + "." + converter.value.methodName + "(";
      UnwrapWrapped(pre, valueExpression, ")");
      StaticCall(converter.value, valueExpression)
  }

  /** `toJavaInternal`: the call on the view expression and the converted value. */
  function ToJavaInternal(target: Target, castString: string, viewExpression: string, converted: string): string {
    match target
    case DummySetter(name) => viewExpression + "." + name + "(" + converted + ")"
    case AdapterSetter(adapter) => StaticCall(adapter, viewExpression + ", " + castString + converted)
    case ModelMethodSetter(name, _) => viewExpression + "." + name + "(" + castString + converted + ")"
  }

  /** Why `toJava` rejected its arguments. */
  datatype RenderError = WrongValueCount(expected: nat, received: nat)

  /** `toJava(view, values...)`: exactly one value expression is accepted (`checkArgument`); it
      is converted, then handed to the target. */
  function ToJava(call: SetterCall, viewExpression: string, valueExpressions: seq<string>): (r: Result<string, RenderError>)
    ensures r.Failure? <==> |valueExpressions| != 1
    ensures r.Failure? ==> r.error == WrongValueCount(1, |valueExpressions|)
  {
    if |valueExpressions| != 1 then Failure(WrongValueCount(1, |valueExpressions|))
    else Success(ToJavaInternal(call.target, call.castString, viewExpression,
                                ConvertValue(call.converter, valueExpressions[0])))
  }

  /** `getMinApi`: convention and adapter setters work on every API level; a model method needs
      its own. */
  function MinApi(call: SetterCall): (r: nat)
    ensures !call.target.ModelMethodSetter? ==> r == 1
  {
    match call.target
    case ModelMethodSetter(_, api) => api
    case _ => 1
  }

  // ---------------------------------------------------------------------------------------
  // Reading a value expression back out of the rendered call

  /** `s` without the prefix `pre` and the suffix `suf`, when it has both without overlap. */
  function Unwrap(s: string, pre: string, suf: string): Option<string> {
    if |pre| + |suf| <= |s| && s[..|pre|] == pre && s[|s| - |suf|..] == suf
    then Some(s[|pre|..|s| - |suf|])
    else None
  }

  lemma UnwrapWrapped(pre: string, x: string, suf: string)
    ensures Unwrap(pre + x + suf, pre, suf) == Some(x)
  {
    var s := pre + x + suf;
    assert s[..|pre|] == pre;
    assert s[|s| - |suf|..] == suf;
    assert s[|pre|..|s| - |suf|] == x;
  }

  /** The text around the converted value in a rendered call. */
  function CallPrefix(call: SetterCall, viewExpression: string): string {
    match call.target
    case DummySetter(name) => viewExpression + "." + name + "("
    case AdapterSetter(a) => a.declaringType + "." + a.methodName + "(" + viewExpression + ", " + call.castString
    case ModelMethodSetter(name, _) => viewExpression + "." + name + "(" + call.castString
  }

  /** The value expression a rendered call was made from, given the setter and view expression. */
  function ValueOf(call: SetterCall, viewExpression: string, text: string): Option<string> {
    match Unwrap(text, CallPrefix(call, viewExpression), ")")
    case None => None
    case Some(converted) =>
      if call.converter.None? then Some(converted)
      else Unwrap(converted, call.converter.value.declaringType + "." + call.converter.value.methodName + "(", ")")
  }

  /** Every rendered call is the value expression, converted, between a prefix fixed by the setter
      and view expression and a closing parenthesis. */
  lemma ToJavaShape(call: SetterCall, viewExpression: string, value: string)
    ensures ToJava(call, viewExpression, [value]).value
         == CallPrefix(call, viewExpression) + ConvertValue(call.converter, value) + ")"
  {
  }

  /** The value expression can be read back from the rendered call: rendering loses nothing, so
      different values give different calls. */
  lemma ToJavaRoundTrip(call: SetterCall, viewExpression: string, value: string)
    ensures ValueOf(call, viewExpression, ToJava(call, viewExpression, [value]).value) == Some(value)
  {
    ToJavaShape(call, viewExpression, value);
    UnwrapWrapped(CallPrefix(call, viewExpression), ConvertValue(call.converter, value), ")");
  }

  lemma ToJavaInjective(call: SetterCall, viewExpression: string, v1: string, v2: string)
    requires ToJava(call, viewExpression, [v1]) == ToJava(call, viewExpression, [v2])
    ensures v1 == v2
  {
    ToJavaRoundTrip(call, viewExpression, v1);
    ToJavaRoundTrip(call, viewExpression, v2);
  }

  /** An adapter setter without converter or cast calls the adapter on the view and the value,
      and a convention setter calls the named method of the view on the value. */
  lemma PlainCalls(adapter: MethodDescription, name: string, viewExpression: string, value: string)
    ensures ToJava(SetterCall(AdapterSetter(adapter), None, ""), viewExpression, [value])
         == Success(StaticCall(adapter, viewExpression + ", " + value))
    ensures ToJava(SetterCall(DummySetter(name), None, ""), viewExpression, [value])
         == Success(viewExpression + "." + name + "(" + value + ")")
  {
    assert viewExpression + ", " + "" + value == viewExpression + ", " + value;
  }
}

=== FILE: store.dfy ===
/** The setter store's tables (`IntermediateV1`) and the operations that fill, invalidate and
    merge them. Both store versions are covered: the newer one strips the attribute namespace on
    registration and has the multi-attribute table; the older one does neither. */
module Registry {
  import opened Wrappers
  import opened TypeModel
  import opened AttributeNames
  import opened Elements
  import opened Keys
  import opened MultiTable

  /** `IntermediateV1`: the serialisable tables.
      - `adapterMethods`: attribute -> (view type, value type) -> adapter;
      - `renamedMethods`: attribute -> declaring view class -> setter;
      - `conversionMethods`: from type -> to type -> converter;
      - `untaggableTypes`: view type -> class that declared it untaggable;
      - `multiValueAdapters`: a `HashMap` whose keys have a hand-written equality, kept as its
        entries in insertion order. */
  datatype Store = Store(
    adapterMethods: map<string, map<AccessorKey, MethodDescription>>,
    renamedMethods: map<string, map<string, MethodDescription>>,
    conversionMethods: map<TypeRef, map<TypeRef, MethodDescription>>,
    untaggableTypes: map<TypeRef, string>,
    multiValueAdapters: seq<MultiEntry>)

  const EmptyStore: Store := Store(map[], map[], map[], map[], [])

  /** Which of the two store versions an operation follows. */
  datatype Version = Older | Newer

  /** The table key an attribute is registered under: the newer store strips the namespace. */
  function AttributeKey(v: Version, attribute: string): string {
    if v == Newer then StripNamespace(attribute) else attribute
  }

  // ---------------------------------------------------------------------------------------
  // Nested tables

  /** `outer.get(k).get(k2)`, absent when either level is missing. */
  function Get2<K, K2, V>(m: map<K, map<K2, V>>, k: K, k2: K2): Option<V> {
    if k in m && k2 in m[k] then Some(m[k][k2]) else None
  }

  /** Creating the inner map on demand, then `put(k2, v)` in it. */
  function Put2<K(!new), K2(!new), V>(m: map<K, map<K2, V>>, k: K, k2: K2, v: V): (r: map<K, map<K2, V>>)
    ensures r.Keys == m.Keys + {k}
    ensures Get2(r, k, k2) == Some(v)
    ensures forall x, y :: (x != k || y != k2) ==> Get2(r, x, y) == Get2(m, x, y)
  {
    m[k := (if k in m then m[k] else map[])[k2 := v]]
  }

  /** A second `put` under the same pair replaces the first. */
  lemma {:induction false} Put2LastWins<K(!new), K2(!new), V>(m: map<K, map<K2, V>>, k: K, k2: K2, v1: V, v2: V)
    ensures Put2(Put2(m, k, k2, v1), k, k2, v2) == Put2(m, k, k2, v2)
  {
    var a, b := Put2(Put2(m, k, k2, v1), k, k2, v2), Put2(m, k, k2, v2);
    assert a.Keys == b.Keys;
    forall x | x in a.Keys ensures a[x] == b[x] {
      forall y ensures (y in a[x]) == (y in b[x]) && (y in a[x] ==> a[x][y] == b[x][y]) {
        assert Get2(a, x, y) == Get2(b, x, y);
      }
    }
  }

  // ---------------------------------------------------------------------------------------
  // Registration

  /** Why a registration was refused. */
  datatype StoreError =
    | DuplicateAdapter(attribute: string, key: AccessorKey)
    | MalformedMultiKey(error: KeyError)

  /** The attribute's adapter table holds a key equal, by `SameAccessor`, to `key`. */
  predicate HasAdapter(s: Store, attribute: string, key: AccessorKey) {
    attribute in s.adapterMethods && exists k :: k in s.adapterMethods[attribute] && SameAccessor(k, key)
  }

  /** `addBindingAdapter(attribute, method)`: the adapter's first two parameters are the view and
      value types; a key already present for the attribute is refused ("Already exists!"). */
  function AddBindingAdapter(s: Store, v: Version, attribute: string, decl: Element): (r: Result<Store, StoreError>)
    requires |decl.parameterTypes| >= 2
    ensures var a := AttributeKey(v, attribute);
      var key := AccessorKey(decl.parameterTypes[0], decl.parameterTypes[1]);
      && (r.Failure? <==> HasAdapter(s, a, key))
      && (r.Failure? ==> r.error == DuplicateAdapter(a, key))
      && (r.Success? ==>
            && Get2(r.value.adapterMethods, a, key) == Some(DescribeMethod(decl))
            && (forall x, y :: (x != a || y != key) ==>
                  Get2(r.value.adapterMethods, x, y) == Get2(s.adapterMethods, x, y))
            && r.value.(adapterMethods := s.adapterMethods) == s)
  {
    var a := AttributeKey(v, attribute);
    var key := AccessorKey(decl.parameterTypes[0], decl.parameterTypes[1]);
    if HasAdapter(s, a, key) then Failure(DuplicateAdapter(a, key))
    else Success(s.(adapterMethods := Put2(s.adapterMethods, a, key, DescribeMethod(decl))))
  }

  /** Registering the same attribute, view type and value type a second time is refused, whatever
      the second method is. */
  lemma SecondAdapterForSameKeyRefused(s: Store, v: Version, attribute: string, first: Element, second: Element)
    requires |first.parameterTypes| >= 2 && |second.parameterTypes| >= 2
    requires first.parameterTypes[..2] == second.parameterTypes[..2]
    requires AddBindingAdapter(s, v, attribute, first).Success?
    ensures AddBindingAdapter(AddBindingAdapter(s, v, attribute, first).value, v, attribute, second).Failure?
  {
    var key := AccessorKey(first.parameterTypes[0], first.parameterTypes[1]);
    assert first.parameterTypes[0] == first.parameterTypes[..2][0] == second.parameterTypes[0];
    assert first.parameterTypes[1] == first.parameterTypes[..2][1] == second.parameterTypes[1];
    var s1 := AddBindingAdapter(s, v, attribute, first).value;
    var a := AttributeKey(v, attribute);
    assert Get2(s1.adapterMethods, a, key).Some?;
    assert SameAccessor(key, key);
  }

  /** Under structural key equality, a key is present exactly when its own entry is. */
  lemma HasAdapterIffPresent(s: Store, attribute: string, key: AccessorKey)
    ensures HasAdapter(s, attribute, key) <==> Get2(s.adapterMethods, attribute, key).Some?
  {
    if Get2(s.adapterMethods, attribute, key).Some? {
      assert key in s.adapterMethods[attribute] && SameAccessor(key, key);
    }
  }

  /** `put`s under different key pairs commute. */
  lemma {:induction false} Put2Commute<K(!new), K2(!new), V>(m: map<K, map<K2, V>>, k1: K, j1: K2, v1: V, k2: K, j2: K2, v2: V)
    requires k1 != k2 || j1 != j2
    ensures Put2(Put2(m, k1, j1, v1), k2, j2, v2) == Put2(Put2(m, k2, j2, v2), k1, j1, v1)
  {
    var a, b := Put2(Put2(m, k1, j1, v1), k2, j2, v2), Put2(Put2(m, k2, j2, v2), k1, j1, v1);
    assert a.Keys == b.Keys;
    forall x | x in a.Keys ensures a[x] == b[x] {
      forall y ensures (y in a[x]) == (y in b[x]) && (y in a[x] ==> a[x][y] == b[x][y]) {
        assert Get2(a, x, y) == Get2(b, x, y);
      }
    }
  }

  /** Adapters for different keys can be registered in either order. */
  lemma AdaptersCommute(s: Store, v: Version, attribute1: string, d1: Element, attribute2: string, d2: Element)
    requires |d1.parameterTypes| >= 2 && |d2.parameterTypes| >= 2
    requires AttributeKey(v, attribute1) != AttributeKey(v, attribute2) || d1.parameterTypes[..2] != d2.parameterTypes[..2]
    requires AddBindingAdapter(s, v, attribute1, d1).Success?
    requires AddBindingAdapter(AddBindingAdapter(s, v, attribute1, d1).value, v, attribute2, d2).Success?
    ensures AddBindingAdapter(s, v, attribute2, d2).Success?
    ensures AddBindingAdapter(AddBindingAdapter(s, v, attribute2, d2).value, v, attribute1, d1).Success?
    ensures AddBindingAdapter(AddBindingAdapter(s, v, attribute2, d2).value, v, attribute1, d1).value
         == AddBindingAdapter(AddBindingAdapter(s, v, attribute1, d1).value, v, attribute2, d2).value
  {
    var a1, a2 := AttributeKey(v, attribute1), AttributeKey(v, attribute2);
    var k1 := AccessorKey(d1.parameterTypes[0], d1.parameterTypes[1]);
    var k2 := AccessorKey(d2.parameterTypes[0], d2.parameterTypes[1]);
    assert d1.parameterTypes[..2] == [k1.viewType, k1.valueType];
    assert d2.parameterTypes[..2] == [k2.viewType, k2.valueType];
    assert a1 != a2 || k1 != k2;
    var s1 := AddBindingAdapter(s, v, attribute1, d1).value;
    var s2 := AddBindingAdapter(s, v, attribute2, d2).value;
    HasAdapterIffPresent(s, a1, k1);
    HasAdapterIffPresent(s, a2, k2);
    HasAdapterIffPresent(s1, a2, k2);
    HasAdapterIffPresent(s2, a1, k1);
    assert Get2(s1.adapterMethods, a2, k2) == Get2(s.adapterMethods, a2, k2);
    assert Get2(s2.adapterMethods, a1, k1) == Get2(s.adapterMethods, a1, k1);
    Put2Commute(s.adapterMethods, a1, k1, DescribeMethod(d1), a2, k2, DescribeMethod(d2));
  }

  /** `addRenamedMethod`: the setter `methodName` of views of `declaringClass` (declared on
      `declaredOn`) replaces any earlier one for the same attribute and class. */
  function AddRenamedMethod(s: Store, v: Version, attribute: string, declaringClass: string,
                            methodName: string, declaredOn: string): (r: Store)
    ensures Get2(r.renamedMethods, AttributeKey(v, attribute), declaringClass)
         == Some(MethodDescription(declaredOn, methodName))
    ensures forall x, y :: (x != AttributeKey(v, attribute) || y != declaringClass) ==>
      Get2(r.renamedMethods, x, y) == Get2(s.renamedMethods, x, y)
    ensures r.(renamedMethods := s.renamedMethods) == s
  {
    s.(renamedMethods := Put2(s.renamedMethods, AttributeKey(v, attribute), declaringClass,
                              MethodDescription(declaredOn, methodName)))
  }

  /** A renamed setter registered later for the same attribute and class wins. */
  lemma RenamedMethodLastWins(s: Store, v: Version, attribute: string, declaringClass: string,
                              m1: string, o1: string, m2: string, o2: string)
    ensures AddRenamedMethod(AddRenamedMethod(s, v, attribute, declaringClass, m1, o1), v, attribute, declaringClass, m2, o2)
         == AddRenamedMethod(s, v, attribute, declaringClass, m2, o2)
  {
    Put2LastWins(s.renamedMethods, AttributeKey(v, attribute), declaringClass,
                 MethodDescription(o1, m1), MethodDescription(o2, m2));
  }

  /** `addConversionMethod`: the converter from its parameter type to its return type replaces
      any earlier one for the same pair. */
  function AddConversionMethod(s: Store, decl: Element): (r: Store)
    requires |decl.parameterTypes| >= 1
    ensures Get2(r.conversionMethods, decl.parameterTypes[0], decl.returnType) == Some(DescribeMethod(decl))
    ensures forall x, y :: (x != decl.parameterTypes[0] || y != decl.returnType) ==>
      Get2(r.conversionMethods, x, y) == Get2(s.conversionMethods, x, y)
    ensures r.(conversionMethods := s.conversionMethods) == s
  {
    s.(conversionMethods := Put2(s.conversionMethods, decl.parameterTypes[0], decl.returnType, DescribeMethod(decl)))
  }

  /** A converter registered later for the same pair of types wins. */
  lemma ConversionLastWins(s: Store, d1: Element, d2: Element)
    requires |d1.parameterTypes| >= 1 && |d2.parameterTypes| >= 1
    requires d1.parameterTypes[0] == d2.parameterTypes[0] && d1.returnType == d2.returnType
    ensures AddConversionMethod(AddConversionMethod(s, d1), d2) == AddConversionMethod(s, d2)
  {
    Put2LastWins(s.conversionMethods, d1.parameterTypes[0], d1.returnType, DescribeMethod(d1), DescribeMethod(d2));
  }

  /** `addUntaggableTypes`: every named type becomes untaggable, declared by `declaredOn`. */
  function AddUntaggableTypes(s: Store, typeNames: seq<TypeRef>, declaredOn: string): (r: Store)
    ensures r.untaggableTypes.Keys == s.untaggableTypes.Keys + set t | t in typeNames
    ensures forall t :: t in r.untaggableTypes ==>
      r.untaggableTypes[t] == if t in typeNames then declaredOn else s.untaggableTypes[t]
    ensures r.(untaggableTypes := s.untaggableTypes) == s
    decreases |typeNames|
  {
    if |typeNames| == 0 then s
    else AddUntaggableTypes(s.(untaggableTypes := s.untaggableTypes[typeNames[0] := declaredOn]), typeNames[1..], declaredOn)
  }

  /** `isUntaggable`. */
  predicate IsUntaggable(s: Store, viewType: TypeRef) {
    viewType in s.untaggableTypes
  }

  /** After `addUntaggableTypes`, exactly the earlier untaggable types and the named ones are
      untaggable. */
  lemma UntaggableAfterAdd(s: Store, typeNames: seq<TypeRef>, declaredOn: string, t: TypeRef)
    ensures IsUntaggable(AddUntaggableTypes(s, typeNames, declaredOn), t) <==> IsUntaggable(s, t) || t in typeNames
  {
  }

  /** `addBindingAdapter(String[] attributes, method)` of the newer store: the key is built from
      the declaration and stored with `put`, so a later adapter with an equal key replaces an
      earlier one rather than being refused. A declaration with old and new values cannot be
      keyed. */
  function AddMultiBindingAdapter(s: Store, attributes: seq<string>, decl: Element): (r: Result<Store, StoreError>)
    requires |attributes| >= 1
    requires |decl.parameterTypes| == |attributes| + 1 || |decl.parameterTypes| == 2 * |attributes| + 1
    requires ValidMultiTable(s.multiValueAdapters)
    ensures r.Success? <==> |decl.parameterTypes| == |attributes| + 1
    ensures r.Failure? ==> r.error == MalformedMultiKey(OldValueParametersUnsupported(|decl.parameterTypes|, |attributes|))
    ensures r.Success? ==>
      && ValidMultiTable(r.value.multiValueAdapters)
      && r.value.multiValueAdapters == PutMulti(s.multiValueAdapters, MakeMultiKey(decl, attributes).value, DescribeMethod(decl))
      && r.value.(multiValueAdapters := s.multiValueAdapters) == s
  {
    match MakeMultiKey(decl, attributes)
    case Failure(e) => Failure(MalformedMultiKey(e))
    case Success(key) => Success(s.(multiValueAdapters := PutMulti(s.multiValueAdapters, key, DescribeMethod(decl))))
  }

  /** A multi-attribute adapter with the same view, attributes and parameter types, listed in any
      order, replaces the one registered before it. */
  lemma MultiAdapterLastWins(s: Store, attributes: seq<string>, d1: Element, d2: Element)
    requires |attributes| >= 1 && Distinct(StripAttributes(attributes))
    requires |d1.parameterTypes| == |attributes| + 1 && d2.parameterTypes == d1.parameterTypes
    requires ValidMultiTable(s.multiValueAdapters)
    ensures var s1 := AddMultiBindingAdapter(s, attributes, d1).value;
      AddMultiBindingAdapter(s1, attributes, d2).value == AddMultiBindingAdapter(s, attributes, d2).value
  {
    var key := MakeMultiKey(d1, attributes).value;
    assert key == MakeMultiKey(d2, attributes).value;
    assert key.attributes == StripAttributes(attributes);
    PutMultiLastWins(s.multiValueAdapters, key, DescribeMethod(d1), DescribeMethod(d2));
  }

  // ---------------------------------------------------------------------------------------
  // Incremental invalidation

  /** The entry is present and declared by a class in `classes`. */
  predicate Owned(entry: Option<MethodDescription>, classes: set<string>) {
    entry.Some? && entry.value.declaringType in classes
  }

  /** One nested table with every method owned by a class in `classes` removed; outer keys stay,
      even when their inner table becomes empty. */
  function ClearTable<K(!new), K2(!new)>(m: map<K, map<K2, MethodDescription>>, classes: set<string>): (r: map<K, map<K2, MethodDescription>>)
    ensures r.Keys == m.Keys
    ensures forall k, k2 :: Get2(r, k, k2) == if Owned(Get2(m, k, k2), classes) then None else Get2(m, k, k2)
  {
    map k | k in m :: map k2 | k2 in m[k] && m[k][k2].declaringType !in classes :: m[k][k2]
  }

  /** `clear(classes)` as both stores write it: the adapter, renamed-setter and conversion tables
      lose the methods declared by a class in `classes`, and the untaggable table loses the types
      such a class declared. The multi-attribute table is left as it is. */
  function Clear(s: Store, classes: set<string>): (r: Store)
    ensures r.multiValueAdapters == s.multiValueAdapters
    ensures r.untaggableTypes.Keys == set t | t in s.untaggableTypes && s.untaggableTypes[t] !in classes
    ensures forall t :: t in r.untaggableTypes ==> r.untaggableTypes[t] == s.untaggableTypes[t]
  {
    Store(
      ClearTable(s.adapterMethods, classes),
      ClearTable(s.renamedMethods, classes),
      ClearTable(s.conversionMethods, classes),
      map t | t in s.untaggableTypes && s.untaggableTypes[t] !in classes :: s.untaggableTypes[t],
      s.multiValueAdapters)
  }

  /** Every registration that survives `clear` is owned by a class outside `classes`, except in
      the multi-attribute table. */
  lemma ClearRemovesOwned(s: Store, classes: set<string>)
    ensures forall a, k :: Get2(Clear(s, classes).adapterMethods, a, k).Some? ==>
      Get2(Clear(s, classes).adapterMethods, a, k) == Get2(s.adapterMethods, a, k)
      && Get2(s.adapterMethods, a, k).value.declaringType !in classes
    ensures forall a, c :: Get2(Clear(s, classes).renamedMethods, a, c).Some? ==>
      Get2(s.renamedMethods, a, c).value.declaringType !in classes
    ensures forall f, t :: Get2(Clear(s, classes).conversionMethods, f, t).Some? ==>
      Get2(s.conversionMethods, f, t).value.declaringType !in classes
    ensures forall t :: t in Clear(s, classes).untaggableTypes ==> Clear(s, classes).untaggableTypes[t] !in classes
  {
  }

  /** Clearing twice with the same classes changes nothing more; clearing with no classes
      changes nothing; two clears are one clear with the union of their classes. */
  lemma ClearAlgebra(s: Store, c1: set<string>, c2: set<string>)
    ensures Clear(s, {}) == s
    ensures Clear(Clear(s, c1), c1) == Clear(s, c1)
    ensures Clear(Clear(s, c1), c2) == Clear(s, c1 + c2)
  {
    ClearTableAlgebra(s.adapterMethods, c1, c2);
    ClearTableAlgebra(s.renamedMethods, c1, c2);
    ClearTableAlgebra(s.conversionMethods, c1, c2);
    ClearTableAlgebra(s.adapterMethods, c1, c1);
    ClearTableAlgebra(s.renamedMethods, c1, c1);
    ClearTableAlgebra(s.conversionMethods, c1, c1);
    assert c1 + c1 == c1;
    assert Clear(s, {}).untaggableTypes == s.untaggableTypes;
    assert Clear(Clear(s, c1), c2).untaggableTypes == Clear(s, c1 + c2).untaggableTypes;
  }

  lemma ClearTableAlgebra<K(!new), K2(!new)>(m: map<K, map<K2, MethodDescription>>, c1: set<string>, c2: set<string>)
    ensures ClearTable(m, {}) == m
    ensures ClearTable(ClearTable(m, c1), c2) == ClearTable(m, c1 + c2)
  {
    var e := ClearTable(m, {});
    forall k | k in m ensures e[k] == m[k] {
      forall k2 ensures (k2 in e[k]) == (k2 in m[k]) && (k2 in e[k] ==> e[k][k2] == m[k][k2]) {
        assert Get2(e, k, k2) == Get2(m, k, k2);
      }
    }
    var a, b := ClearTable(ClearTable(m, c1), c2), ClearTable(m, c1 + c2);
    forall k | k in m ensures a[k] == b[k] {
      forall k2 ensures (k2 in a[k]) == (k2 in b[k]) && (k2 in a[k] ==> a[k][k2] == b[k][k2]) {
        assert Get2(a, k, k2) == Get2(b, k, k2);
      }
    }
  }

  /** A multi-attribute adapter declared by a class being recompiled survives `clear`. */
  lemma ClearKeepsStaleMultiAdapter(key: MultiValueAdapterKey, owner: string)
    ensures var s := EmptyStore.(multiValueAdapters := [MultiEntry(key, MethodDescription(owner, "setBoth"))]);
      Clear(s, {owner}).multiValueAdapters == s.multiValueAdapters
      && Clear(s, {owner}).multiValueAdapters[0].adapter.declaringType in {owner}
  {
  }

  /** `clear` as evidently intended: the multi-attribute table also loses the adapters owned by a
      class in `classes`, keeping the order of the rest. This is the definition the round model
      uses. */
  function ClearAll(s: Store, classes: set<string>): (r: Store)
    ensures r.(multiValueAdapters := s.multiValueAdapters) == Clear(s, classes)
    ensures forall i :: 0 <= i < |r.multiValueAdapters| ==> r.multiValueAdapters[i].adapter.declaringType !in classes
    ensures forall e :: e in r.multiValueAdapters <==> e in s.multiValueAdapters && e.adapter.declaringType !in classes
    ensures ValidMultiTable(s.multiValueAdapters) ==> ValidMultiTable(r.multiValueAdapters)
  {
    FilterOwnedValid(s.multiValueAdapters, classes);
    Clear(s, classes).(multiValueAdapters := FilterOwned(s.multiValueAdapters, classes))
  }

  // ---------------------------------------------------------------------------------------
  // Merging snapshots

  /** The nested-table `merge`: a key pair already in `first` keeps `first`'s method; pairs only
      in `second` are added. */
  function MergeTables<K(!new), K2(!new)>(first: map<K, map<K2, MethodDescription>>, second: map<K, map<K2, MethodDescription>>)
    : (r: map<K, map<K2, MethodDescription>>)
    ensures r.Keys == first.Keys + second.Keys
    ensures forall k, k2 :: Get2(r, k, k2) == if Get2(first, k, k2).Some? then Get2(first, k, k2) else Get2(second, k, k2)
  {
    map k | k in first.Keys + second.Keys ::
      if k !in first then second[k]
      else if k !in second then first[k]
      else second[k] + first[k]
  }

  ghost predicate ValidStore(s: Store) {
    ValidMultiTable(s.multiValueAdapters)
  }

  /** `merge(store, intermediate)`: the three nested tables keep what was loaded first, the
      untaggable and multi-attribute tables take what is loaded later. */
  function Merge(store: Store, snapshot: Store): (r: Store)
    requires ValidStore(store) && ValidStore(snapshot)
    ensures ValidStore(r)
    ensures forall t :: t in r.untaggableTypes <==> t in store.untaggableTypes || t in snapshot.untaggableTypes
    ensures forall t :: t in snapshot.untaggableTypes ==> r.untaggableTypes[t] == snapshot.untaggableTypes[t]
  {
    assert WellFormedKeys(KeysOf(snapshot.multiValueAdapters));
    Store(
      MergeTables(store.adapterMethods, snapshot.adapterMethods),
      MergeTables(store.renamedMethods, snapshot.renamedMethods),
      MergeTables(store.conversionMethods, snapshot.conversionMethods),
      store.untaggableTypes + snapshot.untaggableTypes,
      PutAllMulti(store.multiValueAdapters, snapshot.multiValueAdapters))
  }

  /** Merging a snapshot into the empty store reproduces its nested and untaggable tables, and
      merging a snapshot into a store that already holds it changes no nested table. */
  lemma MergeNestedIdentities<K(!new), K2(!new)>(m: map<K, map<K2, MethodDescription>>)
    ensures MergeTables(map[], m) == m
    ensures MergeTables(m, m) == m
  {
    var a, b := MergeTables(map[], m), MergeTables(m, m);
    forall k | k in m ensures a[k] == m[k] && b[k] == m[k] {
      forall k2 ensures (k2 in a[k]) == (k2 in m[k]) && (k2 in a[k] ==> a[k][k2] == m[k][k2]) {
        assert Get2(a, k, k2) == Get2(m, k, k2);
      }
      forall k2 ensures (k2 in b[k]) == (k2 in m[k]) && (k2 in b[k] ==> b[k][k2] == m[k][k2]) {
        assert Get2(b, k, k2) == Get2(m, k, k2);
      }
    }
  }

  /** `load`: the snapshots merged, in the order they are found, into an empty store. */
  function Load(snapshots: seq<Store>): (r: Store)
    requires forall i :: 0 <= i < |snapshots| ==> ValidStore(snapshots[i])
    ensures ValidStore(r)
    decreases |snapshots|
  {
    if |snapshots| == 0 then EmptyStore
    else Merge(Load(snapshots[..|snapshots| - 1]), snapshots[|snapshots| - 1])
  }

  /** The adapter the first snapshot holding `(a, k)` registered for it. */
  function FirstAdapter(snapshots: seq<Store>, a: string, k: AccessorKey): Option<MethodDescription>
    decreases |snapshots|
  {
    if |snapshots| == 0 then None
    else if Get2(snapshots[0].adapterMethods, a, k).Some? then Get2(snapshots[0].adapterMethods, a, k)
    else FirstAdapter(snapshots[1..], a, k)
  }

  /** The untaggable declaration of the last snapshot naming `t`. */
  function LastUntaggable(snapshots: seq<Store>, t: TypeRef): Option<string>
    decreases |snapshots|
  {
    if |snapshots| == 0 then None
    else
      var last := snapshots[|snapshots| - 1];
      if t in last.untaggableTypes then Some(last.untaggableTypes[t])
      else LastUntaggable(snapshots[..|snapshots| - 1], t)
  }

  lemma {:induction false} FirstAdapterOfPrefix(snapshots: seq<Store>, a: string, k: AccessorKey)
    requires |snapshots| > 0
    ensures var n := |snapshots| - 1;
      FirstAdapter(snapshots, a, k) ==
        if FirstAdapter(snapshots[..n], a, k).Some? then FirstAdapter(snapshots[..n], a, k)
        else Get2(snapshots[n].adapterMethods, a, k)
    decreases |snapshots|
  {
    var n := |snapshots| - 1;
    if n > 0 {
      assert snapshots[1..][..n - 1] == snapshots[..n][1..];
      assert snapshots[1..][n - 1] == snapshots[n];
      FirstAdapterOfPrefix(snapshots[1..], a, k);
    }
  }

  /** After loading, a single-attribute adapter is the one registered by the first snapshot that
      has its key, whereas an untaggable type is attributed to the last snapshot naming it. */
  lemma {:induction false} LoadPrecedence(snapshots: seq<Store>, a: string, k: AccessorKey, t: TypeRef)
    requires forall i :: 0 <= i < |snapshots| ==> ValidStore(snapshots[i])
    ensures Get2(Load(snapshots).adapterMethods, a, k) == FirstAdapter(snapshots, a, k)
    ensures (t in Load(snapshots).untaggableTypes) == LastUntaggable(snapshots, t).Some?
    ensures t in Load(snapshots).untaggableTypes ==> Load(snapshots).untaggableTypes[t] == LastUntaggable(snapshots, t).value
    decreases |snapshots|
  {
    if |snapshots| > 0 {
      var n := |snapshots| - 1;
      LoadPrecedence(snapshots[..n], a, k, t);
      FirstAdapterOfPrefix(snapshots, a, k);
    }
  }
}

=== FILE: type_model.dfy ===
/** The host type system as the setter store sees it, and the primitive conversion rules of the
    older store (compiler/src/main/java/com/android/databinding/store/SetterStore.java). */
module TypeModel {
  import opened Wrappers

  /** A fully-qualified type name: a primitive (`int`), an array (`int[]`) or a declared class. */
  type TypeRef = string

  /** Which of `isBoolean`, `isByte`, `isChar`, ... a resolved class answers true to. */
  datatype PrimitiveKind =
    | BooleanKind | ByteKind | CharKind | ShortKind | IntKind | LongKind | FloatKind | DoubleKind
    | OtherKind

  /** Reflection over the host type system, supplied by the caller; a class is identified by its
      name, so `ModelClass.equals` is name equality.
      - `assignableFrom(a, b)`: `a.isAssignableFrom(b)`;
      - `isObject(t)`: `t` is `java.lang.Object`;
      - `box(t)`: the boxed class of a primitive, the class itself otherwise. */
  datatype Host = Host(
    assignableFrom: (TypeRef, TypeRef) -> bool,
    isPrimitive: TypeRef -> bool,
    kind: TypeRef -> PrimitiveKind,
    box: TypeRef -> TypeRef,
    isObject: TypeRef -> bool)

  /** The widening ladder, lowest first. */
  const Ladder: seq<PrimitiveKind> := [ByteKind, CharKind, ShortKind, IntKind, LongKind, FloatKind, DoubleKind]

  /** `getConversionLevel`: a type's rung on the widening ladder, -1 for null and for any type
      off the ladder. */
  function ConversionLevel(h: Host, t: Option<TypeRef>): (r: int)
    ensures -1 <= r < |Ladder|
    ensures 0 <= r ==> t.Some? && Ladder[r] == h.kind(t.value)
    ensures r == -1 <==> t.None? || h.kind(t.value) !in Ladder
  {
    if t.None? then -1
    else
      match h.kind(t.value)
      case ByteKind => 0
      case CharKind => 1
      case ShortKind => 2
      case IntKind => 3
      case LongKind => 4
      case FloatKind => 5
      case DoubleKind => 6
      case _ => -1
  }

  /** `isImplicitConversion` as the older store writes it: both sides primitive, neither boolean,
      the target not `char`, and the source strictly lower on the ladder. */
  predicate IsImplicitConversionAsWritten(h: Host, from: Option<TypeRef>, to: Option<TypeRef>) {
    if from.Some? && to.Some? && h.isPrimitive(from.value) && h.isPrimitive(to.value) then
      if h.kind(from.value) == BooleanKind || h.kind(to.value) == BooleanKind || h.kind(to.value) == CharKind
      then false
      else ConversionLevel(h, from) < ConversionLevel(h, to)
    else false
  }

  /** The widening primitive conversions of section 5.1.2 of the Java Language Specification. */
  predicate Widens(from: PrimitiveKind, to: PrimitiveKind) {
    match from
    case ByteKind => to in {ShortKind, IntKind, LongKind, FloatKind, DoubleKind}
    case ShortKind => to in {IntKind, LongKind, FloatKind, DoubleKind}
    case CharKind => to in {IntKind, LongKind, FloatKind, DoubleKind}
    case IntKind => to in {LongKind, FloatKind, DoubleKind}
    case LongKind => to in {FloatKind, DoubleKind}
    case FloatKind => to == DoubleKind
    case _ => false
  }

  /** Implicit conversion as the Java language allows it: a widening primitive conversion. This is
      the definition the rest of the model uses. */
  predicate IsImplicitConversion(h: Host, from: Option<TypeRef>, to: Option<TypeRef>) {
    from.Some? && to.Some? && h.isPrimitive(from.value) && h.isPrimitive(to.value)
    && Widens(h.kind(from.value), h.kind(to.value))
  }

  /** The as-written test follows the ladder exactly. */
  lemma ImplicitConversionAsWrittenFollowsLadder(h: Host, from: Option<TypeRef>, to: Option<TypeRef>)
    ensures IsImplicitConversionAsWritten(h, from, to) <==>
      && from.Some? && to.Some?
      && h.isPrimitive(from.value) && h.isPrimitive(to.value)
      && h.kind(from.value) != BooleanKind && h.kind(to.value) != BooleanKind
      && h.kind(to.value) != CharKind
      && ConversionLevel(h, from) < ConversionLevel(h, to)
  {
  }

  /** The ladder test accepts more than the language's widening conversions: `char` to `short`,
      which Java rejects as a lossy conversion, and any primitive off the ladder (such as `void`)
      to a type on it. Nothing else differs. */
  lemma {:induction false} ImplicitConversionCorrection(h: Host, from: Option<TypeRef>, to: Option<TypeRef>)
    ensures IsImplicitConversion(h, from, to) <==>
      IsImplicitConversionAsWritten(h, from, to)
      && !(h.kind(from.value) == CharKind && h.kind(to.value) == ShortKind)
      && h.kind(from.value) in Ladder
  {
    if from.Some? && to.Some? && h.isPrimitive(from.value) && h.isPrimitive(to.value) {
      var f, t := h.kind(from.value), h.kind(to.value);
      match f
      case ByteKind =>
      case CharKind =>
      case ShortKind =>
      case IntKind =>
      case LongKind =>
      case FloatKind =>
      case DoubleKind =>
      case BooleanKind =>
      case OtherKind =>
    }
  }

  /** A host whose only primitives are `char` and `short`, assignable only to themselves. */
  function CharShortHost(): Host {
    Host((a, b) => a == b,
         t => t == "char" || t == "short",
         t => if t == "char" then CharKind else if t == "short" then ShortKind else OtherKind,
         t => if t == "char" then "java.lang.Character" else if t == "short" then "java.lang.Short" else t,
         t => t == "java.lang.Object")
  }

  /** The as-written ladder accepts `char` to `short`; the language does not. */
  lemma CharToShortIsNotWidening()
    ensures IsImplicitConversionAsWritten(CharShortHost(), Some("char"), Some("short"))
    ensures !IsImplicitConversion(CharShortHost(), Some("char"), Some("short"))
  {
  }

  /** A host where `void` is a primitive off the ladder and `int` is on it. */
  function VoidIntHost(): Host {
    Host((a, b) => a == b,
         t => t == "void" || t == "int",
         t => if t == "int" then IntKind else OtherKind,
         t => if t == "int" then "java.lang.Integer" else t,
         t => t == "java.lang.Object")
  }

  /** The as-written ladder accepts `void` to `int`, since the level -1 of an off-ladder primitive
      is below every rung; the language has no such conversion. */
  lemma VoidToIntIsNotWidening()
    ensures IsImplicitConversionAsWritten(VoidIntHost(), Some("void"), Some("int"))
    ensures !IsImplicitConversion(VoidIntHost(), Some("void"), Some("int"))
  {
  }

  /** Implicit conversion is a strict order: it never relates a type to itself and it chains. */
  lemma ImplicitConversionIsStrictOrder(h: Host, a: Option<TypeRef>, b: Option<TypeRef>, c: Option<TypeRef>)
    ensures !IsImplicitConversion(h, a, a)
    ensures IsImplicitConversion(h, a, b) && IsImplicitConversion(h, b, c) ==> IsImplicitConversion(h, a, c)
    ensures IsImplicitConversion(h, a, b) ==> ConversionLevel(h, a) < ConversionLevel(h, b)
  {
  }

  /** `isBoxingConversion`: exactly one side is primitive and both box to the same class. */
  predicate IsBoxingConversion(h: Host, c1: TypeRef, c2: TypeRef)
    ensures IsBoxingConversion(h, c1, c2) ==> c1 != c2
  {
    h.isPrimitive(c1) != h.isPrimitive(c2) && h.box(c1) == h.box(c2)
  }

  /** `canUseForConversion`: a value of `from` can be passed where `to` is expected, exactly,
      by boxing or by assignment. */
  predicate CanUseForConversion(h: Host, from: TypeRef, to: TypeRef)
    ensures from == to ==> CanUseForConversion(h, from, to)
  {
    from == to || IsBoxingConversion(h, from, to) || h.assignableFrom(to, from)
  }
}

=== FILE: wrappers.dfy ===
/** Failure-compatible wrappers standing in for Java's `null` and thrown exceptions. */
module Wrappers {

  /** A value that may be absent; `None` plays the role of a Java `null`. */
  datatype Option<+T> = None | Some(value: T)

  /** The outcome of an operation that the source ends by throwing. */
  datatype Result<+T, +E> = Success(value: T) | Failure(error: E)
}
